=== FILE: README.md ===
# dragula, modelled in Dafny

dragula is a browser drag-and-drop library. `dragula(containers, options)`
builds a *drake*: it watches the listed containers and lets the user pick up
a child element and move it. A mouse grab starts once the pointer slides
past the slide factors. A touch grab starts after a timeout, unless the
finger first moves past the scroll threshold.

While dragging, a *mirror* (a clone of the element) follows the pointer.
The element itself (or its copy) is moved as a *shadow* into the container
under the pointer, before the sibling that the pointer position picks.
Release drops the element, or on a spill removes it or cancels the drag. The
drake emits `cloned`, `drag`, `over`, `out`, `shadow`, `drop`, `cancel`,
`remove` and `dragend` events through a small emitter. Classes are toggled
on the elements it touches (`gu-transit`, `gu-mirror`, `gu-unselectable`).

The model is functional. The document is a `Dom.Tree`: node ids, a parent
map and ordered child lists. The drake's state is a `Lifecycle.World`:
the tree, each node's `className`, and a `Session` holding the live drag,
the armed grab, the attached move listeners and the pending touch timeout.
Each handler is a function from a world (and the event's data) to a new
world plus the events it emitted, in order. The hooks (`moves`, `accepts`,
`invalid`, `copy`, `isContainer`) are total functions in `Policy.Options`.
Element geometry (`getBoundingClientRect`) and the element under the pointer
(`elementFromPoint`) are inputs in `Env`. A DOM call that would throw in the
browser stops the handler. The step then returns the world as it stood
when the call was made, with the events emitted before it.

Modules:
- `Wrappers`: `Option`.
- `Seqs`: `IndexOf` and removal on sequences.
- `Dom`: the tree, `getParent`, `nextEl`, `insertBefore`, `removeChild`, `cloneNode`, `isInput`, `isEditable`.
- `Classes`: `addClass` and `rmClass` on class strings.
- `Emitter`: the contra emitter.
- `Policy`: options, their defaults, `isContainer`, `canStart`.
- `Geometry`: `getImmediateChild`, `getReference`.
- `Lifecycle`: `start`, `renderMirrorImage`, `removeMirrorImage`, `end`, `drop`, `remove`, `cancel`, `cleanup`, `release`, `findDropTarget`, `drag`.
- `Gesture`: `whichMouseButton`, `grab`, the eventual-movement listeners, the touch timeout, `startDraggingGrabbed`, and one `Step` per input.
- `Notify`: routes the lifecycle events through the emitter.
- `LifecycleFacts` and `GestureFacts`: properties that span several operations.
- `SessionInvariant`: the invariant every input keeps (well-formed tree, session ids in use, a copy never in its own source).

## Model

| member | source | states |
|---|---|---|
| Dom.GetParentSpec | dragula.js:768 | in a well-formed tree `getParent` answers p exactly when the node is in p's child list, and null for the document element |
| Dom.NextEl | dragula.js:777-786 | the result is the element right after the given one among its parent's children; a detached element has none; a child that is not its parent's last child always has one |
| Dom.NextElIsSibling | dragula.js:777-786 | when child lists agree with the parent map and hold no duplicates, the next element has the same parent and is a different element |
| Dom.NextElBounded | dragula.js:777-786 | in a well-formed tree the next element is an id in use other than the element itself |
| Dom.DetachKeepsNextEl | dragula.js:633-640 | taking out a node that is neither the element nor its next sibling leaves the element's next sibling as it was |
| Dom.Detach | dragula.js:633-640 | `removeChild`: the node loses its parent; every other node keeps its parent; ids and tags are untouched |
| Dom.RemoveChild | dragula.js:501-505 | `parent.removeChild(child)` detaches the child when it is the parent's child and otherwise changes nothing |
| Dom.DetachPreservesWellFormed | dragula.js:343-354 | detaching keeps the tree well formed and leaves the node in no child list |
| Dom.InsertBefore | dragula.js:564 | `insertBefore`: when the insertion is legal, the node's parent becomes the target; otherwise the tree is unchanged; no other node changes parent |
| Dom.InsertBeforePlaces | dragula.js:564 | in a well-formed tree a legal `insertBefore` makes the reference (adjusted when it is the node itself) the node's next sibling, or leaves the node last when there is none |
| Dom.InsertBeforeKeepsOrder | dragula.js:564 | apart from the moved node, every child list keeps its elements in their order |
| Dom.InsertBeforePreservesWellFormed | dragula.js:564 | moving a node of the tree before a reference keeps the tree well formed |
| Dom.AttachPreservesWellFormed | dragula.js:627 | appending a detached fresh node keeps the tree well formed |
| Dom.Clone | dragula.js:617 | `cloneNode` takes the next free id and leaves the tree's shape as it was |
| Dom.CloneIsFresh | dragula.js:271 | the clone is a new node with no parent and no children, and the tree stays well formed |
| Dom.AncBounded | dragula.js:770-775 | every ancestor of an id in use is an id in use |
| Dom.IsEditableSpec | dragula.js:770-775 | `isEditable` holds iff some ancestor within the bound is `contentEditable` true, with only `inherit` below it |
| Dom.IsInputSpec | dragula.js:769 | `isInput` holds iff the tag is INPUT, TEXTAREA or SELECT, or some ancestor within the bound is `contentEditable` true with only `inherit` below it |
| Classes.MatchAtIsToken | dist/dragula.js:8-16 | the class regex `(?:^\|\s)name(?:\s\|$)` matches at i iff `name` is a whole space-separated token starting there |
| Classes.FoundIsHasToken | dist/dragula.js:8-16 | the regex `test` succeeds iff the class string holds the token |
| Classes.AddClass | dist/dragula.js:18-25 | after `addClass` the token is present; an empty class string becomes the name; an existing token leaves it as it was; otherwise ` name` is appended |
| Classes.AddClassIdempotent | dist/dragula.js:18-25 | adding the same class twice is the same as adding it once |
| Classes.AddClassKeepsTokens | dist/dragula.js:18-25 | adding a class keeps every token already present |
| Classes.ReplaceWithoutMatch | dist/dragula.js:27-29 | the global replace leaves a string with no match as it was |
| Classes.TrimStartDropsSpaces | dist/dragula.js:27-29 | the left trim keeps a suffix of the string, every dropped character is whitespace, and the kept part does not start with whitespace |
| Classes.TrimEndDropsSpaces | dist/dragula.js:27-29 | the right trim keeps a prefix of the string, every dropped character is whitespace, and the kept part does not end with whitespace |
| Classes.RmClass | dist/dragula.js:27-29 | `rmClass` of an absent token only trims the string |
| Classes.RmClassKeepsOtherTokens | dist/dragula.js:27-29 | removing one class keeps every other class of the string |
| Classes.RmClassRemovesSoleToken | dist/dragula.js:27-29 | when the class occurs once, it is gone after `rmClass` |
| Classes.RmClassSharedSeparator | dist/dragula.js:27-29 | two copies of a class that share one space: the global replace consumes that space with the first match, so `rmClass("a a", "a")` leaves `"a"` |
| Classes.RmClassOfLoneToken | dist/dragula.js:27-29 | removing the only class leaves the empty string |
| Emitter.NewRegistry | dist/dragula.js:892-894 | a new emitter has no listeners for any type |
| Emitter.On | dist/dragula.js:896-903 | `on` appends the listener to its type and leaves other types alone |
| Emitter.Once | dist/dragula.js:904-908 | `once` appends the listener and marks it as one-shot |
| Emitter.OffType | dist/dragula.js:909-913 | `off(type)` deletes every listener of that type only |
| Emitter.OffAll | dist/dragula.js:914-915 | `off()` deletes every listener of every type |
| Emitter.Off | dist/dragula.js:916-921 | `off(type, fn)` removes the first occurrence of fn; for an absent fn, `splice(-1, 1)` drops the last listener; an empty or missing list means no change |
| Emitter.CallsOf | dist/dragula.js:926-937 | one call per listener of the snapshot, in order, with the emitted arguments |
| Emitter.Emit | dist/dragula.js:922-938 | `emit` throws iff the type is `error`, `throws` is not off and there is no listener (one argument is thrown alone); otherwise it calls each listener of the snapshot in order |
| Emitter.EmitDropsOnceListeners | dist/dragula.js:926-938 | after an emit the type's list is the old one without its one-shot listeners; other types are untouched |
| Notify.TypeOf | dragula.js:599 | no lifecycle event is emitted under the `error` type |
| Notify.Publish | dist/dragula.js:922-938 | publishing a lifecycle event delivers it to its type's listeners and keeps the emitter's settings |
| Notify.PublishCalls | dist/dragula.js:922-938 | publishing a sequence of events calls, event by event and in order, every listener its type has at that point with that event; a one-shot listener fired by an earlier event of the same type is not called again |
| Notify.PublishKeepsPlainListeners | dist/dragula.js:926-938 | with no one-shot listeners, publishing any events leaves the emitter as it was |
| Policy.DefaultOptions | dragula.js:34-52 | the defaults: moves and accepts always, never invalid, copy or container for any arguments, vertical, no axis, ignore input text selection, thresholds 5 |
| Policy.Climb | dragula.js:229-238 | the climb from the handle stops at an element whose parent is missing or a container |
| Policy.ClimbSpec | dragula.js:229-238 | the climb ends at `top` iff `top` is the first ancestor within the bound whose parent is missing or a container, and no element passed on the way is `invalid` |
| Policy.CanStart | dragula.js:222-256 | a context exists only when not busy, the handle is not a container, the item's parent is a container (the source), `invalid` is false and `moves` is true |
| Policy.CanStartSpec | dragula.js:222-256 | `canStart` returns (item, source) iff all of its conditions hold, in both directions |
| Policy.DefaultsGrabChildOfContainer | dragula.js:222-256 | with default options, pressing a direct child of a container grabs that child |
| Geometry.ImmediateChild | dragula.js:642-651 | the result is an ancestor of the hit element that is not the document element and is the drop target or a child of it |
| Geometry.ImmediateChildBelow | dragula.js:642-651 | when the drop target is the k-th ancestor, the result is the ancestor one level below it (the target itself for k = 0) |
| Geometry.Outside | dragula.js:659-670 | `outside` returns the first child past the pointer on the direction's axis, or None iff no child is past it |
| Geometry.GetReference | dragula.js:653-693 | over a child it returns that child or its next sibling by the `inside` test; over the target it returns the first child past the pointer, or None |
| Geometry.ReferenceIsChild | dragula.js:653-693 | when children point back at their parent and none is listed twice, the reference is None or a child of the drop target |
| Geometry.VerticalInside | dragula.js:674-688 | vertically, a pointer in the upper half of a child inserts before it; one in the lower half inserts before the next sibling |
| Lifecycle.Listen | dragula.js:89 | attaching a listener adds it once; attaching a listener already present changes nothing |
| Lifecycle.CleanupEventualMovements | dragula.js:98-105 | both eventual-movement listeners are detached and the timeout is cleared; nothing else changes |
| Lifecycle.Ungrab | dragula.js:304-308 | the grab is dropped, as are its listeners and the timeout |
| Lifecycle.Start | dragula.js:269-290 | the drag records source, item and initial sibling and emits `drag`; under `copy` it clones first and emits `cloned` before it |
| Lifecycle.RenderMirror | dragula.js:612-631 | a missing mirror is created as a fresh clone; an existing one leaves everything as it was; item, source and copy are kept |
| Lifecycle.RemoveMirror | dragula.js:633-640 | with a mirror: it leaves the tree, the `drag` listener goes, the record forgets it; without one: no change; no other node changes parent |
| Lifecycle.FinalEvents | dragula.js:394-400 | `cleanup` emits `out` for the last drop target, if any, then `dragend` |
| Lifecycle.Cleanup | dragula.js:384-410 | nothing is dragging, grabbed or pending afterwards; a drag ends with `[out,] dragend`; when idle the tree and classes are unchanged; the only node it takes out of the tree is the mirror |
| Lifecycle.Accepted | dragula.js:431-444 | a candidate is accepted iff it is a container, its immediate child exists, and with the computed reference the drag is at its initial placement or `accepts` agrees; it raises iff a container has no immediate child |
| Lifecycle.FindFrom | dragula.js:424-445 | the result is the nearest accepting ancestor; None means no ancestor within the bound accepts |
| Lifecycle.FindDropTarget | dragula.js:424-445 | no element under the pointer means no target; a target found is a container and the nearest accepted ancestor-or-self of the hit element; no target means every ancestor was refused |
| Lifecycle.Drop | dragula.js:330-341 | the drop completes iff `removeChild` does not raise; then it clears grab and timeout and emits `cancel` at the initial placement or `drop` elsewhere, followed only by cleanup's events; the tree afterwards is the original item taken out of a sorted source (a copy dropped back into it under `copySortSource`), minus the mirror, and nothing else moves; a raise changes nothing |
| Lifecycle.End | dragula.js:296-302 | `end` does nothing unless dragging; it completes iff the drop into the element's current parent does not raise, and then clears the grab and the timeout, leaving the tree of that drop |
| Lifecycle.Remove | dragula.js:343-354 | the moving element leaves its parent, the mirror goes, and nothing else moves; a copy emits `cancel` and an item `remove`, followed only by cleanup's events |
| Lifecycle.Cancel | dragula.js:356-382 | idle means cleanup only; a live cancel completes iff the revert's `insertBefore` does not raise; it emits `cancel` when reverting or at the initial placement, else `drop` into the current parent; a revert takes a copy out of the tree, with only the mirror also going, and puts the item into its source before its initial sibling |
| Lifecycle.ReleaseRoutes | dragula.js:310-328 | release ungrabs, then drops into the target found; on a spill it removes under `removeOnSpill` and cancels otherwise |
| Lifecycle.MirrorAt | dragula.js:590-594 | a locked axis keeps the anchor's coordinate on that axis; the free axis follows the pointer |
| Lifecycle.Place | dragula.js:534-573 | exactly when the reference is null on a target change, or is neither the element nor its next sibling, the tree becomes that of `insertBefore`, `currentSibling` becomes the reference and `shadow` follows the insertion; otherwise tree, events and `currentSibling` stay |
| Lifecycle.Hover | dragula.js:489-495 | at most one `out`, for the previous target when the target changes or vanishes, and then at most one `over`, for a new target |
| Lifecycle.DragOver | dragula.js:489-506 | the step emits the hover events, then at most one `shadow` into the container the element now sits in; a copy over its own source without `copySortSource` leaves the tree, anything else is placed as `DragInto` states; `lastDropTarget` follows a change or loss of target; grab, listeners, timeout, classes, item, source, copy and mirror are kept |
| Lifecycle.DragInto | dragula.js:508-597 | over a child of the target the element is placed before `getReference`'s answer; off any container under `revertOnSpill` an item is placed before its initial sibling in its source; otherwise a copy leaves the tree and an item stays; an element outside the document changes nothing; at most one `shadow` is added, and the session's other fields are kept |
| Lifecycle.Drag | dragula.js:475-602 | with no mirror, or when the target search raises, nothing happens; otherwise the step keeps the drag's identity and the session's other fields |
| LifecycleFacts.IdleTerminalsAreQuiet | dragula.js:296-382 | `end`, `remove` and `cancel` with nothing dragging emit nothing and leave the tree alone |
| LifecycleFacts.CleanupIdempotent | dragula.js:384-410 | a second cleanup changes nothing and emits nothing |
| LifecycleFacts.DropAtInitialPlacementCancels | dragula.js:412-422 | a drop that does not raise ends the drag, and emits `cancel` iff the element is back at its initial placement |
| LifecycleFacts.StartAtInitialPlacement | dragula.js:412-422 | a drag that has just started has no mirror and is at its initial placement over its source, except a copy with a non-null initial sibling |
| LifecycleFacts.HoverEventsNameTargets | dragula.js:599-601 | in a step's events, `out` names the previous target and `over` a new non-null one; a trailing `shadow` names the element's container |
| LifecycleFacts.DragPlacement | dragula.js:500-574 | over a child of the target, a step that should move the element makes it a child of the target with `shadow` after the hover events and `currentSibling` set to the reference, and otherwise leaves tree and events; under `revertOnSpill` off any container an item is placed that way before its initial sibling in its source; otherwise a copy leaves the tree (also over its own source without `copySortSource`) and an item stays |
| LifecycleFacts.DragEvents | dragula.js:489-495 | `out` names the previous target, `over` the new one, and the last drop target is updated to the new one |
| LifecycleFacts.CopyOverSourceDetaches | dragula.js:501-506 | when the drop target is the copy's own source and `copySortSource` is off, the copy is taken out of the tree and only the hover events (no shadow) are emitted |
| LifecycleFacts.StartPutsCopyOutOfSource | dragula.js:269-290 | a fresh copy is not in its source container |
| LifecycleFacts.DragKeepsCopyOutOfSource | dragula.js:501-506 | without `copySortSource`, drag steps never put a copy into its source |
| LifecycleFacts.DragOverKeepsCopyOutOfSource | dragula.js:501-533 | each branch of the drag step keeps a copy out of its source |
| LifecycleFacts.ReleaseNeverDropsCopyIntoSource | dragula.js:310-341 | without `copySortSource` no `drop` event ever names a copy's source as its target |
| LifecycleFacts.DropEventFirst | dragula.js:330-341 | a `drop` event is the first event of the drop and names the target it was given |
| LifecycleFacts.RemoveEventsNoDrop | dragula.js:343-354 | `remove` never emits `drop` |
| LifecycleFacts.CancelEventFirst | dragula.js:356-382 | a `drop` from `cancel` names the element's current parent |
| SessionInvariant.CleanupKeepsInv | dragula.js:384-410 | cleanup leaves a state satisfying the invariant, and the id counter and document element stay |
| SessionInvariant.DropKeepsInv | dragula.js:330-341 | `drop` keeps the invariant |
| SessionInvariant.EndKeepsInv | dragula.js:296-302 | `end` keeps the invariant |
| SessionInvariant.RemoveKeepsInv | dragula.js:343-354 | `remove` keeps the invariant |
| SessionInvariant.CancelKeepsInv | dragula.js:356-382 | `cancel`, reverting or not, keeps the invariant |
| SessionInvariant.ReleaseKeepsInv | dragula.js:310-328 | `release` keeps the invariant |
| SessionInvariant.StartKeepsInv | dragula.js:269-290 | `start` of a context of ids in use keeps the invariant |
| SessionInvariant.RenderMirrorKeepsInv | dragula.js:612-631 | showing the mirror keeps the invariant |
| SessionInvariant.FoundTargetBounded | dragula.js:424-445 | a drop target found under an element of the document is an id in use |
| SessionInvariant.DragOverKeepsWellFormed | dragula.js:489-506 | the hover part of a drag step keeps the tree well formed |
| SessionInvariant.DragIntoKeepsWellFormed | dragula.js:508-597 | placing the element keeps the tree well formed |
| SessionInvariant.PlaceTree | dragula.js:534-573 | a placement keeps the tree well formed when its `insertBefore` does |
| SessionInvariant.DragKeepsInv | dragula.js:475-602 | a drag step keeps the invariant |
| SessionInvariant.CancelRevertRestores | dragula.js:367-374 | a reverting cancel takes a copy out of the tree, and puts the item back into its source right before its initial sibling whenever that insertion is legal |
| Gesture.WhichMouseButton | dragula.js:726-734 | touches give their count; a non-zero `which` is the button; then `buttons` as it is; None iff no field is defined |
| Gesture.LegacyButtonMapping | dragula.js:730-733 | the legacy `button` maps left to 1, middle to 2, right to 3 and none to 0, always in 0..3 |
| Gesture.SetupEventualMovements | dragula.js:87-96 | a mouse grab listens for `startIfMouseMoved`; a touch grab arms the timeout and listens for `abortIfFingerMoved` |
| Gesture.Grab | dragula.js:125-152 | a grab is armed only for a left click or touch without meta or ctrl that `canStart` accepts; the press position is always recorded |
| Gesture.StartDraggingGrabbed | dragula.js:154-172 | the timeout is cleared and a drag of the grabbed item, with a mirror, is live unless ending the previous drag raised; a non-copy emits `drag` first |
| Gesture.ShowGrabbed | dragula.js:158-171 | the grabbed item is dragged with a mirror, the timeout is untouched, and a non-copy emits `drag` first |
| Gesture.MarkTransit | dragula.js:160-169 | the moving element gains `gu-transit`; only the drag's offset and anchor and that element's classes change |
| Gesture.StartIfMouseMoved | dragula.js:185-210 | nothing without a grab; a buttonless move ungrabs, leaving a live drag in place because `release({})` raises on its undefined coordinates; a move within the slide factors, to the press point or over an input waits; any other move starts a drag of the grabbed item, with a mirror |
| Gesture.AbortIfFingerMoved | dragula.js:212-220 | moving past the threshold clears the timeout and listeners; a move within it changes nothing |
| Gesture.TimerFired | dragula.js:91-93 | with no timeout or grab, nothing fires; otherwise the grabbed item is dragged with a mirror and the timeout is cleared |
| Gesture.ManualStart | dragula.js:262-267 | `drake.start` starts dragging the element `canStart` finds, and does nothing when it finds none |
| GestureFacts.ReleaseClearsTimer | dragula.js:310-328 | after a release no timeout is pending |
| GestureFacts.TerminalsKeepTimerWithGrab | dragula.js:296-382 | `end`, `cancel` and `remove` keep the invariant that a pending timeout has a grab |
| GestureFacts.ListenersKeepTimerWithGrab | dragula.js:185-220 | the move listeners, run over the snapshot, keep the invariant |
| GestureFacts.StepKeepsTimerWithGrab | dragula.js:87-105 | every input keeps the invariant that a pending timeout belongs to an armed grab |
| GestureFacts.MouseGrabWaitsWithinSlide | dragula.js:194-197 | with no drag live and no touch pending, a mouse move within the slide factors changes nothing, whatever listeners are attached |
| GestureFacts.FingerMoveCancelsTouchStart | dragula.js:212-220 | once the finger moves past the threshold, the timeout is cleared and never starts a drag, whatever other listeners run |
| GestureFacts.CanStartCtxOk | dragula.js:222-256 | what `canStart` returns names ids of the tree, and the item is not the document element |
| GestureFacts.GrabKeepsInv | dragula.js:125-152 | `grab` keeps the invariant |
| GestureFacts.ShowGrabbedKeepsInv | dragula.js:158-171 | starting and showing the grabbed item keeps the invariant |
| GestureFacts.StartDraggingGrabbedKeepsInv | dragula.js:154-172 | `startDraggingGrabbed` keeps the invariant |
| GestureFacts.StartIfMouseMovedKeepsInv | dragula.js:185-210 | `startIfMouseMoved` keeps the invariant |
| GestureFacts.TimerFiredKeepsInv | dragula.js:91-93 | the touch timeout keeps the invariant |
| GestureFacts.ManualStartKeepsInv | dragula.js:262-267 | `drake.start` keeps the invariant |
| GestureFacts.RunListenersKeepInv | dragula.js:185-220 | the move listeners keep the invariant |
| GestureFacts.StepKeepsInv | dragula.js:81-220 | every input keeps the invariant: the tree stays well formed and, without `copySortSource`, no copy is ever a child of its own source |

## Left out

- Acyclicity: climbs up the tree (`canStart`, `findDropTarget`, `getImmediateChild`, `isEditable`) are bounded by the number of parented nodes plus one. `WellFormed` does not rule out a parent cycle (two nodes that are each other's parent satisfy it). The model assumes the document is acyclic, as a DOM is, and does not prove it; on a cycle the bound cuts the climb short.
- The invariant's premises: `SessionInvariant.Inv` holds of the first state only if the document is well formed and the mirror container is in it; `EnvOk` assumes the element under the pointer is an element of the document. Both are assumed of the host, not proved.
- Animation: the model assumes `animationDuration` is 0, the default. With animation on, `drag` can return early at dragula.js:557-559 after recording the sibling, without moving the element, emitting `shadow` or moving the mirror; that path and the `animate` transitions are not modelled.
- Mirror styling (`width`, `height`, `left`, `top` in px): the model keeps the mirror position as a point and drops the pixel strings.
- Numbers: element boxes and pointer coordinates are integers, where the browser gives doubles. Midpoint tests compare doubled values (`2y` against `2top + height`), so no division is needed.
- Scroll offsets (`getOffset`, `getScroll`) are taken as 0: page and client coordinates coincide.
- `getElementBehindPoint` and `elementFromPoint` are inputs (`Env.hit`). The temporary `gu-hide` class they set on the mirror is left out.
- `preventDefault`, `focus`, `blur` and `preventGrabbedEvents` have no effect on the model's state and are left out.
- `touchy` and `crossvent` event wiring (`events`, pointer and MS event names) is folded into the `Step` inputs.
- `destroy` and `canMove` are not modelled. `destroy` detaches the document listeners and then calls `release({})` (dragula.js:114-117). That call ungrabs; with a drag live, the coordinates of `{}` are undefined (dragula.js:317-318, 801-810) and `elementFromPoint` raises on them before any drop, remove or cancel, so the drag stays live. The model's `release({})` is that ungrab alone. `canMove` is `canStart` with the answer turned into a boolean.
- The `removeOnSpill` `over`/`out` listeners (`spillOver`/`spillOut`, the `gu-hide` class) are left out.
- Hooks are pure and return booleans: a hook that mutates the DOM or throws is outside the model.
- The touch timeout: the model tracks one timeout. In the source, re-arming overwrites the handle and leaks the older timeout.
- The timeout fires with the coordinates of the press that armed it, as the code does, not with the position at fire time.
- `_renderTimer` is declared but never set in the source, so it is left out.
- Listeners are not re-entrant: a listener that emits from inside another emit is outside the model.
- Classes.AddClass, Classes.RmClass: class names are assumed to be made of word characters and hyphens (`ClassName`). The source puts the name into a regular expression unescaped, so a name with other characters (`.`, `+`, `(`) would match other strings or raise; the model does not cover those.
- Emitter: event types are assumed not to be names of `Object.prototype` properties (`constructor`, `toString`, `hasOwnProperty`, `__proto__` and the like). The source keeps listeners in a plain object, so for such a type `on` and `emit` find an inherited value and raise; the model treats every type as a fresh key.
- The emitter's `async` mode (`debounce`/`ticky`) is left out: only synchronous delivery is modelled.
- The built file's drake: dist/dragula.js is an older build whose drake differs from dragula.js. For example, it tells a touch scroll from a drag by timing the touch with `Date` (dist/dragula.js:177, 202) instead of a timeout. The model follows dragula.js for the drake and uses the built file only for its `classes` and `emitter` modules.
- Dom.Clone: the clone gets no copies of the element's descendants. So containers, inputs or `contentEditable` elements nested inside a copied item are not in the copy, and `findDropTarget`, `isInput` and `isEditable` cannot reach them through it.
- RmClass: removal is proved only when the class occurs once (`RmClassRemovesSoleToken`). Two copies separated by one space share it, so the global replace leaves one of them; `RmClassSharedSeparator` shows that case.
- Lifecycle.RemoveMirror: a detached mirror (where the source's `removeChild` raises) is treated as a no-op; the model's mirror is never detached.
- Geometry.ImmediateChild: where the source raises (climbing past the document element while a drop target is set), the model answers None. Callers never pass such an element.
- Gesture.WhichMouseButton: bit tests are on unbounded integers, not 32-bit ones.
- Lifecycle.Release, Gesture.RunListeners and Gesture.Step carry no contract of their own; ReleaseRoutes and the GestureFacts lemmas state their behaviour.
- Lifecycle.IsInitialPlacement and Lifecycle.PlacedSibling are predicates without contracts; `DropAtInitialPlacementCancels`, `StartAtInitialPlacement` and `Accepted` state what they decide.
- The DOM's `addEventListener` dedupe is modelled as set semantics over handler kinds (`Listen`).

=== FILE: classes.dfy ===
/**
 * The class-list helper: `className` strings edited through the pattern
 * `(?:^|\s)NAME(?:\s|$)`, searched globally. NAME is interpolated into the
 * pattern unescaped, so it means itself only for names made of word
 * characters and hyphens; the model takes such names.
 */
module Classes {
  import opened Wrappers

  /** JavaScript's `\s`, which is also the set `String.prototype.trim` strips. */
  predicate IsSpace(c: char) {
    || c == ' ' || c == '\t' || c == '\n' || c == '\r' || c == '\U{B}' || c == '\U{C}'
    || c == '\U{A0}' || c == '\U{1680}' || ('\U{2000}' <= c <= '\U{200A}')
    || c == '\U{2028}' || c == '\U{2029}' || c == '\U{202F}' || c == '\U{205F}'
    || c == '\U{3000}' || c == '\U{FEFF}'
  }

  predicate IsNameChar(c: char) {
    ('a' <= c <= 'z') || ('A' <= c <= 'Z') || ('0' <= c <= '9') || c == '_' || c == '-'
  }

  /** A class name the pattern reads literally: non-empty, word characters and hyphens. */
  predicate ClassName(name: string) {
    |name| > 0 && forall i :: 0 <= i < |name| ==> IsNameChar(name[i])
  }

  /** `name` occurs in `s` at `i` as a whole whitespace-separated token. */
  predicate IsTokenAt(s: string, name: string, i: nat) {
    && i + |name| <= |s|
    && s[i..i + |name|] == name
    && (i == 0 || IsSpace(s[i - 1]))
    && (i + |name| == |s| || IsSpace(s[i + |name|]))
  }

  ghost predicate HasToken(s: string, name: string) {
    exists i: nat :: i <= |s| && IsTokenAt(s, name, i)
  }

  /** `(?:\s|$)` at `j`: the length it consumes, if it matches. */
  function TrailAt(s: string, j: nat): (r: Option<nat>)
    ensures r.Some? ==> j + r.value <= |s| && r.value <= 1
  {
    if j < |s| && IsSpace(s[j]) then Some(1)
    else if j == |s| then Some(0)
    else None
  }

  predicate NameAt(s: string, name: string, i: nat) {
    i + |name| <= |s| && s[i..i + |name|] == name
  }

  /** The length of the pattern's match starting exactly at `i`, trying `^` before `\s`. */
  function MatchAt(s: string, name: string, i: nat): (r: Option<nat>)
    requires |name| > 0
    ensures r.Some? ==> i + r.value <= |s| && r.value >= 1
  {
    if i == 0 && NameAt(s, name, 0) && TrailAt(s, |name|).Some? then
      Some(|name| + TrailAt(s, |name|).value)
    else if i < |s| && IsSpace(s[i]) && NameAt(s, name, i + 1) && TrailAt(s, i + 1 + |name|).Some? then
      Some(1 + |name| + TrailAt(s, i + 1 + |name|).value)
    else None
  }

  /** A match starts at `i` exactly when a token starts at `i`, or one starts right after a space at `i`. */
  lemma MatchAtIsToken(s: string, name: string, i: nat)
    requires ClassName(name)
    ensures MatchAt(s, name, i).Some? <==>
      (i == 0 && IsTokenAt(s, name, 0)) || (i < |s| && IsSpace(s[i]) && IsTokenAt(s, name, i + 1))
  {
    if i == 0 && IsTokenAt(s, name, 0) {
      assert NameAt(s, name, 0);
    }
    if i < |s| && IsSpace(s[i]) && IsTokenAt(s, name, i + 1) {
      assert NameAt(s, name, i + 1);
    }
  }

  /** `pattern.test(s)` run from position `i`: some match starts at or after `i`. */
  function Found(s: string, name: string, i: nat): bool
    requires |name| > 0
    decreases |s| - i
  {
    i <= |s| && (MatchAt(s, name, i).Some? || (i < |s| && Found(s, name, i + 1)))
  }

  /** The pattern test agrees with the token reading of a class list. */
  lemma {:induction false} FoundIsHasToken(s: string, name: string)
    requires ClassName(name)
    ensures Found(s, name, 0) <==> HasToken(s, name)
  {
    if Found(s, name, 0) {
      var j := FoundWitness(s, name, 0);
      MatchAtIsToken(s, name, j);
      if j == 0 && IsTokenAt(s, name, 0) {
        assert IsTokenAt(s, name, 0);
      } else {
        assert IsTokenAt(s, name, j + 1);
      }
    }
    if HasToken(s, name) {
      var j: nat :| j <= |s| && IsTokenAt(s, name, j);
      var m: nat := if j == 0 then 0 else j - 1;
      MatchAtIsToken(s, name, m);
      FoundFrom(s, name, 0, m);
    }
  }

  lemma {:induction false} FoundFrom(s: string, name: string, i: nat, m: nat)
    requires |name| > 0
    requires i <= m <= |s| && MatchAt(s, name, m).Some?
    ensures Found(s, name, i)
    decreases m - i
  {
    if i < m {
      FoundFrom(s, name, i + 1, m);
    }
  }

  lemma {:induction false} FoundWitness(s: string, name: string, i: nat) returns (j: nat)
    requires |name| > 0
    requires Found(s, name, i)
    ensures i <= j <= |s| && MatchAt(s, name, j).Some?
    decreases |s| - i
  {
    if MatchAt(s, name, i).Some? {
      j := i;
    } else {
      j := FoundWitness(s, name, i + 1);
    }
  }

  /** `addClass`: set the name on an empty list, append it when it is not yet a token, else leave the list. */
  function AddClass(current: string, name: string): (r: string)
    requires ClassName(name)
    ensures HasToken(r, name)
    ensures |current| == 0 ==> r == name
    ensures |current| > 0 && HasToken(current, name) ==> r == current
    ensures |current| > 0 && !HasToken(current, name) ==> r == current + " " + name
  {
    FoundIsHasToken(current, name);
    var r := if |current| == 0 then name
      else if Found(current, name, 0) then current
      else current + " " + name;
    assert HasToken(r, name) by {
      if |current| == 0 {
        assert IsTokenAt(r, name, 0);
      } else if !Found(current, name, 0) {
        assert r[|current| + 1..] == name;
        assert IsTokenAt(r, name, |current| + 1);
      }
    }
    r
  }

  /** Adding a class twice is adding it once. */
  lemma AddClassIdempotent(current: string, name: string)
    requires ClassName(name)
    ensures AddClass(AddClass(current, name), name) == AddClass(current, name)
  {
    var once := AddClass(current, name);
    assert |once| > 0;
  }

  /** Adding a class keeps every token that was already in the list. */
  lemma AddClassKeepsTokens(current: string, name: string, other: string)
    requires ClassName(name) && ClassName(other)
    requires HasToken(current, other)
    ensures HasToken(AddClass(current, name), other)
  {
    var r := AddClass(current, name);
    var j: nat :| j <= |current| && IsTokenAt(current, other, j);
    if r != current {
      assert |current| > 0;
      assert r == current + " " + name;
      assert r[j..j + |other|] == current[j..j + |other|];
      assert IsTokenAt(r, other, j);
    }
  }

  /** `className.replace(pattern, ' ')` from position `i`: each match becomes one space. */
  function ReplaceFrom(s: string, name: string, i: nat): string
    requires |name| > 0 && i <= |s|
    decreases |s| - i
  {
    if i == |s| then ""
    else match MatchAt(s, name, i)
      case Some(k) => " " + ReplaceFrom(s, name, i + k)
      case None => [s[i]] + ReplaceFrom(s, name, i + 1)
  }

  /** Without a match from `i` on, the replacement copies the rest of the string. */
  lemma {:induction false} ReplaceWithoutMatch(s: string, name: string, i: nat)
    requires |name| > 0 && i <= |s|
    requires !Found(s, name, i)
    ensures ReplaceFrom(s, name, i) == s[i..]
    decreases |s| - i
  {
    if i < |s| {
      ReplaceWithoutMatch(s, name, i + 1);
      assert s[i..] == [s[i]] + s[i + 1..];
    }
  }

  /** The first position at or after `i` that is not whitespace (or the end). */
  function SkipSpaces(s: string, i: nat): (n: nat)
    requires i <= |s|
    ensures i <= n <= |s|
    decreases |s| - i
  {
    if i < |s| && IsSpace(s[i]) then SkipSpaces(s, i + 1) else i
  }

  /** The position just after the last non-whitespace before `j` (or the start). */
  function BackSpaces(s: string, j: nat): (n: nat)
    requires j <= |s|
    ensures n <= j
  {
    if j > 0 && IsSpace(s[j - 1]) then BackSpaces(s, j - 1) else j
  }

  /** `SkipSpaces` stops at the first non-whitespace and passes only whitespace. */
  lemma {:induction false} SkipSpacesStops(s: string, i: nat)
    requires i <= |s|
    ensures var n := SkipSpaces(s, i);
      (n < |s| ==> !IsSpace(s[n])) && forall k :: i <= k < n ==> IsSpace(s[k])
    decreases |s| - i
  {
    if i < |s| && IsSpace(s[i]) {
      SkipSpacesStops(s, i + 1);
    }
  }

  /** `BackSpaces` stops after the last non-whitespace and passes only whitespace. */
  lemma {:induction false} BackSpacesStops(s: string, j: nat)
    requires j <= |s|
    ensures var n := BackSpaces(s, j);
      (n > 0 ==> !IsSpace(s[n - 1])) && forall k :: n <= k < j ==> IsSpace(s[k])
  {
    if j > 0 && IsSpace(s[j - 1]) {
      BackSpacesStops(s, j - 1);
    }
  }

  /** Leading whitespace goes. */
  function TrimStart(s: string): (r: string)
    ensures |r| <= |s|
  {
    s[SkipSpaces(s, 0)..]
  }

  /** Trailing whitespace goes. */
  function TrimEnd(s: string): (r: string)
    ensures |r| <= |s|
  {
    s[..BackSpaces(s, |s|)]
  }

  /** What `TrimStart` leaves is a suffix, only whitespace is dropped, and what is left does not start with it. */
  lemma TrimStartDropsSpaces(s: string)
    ensures TrimStart(s) == s[|s| - |TrimStart(s)|..]
    ensures forall i :: 0 <= i < |s| - |TrimStart(s)| ==> IsSpace(s[i])
    ensures |TrimStart(s)| == 0 || !IsSpace(TrimStart(s)[0])
  {
    SkipSpacesStops(s, 0);
  }

  /** What `TrimEnd` leaves is a prefix, only whitespace is dropped, and what is left does not end with it. */
  lemma TrimEndDropsSpaces(s: string)
    ensures TrimEnd(s) == s[..|TrimEnd(s)|]
    ensures forall i :: |TrimEnd(s)| <= i < |s| ==> IsSpace(s[i])
    ensures |TrimEnd(s)| == 0 || !IsSpace(TrimEnd(s)[|TrimEnd(s)| - 1])
  {
    BackSpacesStops(s, |s|);
  }

  /** `String.prototype.trim`. */
  function Trim(s: string): string {
    TrimEnd(TrimStart(s))
  }

  /** `rmClass`: replace every match (with its bounding whitespace) by one space, then trim. */
  function RmClass(current: string, name: string): (r: string)
    requires ClassName(name)
    ensures !HasToken(current, name) ==> r == Trim(current)
  {
    FoundIsHasToken(current, name);
    assert !Found(current, name, 0) ==> ReplaceFrom(current, name, 0) == current by {
      if !Found(current, name, 0) {
        ReplaceWithoutMatch(current, name, 0);
        assert current[0..] == current;
      }
    }
    Trim(ReplaceFrom(current, name, 0))
  }

  /** A single token is removed entirely. */
  lemma RmClassOfLoneToken(name: string)
    requires ClassName(name)
    ensures RmClass(name, name) == ""
  {
    assert name[0..|name|] == name;
    assert MatchAt(name, name, 0) == Some(|name|);
    assert ReplaceFrom(name, name, 0) == " ";
    assert TrimStart(" ") == "" by {
      assert " "[1..] == "";
    }
  }

  /** Trimming in front stops at the first non-space, so what follows it is kept whole. */
  lemma TrimStartBefore(x: string, z: string)
    requires |z| > 0 && !IsSpace(z[0])
    ensures TrimStart(x + z) == TrimStart(x) + z
  {
    var m := SkipSpaces(x, 0);
    var n := SkipSpaces(x + z, 0);
    SkipSpacesStops(x, 0);
    SkipSpacesStops(x + z, 0);
    assert (x + z)[m] == if m < |x| then x[m] else z[0];
    assert n == m;
    assert (x + z)[m..] == x[m..] + z;
  }

  /** Trimming at the back stops at the last non-space, so what precedes it is kept whole. */
  lemma TrimEndAfter(z: string, y: string)
    requires |z| > 0 && !IsSpace(z[|z| - 1])
    ensures TrimEnd(z + y) == z + TrimEnd(y)
  {
    var m := BackSpaces(y, |y|);
    var n := BackSpaces(z + y, |z + y|);
    BackSpacesStops(y, |y|);
    BackSpacesStops(z + y, |z + y|);
    assert (z + y)[|z| + m - 1] == if m > 0 then y[m - 1] else z[|z| - 1];
    assert n == |z| + m;
    assert (z + y)[..|z| + m] == z + y[..m];
  }

  /** Trimming around a token of name letters only trims what lies outside it. */
  lemma TrimAround(x: string, tok: string, y: string)
    requires ClassName(tok)
    ensures Trim(x + tok + y) == TrimStart(x) + tok + TrimEnd(y)
  {
    ConcatAssoc(x, tok, y);
    TrimStartBefore(x, tok + y);
    ConcatAssoc(TrimStart(x), tok, y);
    TrimEndAfter(TrimStart(x) + tok, y);
  }

  /** A name set between whitespace (or the ends) is a token there. */
  lemma TokenBetween(a: string, tok: string, b: string)
    requires ClassName(tok)
    requires |a| == 0 || IsSpace(a[|a| - 1])
    requires |b| == 0 || IsSpace(b[0])
    ensures IsTokenAt(a + tok + b, tok, |a|)
  {
    var r := a + tok + b;
    assert r[|a|..|a| + |tok|] == tok;
    if |a| > 0 {
      assert r[|a| - 1] == a[|a| - 1];
    }
    if |b| > 0 {
      assert r[|a| + |tok|] == b[0];
    }
  }

  /** A token between whitespace (or the ends) is still a token once the string is trimmed. */
  lemma TrimKeepsToken(x: string, tok: string, y: string)
    requires ClassName(tok)
    requires |x| == 0 || IsSpace(x[|x| - 1])
    requires |y| == 0 || IsSpace(y[0])
    ensures HasToken(Trim(x + tok + y), tok)
  {
    TrimAround(x, tok, y);
    var xs := TrimStart(x);
    var ye := TrimEnd(y);
    TrimStartDropsSpaces(x);
    TrimEndDropsSpaces(y);
    if |xs| > 0 {
      assert xs[|xs| - 1] == x[|x| - 1];
    }
    if |ye| > 0 {
      assert ye[0] == y[0];
    }
    TokenBetween(xs, tok, ye);
  }

  /** A token of a suffix that follows whitespace (or starts the string) is a token of the string. */
  lemma TokenOfSuffix(z: string, a: nat, name: string, i: nat)
    requires ClassName(name) && a <= |z| && IsTokenAt(z[a..], name, i)
    requires a == 0 || IsSpace(z[a - 1])
    ensures IsTokenAt(z, name, a + i)
  {
    var u := z[a..];
    if i > 0 {
      assert z[a + i - 1] == u[i - 1];
    }
    if i + |name| < |u| {
      assert z[a + i + |name|] == u[i + |name|];
    }
    TokenShift(u, z, name, i, a + i);
  }

  /** A token of a prefix that precedes whitespace (or ends the string) is a token of the string. */
  lemma TokenOfPrefix(z: string, b: nat, name: string, i: nat)
    requires ClassName(name) && b <= |z| && IsTokenAt(z[..b], name, i)
    requires b == |z| || IsSpace(z[b])
    ensures IsTokenAt(z, name, i)
  {
    var u := z[..b];
    if i + |name| < b {
      assert z[i + |name|] == u[i + |name|];
    }
    TokenShift(u, z, name, i, i);
  }

  /** Trimming never makes a token: one in the trimmed string is one in the original. */
  lemma TrimMakesNoToken(z: string, name: string, i: nat)
    requires ClassName(name) && IsTokenAt(Trim(z), name, i)
    ensures IsTokenAt(z, name, SkipSpaces(z, 0) + i)
  {
    var a := SkipSpaces(z, 0);
    var zs := z[a..];
    var b := BackSpaces(zs, |zs|);
    SkipSpacesStops(z, 0);
    BackSpacesStops(zs, |zs|);
    TokenOfPrefix(zs, b, name, i);
    TokenOfSuffix(z, a, name, i);
  }

  /** Two tokens that overlap in a string start at the same place and are the same name. */
  lemma TokensOverlapSame(s: string, a: string, i: nat, b: string, j: nat)
    requires ClassName(a) && ClassName(b)
    requires IsTokenAt(s, a, i) && IsTokenAt(s, b, j) && i <= j < i + |a|
    ensures i == j && a == b
  {
  }

  /** The token a match consumes, and where the match ends. */
  lemma MatchShape(s: string, name: string, i: nat) returns (q: nat)
    requires ClassName(name) && MatchAt(s, name, i).Some?
    ensures (q == 0 && i == 0) || (q == i + 1 && IsSpace(s[i]))
    ensures IsTokenAt(s, name, q)
    ensures var e := i + MatchAt(s, name, i).value;
      e == q + |name| || (e == q + |name| + 1 && IsSpace(s[q + |name|]))
  {
    if i == 0 && NameAt(s, name, 0) && TrailAt(s, |name|).Some? {
      q := 0;
    } else {
      q := i + 1;
    }
  }

  /** No match of `name` covers any part of a token of another name, nor its first letter. */
  lemma MatchStopsBefore(s: string, name: string, other: string, j: nat, i: nat)
    requires ClassName(name) && ClassName(other) && name != other
    requires IsTokenAt(s, other, j) && i < j && MatchAt(s, name, i).Some?
    ensures i + MatchAt(s, name, i).value <= j
  {
    var q := MatchShape(s, name, i);
    if j < q + |name| {
      TokensOverlapSame(s, name, q, other, j);
    }
  }

  lemma ConcatAssoc(a: string, b: string, c: string)
    ensures a + (b + c) == (a + b) + c
  {
  }

  /** One step of the replacement: a match becomes a space, anything else is copied. */
  lemma ReplaceStep(s: string, name: string, i: nat)
    requires |name| > 0 && i < |s|
    ensures MatchAt(s, name, i).Some? ==>
      ReplaceFrom(s, name, i) == " " + ReplaceFrom(s, name, i + MatchAt(s, name, i).value)
    ensures MatchAt(s, name, i).None? ==> ReplaceFrom(s, name, i) == [s[i]] + ReplaceFrom(s, name, i + 1)
  {
  }

  /** One more character in front of a piece that ends in whitespace (or of nothing, when it is whitespace itself). */
  lemma Prepend(c: string, x': string, tail: string, whole: string) returns (x: string)
    requires |c| == 1 && whole == c + (x' + tail)
    requires |x'| == 0 || IsSpace(x'[|x'| - 1])
    requires |x'| == 0 ==> IsSpace(c[0])
    ensures whole == x + tail && |x| > 0 && IsSpace(x[|x| - 1])
  {
    x := c + x';
    ConcatAssoc(c, x', tail);
    if |x'| > 0 {
      assert x[|x| - 1] == x'[|x'| - 1];
    }
  }

  /** No match before `j` runs past it. */
  ghost predicate MatchesStopAt(s: string, name: string, i: nat, j: nat)
    requires |name| > 0
  {
    forall m :: i <= m < j ==> MatchAt(s, name, m).None? || m + MatchAt(s, name, m).value <= j
  }

  /**
   * The replacement scanning towards `j`, where whitespace (or the start)
   * precedes and no earlier match runs past, reaches `j` after whitespace.
   */
  lemma {:induction false} ReplaceReaches(s: string, name: string, j: nat, i: nat) returns (x: string)
    requires |name| > 0 && i <= j <= |s| && (j > 0 ==> IsSpace(s[j - 1]))
    requires MatchesStopAt(s, name, i, j)
    ensures ReplaceFrom(s, name, i) == x + ReplaceFrom(s, name, j)
    ensures |x| == 0 || IsSpace(x[|x| - 1])
    ensures i < j ==> |x| > 0
    decreases j - i, 1
  {
    if i == j {
      x := "";
    } else if MatchAt(s, name, i).Some? {
      x := ReachesOverMatch(s, name, j, i);
    } else {
      x := ReachesOverChar(s, name, j, i);
    }
  }

  lemma {:induction false} ReachesOverMatch(s: string, name: string, j: nat, i: nat) returns (x: string)
    requires |name| > 0 && i < j <= |s| && (j > 0 ==> IsSpace(s[j - 1]))
    requires MatchesStopAt(s, name, i, j) && MatchAt(s, name, i).Some?
    ensures ReplaceFrom(s, name, i) == x + ReplaceFrom(s, name, j)
    ensures |x| > 0 && IsSpace(x[|x| - 1])
    decreases j - i, 0
  {
    var k := MatchAt(s, name, i).value;
    ReplaceStep(s, name, i);
    assert MatchesStopAt(s, name, i + k, j);
    var x' := ReplaceReaches(s, name, j, i + k);
    x := Prepend(" ", x', ReplaceFrom(s, name, j), ReplaceFrom(s, name, i));
  }

  lemma {:induction false} ReachesOverChar(s: string, name: string, j: nat, i: nat) returns (x: string)
    requires |name| > 0 && i < j <= |s| && (j > 0 ==> IsSpace(s[j - 1]))
    requires MatchesStopAt(s, name, i, j) && MatchAt(s, name, i).None?
    ensures ReplaceFrom(s, name, i) == x + ReplaceFrom(s, name, j)
    ensures |x| > 0 && IsSpace(x[|x| - 1])
    decreases j - i, 0
  {
    ReplaceStep(s, name, i);
    assert MatchesStopAt(s, name, i + 1, j);
    var x' := ReplaceReaches(s, name, j, i + 1);
    x := Prepend([s[i]], x', ReplaceFrom(s, name, j), ReplaceFrom(s, name, i));
  }

  /** Where no match starts, the replacement copies the string. */
  lemma {:induction false} ReplaceCopies(s: string, name: string, i: nat, p: nat)
    requires |name| > 0 && i <= p <= |s|
    requires forall m :: i <= m < p ==> MatchAt(s, name, m).None?
    ensures ReplaceFrom(s, name, i) == s[i..p] + ReplaceFrom(s, name, p)
    decreases p - i
  {
    if i < p {
      ReplaceStep(s, name, i);
      ReplaceCopies(s, name, i + 1, p);
      ConcatAssoc([s[i]], s[i + 1..p], ReplaceFrom(s, name, p));
      assert s[i..p] == [s[i]] + s[i + 1..p];
    }
  }

  /** A token of another name is copied as it stands, and what follows it starts with whitespace. */
  lemma ReplaceAtToken(s: string, name: string, other: string, j: nat) returns (y: string)
    requires ClassName(name) && ClassName(other) && name != other
    requires IsTokenAt(s, other, j)
    ensures ReplaceFrom(s, name, j) == other + y
    ensures |y| == 0 || IsSpace(y[0])
  {
    var e := j + |other|;
    forall m | j <= m < e
      ensures MatchAt(s, name, m).None?
    {
      assert s[m] == s[j..e][m - j];
      if MatchAt(s, name, m).Some? {
        var q := MatchShape(s, name, m);
        TokensOverlapSame(s, other, j, name, q);
      }
    }
    ReplaceCopies(s, name, j, e);
    y := ReplaceFrom(s, name, e);
  }

  /** `rmClass` of one name keeps every other class of the list. */
  lemma RmClassKeepsOtherTokens(current: string, name: string, other: string)
    requires ClassName(name) && ClassName(other) && name != other
    requires HasToken(current, other)
    ensures HasToken(RmClass(current, name), other)
  {
    var j: nat :| j <= |current| && IsTokenAt(current, other, j);
    forall m | 0 <= m < j
      ensures MatchAt(current, name, m).None? || m + MatchAt(current, name, m).value <= j
    {
      if MatchAt(current, name, m).Some? {
        MatchStopsBefore(current, name, other, j, m);
      }
    }
    assert MatchesStopAt(current, name, 0, j);
    var x := ReplaceReaches(current, name, j, 0);
    var y := ReplaceAtToken(current, name, other, j);
    assert ReplaceFrom(current, name, 0) == x + other + y;
    TrimKeepsToken(x, other, y);
  }

  /** A token carries over to another string that has the same letters and whitespace (or ends) around them. */
  lemma TokenShift(u: string, v: string, name: string, p: nat, q: nat)
    requires ClassName(name) && IsTokenAt(u, name, p) && q + |name| <= |v|
    requires forall k :: q <= k < q + |name| ==> v[k] == u[k - q + p]
    requires q == 0 || IsSpace(v[q - 1])
    requires q + |name| == |v| || IsSpace(v[q + |name|])
    ensures IsTokenAt(v, name, q)
  {
    forall d | 0 <= d < |name|
      ensures v[q..q + |name|][d] == name[d]
    {
      assert v[q + d] == u[p + d] == u[p..p + |name|][d];
    }
  }

  /** With `name` a token at `q` only, no match starts in a stretch that neither holds `q` nor ends just before it. */
  lemma NoOtherMatch(s: string, name: string, q: nat, lo: nat, hi: nat)
    requires ClassName(name) && IsTokenAt(s, name, q)
    requires forall i, j :: IsTokenAt(s, name, i) && IsTokenAt(s, name, j) ==> i == j
    requires hi < q || hi == 0 || lo > q
    ensures forall m :: lo <= m < hi ==> MatchAt(s, name, m).None?
  {
    forall m | lo <= m < hi
      ensures MatchAt(s, name, m).None?
    {
      if MatchAt(s, name, m).Some? {
        var r := MatchShape(s, name, m);
      }
    }
  }

  /** Where the only match sits when `name` is a token at exactly one place, and what the replacement makes of the string. */
  lemma SoleMatch(s: string, name: string, q: nat) returns (p: nat, e: nat)
    requires ClassName(name) && IsTokenAt(s, name, q)
    requires forall i, j :: IsTokenAt(s, name, i) && IsTokenAt(s, name, j) ==> i == j
    ensures p <= q && (p == q <==> q == 0) && (p < q ==> p == q - 1 && IsSpace(s[p]))
    ensures e <= |s| && (e == q + |name| ==> e == |s|)
    ensures e == q + |name| || (e == q + |name| + 1 && IsSpace(s[q + |name|]))
    ensures ReplaceFrom(s, name, 0) == s[..p] + " " + s[e..]
  {
    p := if q == 0 then 0 else q - 1;
    MatchAtIsToken(s, name, p);
    var q' := MatchShape(s, name, p);
    e := p + MatchAt(s, name, p).value;
    NoOtherMatch(s, name, q, 0, p);
    NoOtherMatch(s, name, q, e, |s|);
    OneMatchReplaced(s, name, p, e);
  }

  /** With a single match, at `p` and ending at `e`, the replacement is the string with that stretch made one space. */
  lemma OneMatchReplaced(s: string, name: string, p: nat, e: nat)
    requires |name| > 0 && p < |s| && MatchAt(s, name, p).Some? && e == p + MatchAt(s, name, p).value
    requires forall m :: 0 <= m < p ==> MatchAt(s, name, m).None?
    requires forall m :: e <= m < |s| ==> MatchAt(s, name, m).None?
    ensures ReplaceFrom(s, name, 0) == s[..p] + " " + s[e..]
  {
    ReplaceCopies(s, name, 0, p);
    MatchThenCopy(s, name, p, e);
    Assemble(s, p, e, ReplaceFrom(s, name, 0), ReplaceFrom(s, name, p));
  }

  /** A match at `p` ending at `e`, with none after it: the replacement from `p` is a space and the rest as it was. */
  lemma MatchThenCopy(s: string, name: string, p: nat, e: nat)
    requires |name| > 0 && p < |s| && MatchAt(s, name, p).Some? && e == p + MatchAt(s, name, p).value
    requires forall m :: e <= m < |s| ==> MatchAt(s, name, m).None?
    ensures ReplaceFrom(s, name, p) == " " + s[e..]
  {
    ReplaceTail(s, name, e);
    ReplaceStep(s, name, p);
  }

  /** The three pieces of a replacement with one match, put together. */
  lemma Assemble(s: string, p: nat, e: nat, whole: string, mid: string)
    requires p <= e <= |s|
    requires whole == s[0..p] + mid && mid == " " + s[e..]
    ensures whole == s[..p] + " " + s[e..]
  {
    assert s[0..p] == s[..p];
    ConcatAssoc(s[..p], " ", s[e..]);
  }

  /** With no match from `e` on, the replacement copies the rest of the string. */
  lemma ReplaceTail(s: string, name: string, e: nat)
    requires |name| > 0 && e <= |s|
    requires forall m :: e <= m < |s| ==> MatchAt(s, name, m).None?
    ensures ReplaceFrom(s, name, e) == s[e..]
  {
    ReplaceCopies(s, name, e, |s|);
    assert s[e..|s|] == s[e..];
  }

  /** Inside a token every character is a name letter, so none is whitespace. */
  lemma LettersOfToken(s: string, name: string, t: nat, k: nat)
    requires ClassName(name) && IsTokenAt(s, name, t) && t <= k < t + |name|
    ensures IsNameChar(s[k]) && !IsSpace(s[k])
  {
    assert s[k] == s[t..t + |name|][k - t];
  }

  /** A token left of the replaced match was a token of the string already. */
  lemma LeftTokenStays(s: string, name: string, p: nat, e: nat, t: nat)
    requires ClassName(name) && p <= e <= |s|
    requires IsTokenAt(s[..p] + " " + s[e..], name, t)
    requires t + |name| < p || (t + |name| == p && p < |s| && IsSpace(s[p]))
    ensures IsTokenAt(s, name, t)
  {
    var o := s[..p] + " " + s[e..];
    assert forall k :: 0 <= k < p ==> o[k] == s[k];
    TokenShift(o, s, name, t, t);
  }

  /** A token right of the replaced match was a token of the string already, further on. */
  lemma RightTokenStays(s: string, name: string, p: nat, e: nat, t: nat)
    requires ClassName(name) && p <= e <= |s|
    requires IsTokenAt(s[..p] + " " + s[e..], name, t) && t > p
    requires t == p + 1 ==> 0 < e && IsSpace(s[e - 1])
    ensures IsTokenAt(s, name, t - p - 1 + e)
  {
    var o := s[..p] + " " + s[e..];
    assert forall k :: p < k < |o| ==> o[k] == s[k - p - 1 + e];
    TokenShift(o, s, name, t, t - p - 1 + e);
  }

  /** After the only match is replaced no token of `name` is left. */
  lemma SoleMatchLeavesNone(s: string, name: string, q: nat, p: nat, e: nat, t: nat)
    requires ClassName(name) && IsTokenAt(s, name, q)
    requires forall i, j :: IsTokenAt(s, name, i) && IsTokenAt(s, name, j) ==> i == j
    requires p <= q && (p == q <==> q == 0) && (p < q ==> p == q - 1 && IsSpace(s[p]))
    requires e <= |s| && (e == q + |name| ==> e == |s|)
    requires e == q + |name| || (e == q + |name| + 1 && IsSpace(s[q + |name|]))
    ensures !IsTokenAt(s[..p] + " " + s[e..], name, t)
  {
    var o := s[..p] + " " + s[e..];
    if IsTokenAt(o, name, t) {
      if t + |name| <= p {
        LeftTokenStays(s, name, p, e, t);
      } else if t > p {
        RightTokenStays(s, name, p, e, t);
      } else {
        LettersOfToken(o, name, t, p);
      }
    }
  }

  /** `rmClass` of a name that is a token at exactly one place leaves no such token. */
  lemma RmClassRemovesSoleToken(current: string, name: string)
    requires ClassName(name)
    requires forall i, j :: IsTokenAt(current, name, i) && IsTokenAt(current, name, j) ==> i == j
    ensures !HasToken(RmClass(current, name), name)
  {
    if HasToken(RmClass(current, name), name) {
      var i: nat :| i <= |RmClass(current, name)| && IsTokenAt(RmClass(current, name), name, i);
      var o := ReplaceFrom(current, name, 0);
      var t := SkipSpaces(o, 0) + i;
      if HasToken(current, name) {
        var q: nat :| q <= |current| && IsTokenAt(current, name, q);
        var p, e := SoleMatch(current, name, q);
        TrimMakesNoToken(o, name, i);
        SoleMatchLeavesNone(current, name, q, p, e, t);
      } else {
        TrimMakesNoToken(current, name, i);
      }
    }
  }

  /**
   * Two occurrences that share one separator: the first match swallows the
   * space the second needs, so one of them stays.
   */
  lemma RmClassSharedSeparator()
    ensures RmClass("a a", "a") == "a"
  {
    assert ClassName("a");
    assert MatchAt("a a", "a", 0) == Some(2);
    assert MatchAt("a a", "a", 2) == None;
    assert ReplaceFrom("a a", "a", 2) == "a";
    assert ReplaceFrom("a a", "a", 0) == " a";
    assert SkipSpaces(" a", 0) == 1;
    assert " a"[1..] == "a";
  }
}

=== FILE: dom.dfy ===
/**
 * The host document, abstracted: nodes are opaque ids, the structure is a
 * parent map plus an ordered child sequence per node, and the few element
 * attributes the drag controller reads (tag name, contentEditable) are maps.
 * Only element nodes are modelled, so every child is an element child.
 *
 * Walks up the parent chain are bounded by the number of parented nodes,
 * which is enough for every acyclic parent map (a DOM tree is acyclic).
 */
module Dom {
  import opened Wrappers
  import opened Seqs

  type Node = nat

  /** The `contentEditable` property: "true", "false", or anything else ("inherit"). */
  datatype Editable = EditableTrue | EditableFalse | EditableInherit

  datatype Tree = Tree(
    parent: map<Node, Node>,      // absent for the document element and detached nodes
    kids: map<Node, seq<Node>>,   // absent means no children
    root: Node,                   // the document element
    tag: map<Node, string>,
    editable: map<Node, Editable>,
    next: Node)                   // the id the next clone receives

  /** `getParent`: the parent node, None at the top (the parent of the document element is the document). */
  function GetParent(t: Tree, n: Node): Option<Node> {
    if n in t.parent then Some(t.parent[n]) else None
  }

  /** `getParent` answers the node whose child list holds `n`, and None for the document element. */
  lemma GetParentSpec(t: Tree, n: Node, p: Node)
    requires WellFormed(t)
    ensures GetParent(t, n) == Some(p) <==> n in Children(t, p)
    ensures GetParent(t, t.root) == None
  {
  }

  function Children(t: Tree, p: Node): seq<Node> {
    if p in t.kids then t.kids[p] else []
  }

  /** Bound on the length of any climb through an acyclic parent map. */
  function Depth(t: Tree): nat {
    |t.parent| + 1
  }

  /** The k-th ancestor of `n` (the 0-th is `n` itself), if the chain is that long. */
  function Anc(t: Tree, n: Node, k: nat): (r: Option<Node>)
    ensures k == 0 ==> r == Some(n)
    ensures k > 0 && r.Some? ==> Anc(t, n, k - 1).Some?
    decreases k
  {
    if k == 0 then Some(n)
    else match GetParent(t, n)
      case None => None
      case Some(p) => Anc(t, p, k - 1)
  }

  /** Every listed child names its lister as parent. */
  ghost predicate KidsHaveParent(t: Tree) {
    forall p, i {:trigger t.kids[p][i]} :: p in t.kids && 0 <= i < |t.kids[p]| ==>
      t.kids[p][i] in t.parent && t.parent[t.kids[p][i]] == p
  }

  /** Every node with a parent is listed among that parent's children. */
  ghost predicate ParentHasKid(t: Tree) {
    forall c :: c in t.parent ==> c in Children(t, t.parent[c])
  }

  ghost predicate KidsDistinct(t: Tree) {
    forall p :: p in t.kids ==> Distinct(t.kids[p])
  }

  /** The document element is at the top and every id in use is below `next`. */
  ghost predicate Bounded(t: Tree) {
    && t.root !in t.parent
    && t.root < t.next
    && (forall c :: c in t.parent ==> c < t.next && t.parent[c] < t.next)
    && (forall p :: p in t.kids ==> p < t.next)
  }

  /** The parent map and the child sequences describe the same tree; ids stay below `next`. */
  ghost predicate WellFormed(t: Tree) {
    KidsHaveParent(t) && ParentHasKid(t) && KidsDistinct(t) && Bounded(t)
  }

  /** `b` immediately follows `a` somewhere in `s`. */
  ghost predicate Adjacent(s: seq<Node>, a: Node, b: Node) {
    exists i :: 0 <= i < |s| - 1 && s[i] == a && s[i + 1] == b
  }

  /** `n` is a child of its parent that is not the last one. */
  predicate HasLaterSibling(t: Tree, n: Node) {
    && n in t.parent
    && var c := Children(t, t.parent[n]);
    && n in c && c[|c| - 1] != n
  }

  /** `nextEl`: the element following `n` in its parent's child sequence. */
  function NextEl(t: Tree, n: Node): (r: Option<Node>)
    ensures r.Some? ==> n in t.parent && Adjacent(Children(t, t.parent[n]), n, r.value)
    ensures n !in t.parent ==> r.None?
    ensures HasLaterSibling(t, n) ==> r.Some?
  {
    if n !in t.parent then None else NextIn(Children(t, t.parent[n]), n)
  }

  /** In a well-formed tree the next sibling is a different child of the same parent. */
  lemma NextElIsSibling(t: Tree, n: Node)
    requires KidsHaveParent(t) && KidsDistinct(t)
    requires NextEl(t, n).Some?
    ensures GetParent(t, NextEl(t, n).value) == GetParent(t, n)
    ensures NextEl(t, n).value != n
  {
    var p := t.parent[n];
    var c := Children(t, p);
    var i := IndexOf(c, n).value;
    assert i + 1 < |c| && NextEl(t, n) == Some(c[i + 1]);
    assert p in t.kids && c == t.kids[p];
    assert t.kids[p][i + 1] in t.parent && t.parent[t.kids[p][i + 1]] == p;
    assert Distinct(t.kids[p]);
  }

  /** Detaching a node other than `n` and its next sibling leaves that sibling in place. */
  lemma DetachKeepsNextEl(t: Tree, m: Node, n: Node)
    requires KidsHaveParent(t) && KidsDistinct(t)
    requires m != n && NextEl(t, n) != Some(m)
    ensures NextEl(Detach(t, m), n) == NextEl(t, n)
  {
    DetachChildren(t, m);
    if n in t.parent {
      var q := t.parent[n];
      assert Distinct(Children(t, q)) by {
        if q in t.kids {
          assert Distinct(t.kids[q]);
        }
      }
      NextInWithout(Children(t, q), m, n);
    }
  }

  /** In a well-formed tree the next sibling is an id in use, other than the node itself. */
  lemma NextElBounded(t: Tree, n: Node)
    requires WellFormed(t)
    ensures NextEl(t, n).Some? ==> NextEl(t, n).value < t.next && NextEl(t, n).value != n
  {
    if NextEl(t, n).Some? {
      NextElIsSibling(t, n);
      var x := NextEl(t, n).value;
      assert x in t.parent;
    }
  }

  /** Every ancestor of an id in use is an id in use. */
  lemma {:induction false} AncBounded(t: Tree, n: Node, k: nat)
    requires Bounded(t) && n < t.next
    ensures Anc(t, n, k).Some? ==> Anc(t, n, k).value < t.next
    decreases k
  {
    if k > 0 && n in t.parent {
      AncBounded(t, t.parent[n], k - 1);
    }
  }

  /** True when `a` is `n` or one of its ancestors, looking at most `fuel` levels up. */
  function IsInclusiveAncestor(t: Tree, a: Node, n: Node, fuel: nat): bool
    decreases fuel
  {
    n == a || (n in t.parent && fuel > 0 && IsInclusiveAncestor(t, a, t.parent[n], fuel - 1))
  }

  /** Unlink `n` from its parent (a no-op for a detached node). */
  function Detach(t: Tree, n: Node): (r: Tree)
    ensures n !in r.parent
    ensures forall c :: c != n ==> GetParent(r, c) == GetParent(t, c)
    ensures r.root == t.root && r.next == t.next && r.tag == t.tag && r.editable == t.editable
  {
    if n in t.parent then
      var p := t.parent[n];
      t.(parent := t.parent - {n}, kids := t.kids[p := Without(Children(t, p), n)])
    else t
  }

  /** `p.removeChild(c)`; the DOM raises when `c` is not a child of `p`, modelled as no change. */
  function RemoveChild(t: Tree, p: Node, c: Node): (r: Tree)
    ensures GetParent(t, c) == Some(p) ==> c !in r.parent
    ensures GetParent(t, c) != Some(p) ==> r == t
    ensures forall d :: d != c ==> GetParent(r, d) == GetParent(t, d)
  {
    if GetParent(t, c) == Some(p) then Detach(t, c) else t
  }

  /** The reference node after the DOM's adjustment: inserting `n` before itself means before its next sibling. */
  function AdjustedRef(t: Tree, n: Node, ref: Option<Node>): Option<Node> {
    if ref == Some(n) then NextEl(t, n) else ref
  }

  /** Whether the DOM accepts `target.insertBefore(n, ref)` (otherwise it raises and changes nothing). */
  predicate CanInsert(t: Tree, target: Node, n: Node, ref: Option<Node>) {
    && !IsInclusiveAncestor(t, n, target, Depth(t))
    && (ref.None? || GetParent(t, ref.value) == Some(target))
  }

  /**
   * `target.insertBefore(n, ref)`: `n` leaves its old parent and lands
   * just before `ref` in `target`'s children (at the end when `ref` is None).
   */
  function InsertBefore(t: Tree, target: Node, n: Node, ref: Option<Node>): (r: Tree)
    ensures !CanInsert(t, target, n, ref) ==> r == t
    ensures CanInsert(t, target, n, ref) ==> GetParent(r, n) == Some(target)
    ensures forall c :: c != n ==> GetParent(r, c) == GetParent(t, c)
    ensures r.root == t.root && r.next == t.next && r.tag == t.tag && r.editable == t.editable
  {
    if !CanInsert(t, target, n, ref) then t
    else
      var t1 := Detach(t, n);
      Attach(t1, target, n, Slot(Children(t1, target), AdjustedRef(t, n, ref)))
  }

  /** The position `insertBefore` fills: that of the reference, or the end. */
  function Slot(c: seq<Node>, ref: Option<Node>): (i: nat)
    ensures i <= |c|
    ensures ref.Some? && ref.value in c ==> i < |c| && c[i] == ref.value
    ensures ref.None? ==> i == |c|
  {
    if ref.Some? then IndexOf(c, ref.value).GetOr(|c|) else |c|
  }

  lemma DetachPreservesWellFormed(t: Tree, n: Node)
    requires WellFormed(t)
    ensures WellFormed(Detach(t, n))
    ensures forall p :: n !in Children(Detach(t, n), p)
  {
    DetachKidsHaveParent(t, n);
    DetachParentHasKid(t, n);
    DetachKidsDistinct(t, n);
    var r := Detach(t, n);
    forall p, i | p in r.kids && 0 <= i < |r.kids[p]|
      ensures r.kids[p][i] != n
    {
      assert r.kids[p][i] in r.parent;
    }
  }

  lemma DetachKidsDistinct(t: Tree, n: Node)
    requires KidsDistinct(t)
    ensures KidsDistinct(Detach(t, n))
  {
    var r := Detach(t, n);
    forall p | p in r.kids
      ensures Distinct(r.kids[p])
    {
      if n in t.parent && p == t.parent[n] {
        assert Distinct(Children(t, p));
      }
    }
  }

  lemma DetachKidsHaveParent(t: Tree, n: Node)
    requires KidsHaveParent(t)
    ensures KidsHaveParent(Detach(t, n))
  {
    if n in t.parent {
      var p := t.parent[n];
      var r := Detach(t, n);
      forall q, i | q in r.kids && 0 <= i < |r.kids[q]|
        ensures r.kids[q][i] in r.parent && r.parent[r.kids[q][i]] == q
      {
        if q == p {
          assert r.kids[q][i] in Children(t, p);
          var j :| 0 <= j < |t.kids[p]| && t.kids[p][j] == r.kids[q][i];
        } else {
          assert t.kids[q][i] in t.parent && t.parent[t.kids[q][i]] == q;
        }
      }
    }
  }

  lemma DetachParentHasKid(t: Tree, n: Node)
    requires ParentHasKid(t)
    ensures ParentHasKid(Detach(t, n))
  {
    if n in t.parent {
      var r := Detach(t, n);
      forall c | c in r.parent
        ensures c in Children(r, r.parent[c])
      {
        assert c in Children(t, t.parent[c]);
      }
    }
  }

  /** Detaching `n` takes it out of its parent's child list and leaves every other list as it was. */
  lemma DetachChildren(t: Tree, n: Node)
    requires KidsHaveParent(t)
    ensures forall p :: Children(Detach(t, n), p) == Without(Children(t, p), n)
  {
    forall p
      ensures Children(Detach(t, n), p) == Without(Children(t, p), n)
    {
      if !(n in t.parent && p == t.parent[n]) && p in t.kids {
        forall i | 0 <= i < |t.kids[p]|
          ensures t.kids[p][i] != n
        {
          assert t.kids[p][i] in t.parent && t.parent[t.kids[p][i]] == p;
        }
      }
    }
  }

  /** An accepted `insertBefore` detaches `n` and gives it its slot; only `target`'s list changes. */
  lemma InsertBeforeChildren(t: Tree, target: Node, n: Node, ref: Option<Node>)
    requires KidsHaveParent(t) && CanInsert(t, target, n, ref)
    ensures var c := Children(Detach(t, n), target);
      var i := Slot(c, AdjustedRef(t, n, ref));
      var r := InsertBefore(t, target, n, ref);
      && n !in c
      && r.parent == t.parent[n := target]
      && Children(r, target) == c[..i] + [n] + c[i..]
      && forall p :: p != target ==> Children(r, p) == Without(Children(t, p), n)
  {
    DetachChildren(t, n);
  }

  /**
   * In a well-formed tree an accepted `insertBefore` puts `n` into `target`
   * right before the adjusted reference (last when there is none).
   */
  lemma InsertBeforePlaces(t: Tree, target: Node, n: Node, ref: Option<Node>)
    requires KidsHaveParent(t) && ParentHasKid(t) && KidsDistinct(t)
    requires CanInsert(t, target, n, ref)
    ensures GetParent(InsertBefore(t, target, n, ref), n) == Some(target)
    ensures NextEl(InsertBefore(t, target, n, ref), n) == AdjustedRef(t, n, ref)
  {
    var ref' := AdjustedRef(t, n, ref);
    InsertBeforeChildren(t, target, n, ref);
    DetachChildren(t, n);
    var c := Children(Detach(t, n), target);
    if ref'.Some? {
      if ref == Some(n) {
        NextElIsSibling(t, n);
      }
      assert ref'.value in Children(t, target);
      assert ref'.value in c;
    }
    NextInInserted(c, n, Slot(c, ref'));
  }

  /** An `insertBefore` keeps every child list as it was, once `n` is left out of it. */
  lemma InsertBeforeKeepsOrder(t: Tree, target: Node, n: Node, ref: Option<Node>)
    requires KidsHaveParent(t)
    ensures forall p :: Without(Children(InsertBefore(t, target, n, ref), p), n) == Without(Children(t, p), n)
  {
    if CanInsert(t, target, n, ref) {
      InsertBeforeChildren(t, target, n, ref);
      DetachChildren(t, n);
      var c := Children(Detach(t, n), target);
      WithoutInserted(c, n, Slot(c, AdjustedRef(t, n, ref)));
    }
  }

  lemma InsertBeforePreservesWellFormed(t: Tree, target: Node, n: Node, ref: Option<Node>)
    requires WellFormed(t)
    requires n < t.next && target < t.next && n != t.root
    ensures WellFormed(InsertBefore(t, target, n, ref))
  {
    if CanInsert(t, target, n, ref) {
      var t1 := Detach(t, n);
      DetachPreservesWellFormed(t, n);
      AttachPreservesWellFormed(t1, target, n, Slot(Children(t1, target), AdjustedRef(t, n, ref)));
    }
  }

  /** Inserting a value that is absent keeps a sequence free of duplicates. */
  lemma InsertKeepsDistinct(c: seq<Node>, n: Node, i: nat)
    requires Distinct(c) && n !in c && i <= |c|
    ensures Distinct(c[..i] + [n] + c[i..])
  {
    var c' := c[..i] + [n] + c[i..];
    forall a, b | 0 <= a < b < |c'|
      ensures c'[a] != c'[b]
    {
      if a < i && b < i {
      } else if a < i && b == i {
        assert c'[a] == c[a];
      } else if a < i {
        assert c'[a] == c[a] && c'[b] == c[b - 1];
      } else if a == i {
        assert c'[b] == c[b - 1];
      } else {
        assert c'[a] == c[a - 1] && c'[b] == c[b - 1];
      }
    }
  }

  /** The tree `t1` with detached `n` placed at slot `i` of `target`'s children. */
  function Attach(t1: Tree, target: Node, n: Node, i: nat): Tree
    requires i <= |Children(t1, target)|
  {
    var c := Children(t1, target);
    t1.(parent := t1.parent[n := target], kids := t1.kids[target := c[..i] + [n] + c[i..]])
  }

  /** Giving a detached node a parent and a slot among that parent's children keeps the tree well formed. */
  lemma AttachPreservesWellFormed(t1: Tree, target: Node, n: Node, i: nat)
    requires WellFormed(t1)
    requires n !in t1.parent && forall p :: n !in Children(t1, p)
    requires n < t1.next && target < t1.next && n != t1.root
    requires i <= |Children(t1, target)|
    ensures WellFormed(Attach(t1, target, n, i))
  {
    var c := Children(t1, target);
    assert Distinct(c) by {
      if target in t1.kids {
        assert Distinct(t1.kids[target]);
      }
    }
    InsertKeepsDistinct(c, n, i);
    AttachKidsHaveParent(t1, target, n, i);
    AttachParentHasKid(t1, target, n, i);
  }

  lemma AttachKidsHaveParent(t1: Tree, target: Node, n: Node, i: nat)
    requires KidsHaveParent(t1)
    requires n !in t1.parent
    requires i <= |Children(t1, target)|
    ensures KidsHaveParent(Attach(t1, target, n, i))
  {
    var c := Children(t1, target);
    var c' := c[..i] + [n] + c[i..];
    var r := Attach(t1, target, n, i);
    forall q, j | q in r.kids && 0 <= j < |r.kids[q]|
      ensures r.kids[q][j] in r.parent && r.parent[r.kids[q][j]] == q
    {
      if q == target {
        if j < i {
          assert c'[j] == c[j];
          assert t1.kids[target][j] in t1.parent;
        } else if j > i {
          assert c'[j] == c[j - 1];
          assert t1.kids[target][j - 1] in t1.parent;
        }
      } else {
        assert t1.kids[q][j] in t1.parent;
      }
    }
  }

  lemma AttachParentHasKid(t1: Tree, target: Node, n: Node, i: nat)
    requires ParentHasKid(t1)
    requires i <= |Children(t1, target)|
    ensures ParentHasKid(Attach(t1, target, n, i))
  {
    var c := Children(t1, target);
    var c' := c[..i] + [n] + c[i..];
    var r := Attach(t1, target, n, i);
    forall d | d in r.parent
      ensures d in Children(r, r.parent[d])
    {
      if d == n {
        assert c'[i] == n;
      } else {
        assert d in Children(t1, t1.parent[d]);
        if t1.parent[d] == target {
          var k :| 0 <= k < |c| && c[k] == d;
          if k < i {
            assert c'[k] == d;
          } else {
            assert c'[k + 1] == d;
          }
        }
      }
    }
  }

  /** `cloneNode(true)` of `n`, as far as this model tracks it: a fresh detached node with the same attributes. */
  function Clone(t: Tree, n: Node): (r: (Tree, Node))
    ensures r.1 == t.next && r.0.next == t.next + 1
    ensures r.0.parent == t.parent && r.0.kids == t.kids && r.0.root == t.root
  {
    var c := t.next;
    var tag := if n in t.tag then t.tag[c := t.tag[n]] else t.tag - {c};
    var ed := if n in t.editable then t.editable[c := t.editable[n]] else t.editable - {c};
    (t.(tag := tag, editable := ed, next := c + 1), c)
  }

  /** A clone is a fresh node: in a well-formed tree it has no parent and no children. */
  lemma CloneIsFresh(t: Tree, n: Node)
    requires WellFormed(t)
    ensures WellFormed(Clone(t, n).0)
    ensures Clone(t, n).1 !in t.parent && Children(t, Clone(t, n).1) == []
    ensures forall p :: Clone(t, n).1 !in Children(t, p)
  {
    var c := t.next;
    forall p, i | p in t.kids && 0 <= i < |t.kids[p]|
      ensures t.kids[p][i] != c
    {
      assert t.kids[p][i] in t.parent;
    }
  }

  function EditableOf(t: Tree, n: Node): Editable {
    if n in t.editable then t.editable[n] else EditableInherit
  }

  /** `isEditable`: climb until an element says "true" or "false"; running off the top is false. */
  function IsEditable(t: Tree, n: Option<Node>, fuel: nat): bool
    decreases fuel
  {
    match n
    case None => false
    case Some(m) =>
      match EditableOf(t, m)
      case EditableFalse => false
      case EditableTrue => true
      case EditableInherit => fuel > 0 && IsEditable(t, GetParent(t, m), fuel - 1)
  }

  /** The k-th ancestor of `n` says "true" and every element below it inherits. */
  ghost predicate EditableAt(t: Tree, n: Node, k: nat) {
    && Anc(t, n, k).Some? && EditableOf(t, Anc(t, n, k).value) == EditableTrue
    && forall j :: 0 <= j < k ==> Anc(t, n, j).Some? && EditableOf(t, Anc(t, n, j).value) == EditableInherit
  }

  /** `isEditable` holds exactly when some ancestor within reach is "true" with only inheriting elements below it. */
  lemma {:induction false} IsEditableSpec(t: Tree, n: Node, fuel: nat)
    ensures IsEditable(t, Some(n), fuel) <==> exists k :: 0 <= k <= fuel && EditableAt(t, n, k)
    decreases fuel
  {
    match EditableOf(t, n)
    case EditableFalse =>
      forall k | 0 <= k <= fuel
        ensures !EditableAt(t, n, k)
      {
        assert Anc(t, n, 0) == Some(n);
      }
    case EditableTrue =>
      assert EditableAt(t, n, 0);
    case EditableInherit =>
      if fuel > 0 && n in t.parent {
        var p := t.parent[n];
        IsEditableSpec(t, p, fuel - 1);
        if IsEditable(t, Some(n), fuel) {
          var k :| 0 <= k <= fuel - 1 && EditableAt(t, p, k);
          AncShift(t, n, p, k);
          assert EditableAt(t, n, k + 1);
        } else {
          forall k | 1 <= k <= fuel
            ensures !EditableAt(t, n, k)
          {
            AncShift(t, n, p, k - 1);
            assert EditableAt(t, n, k) ==> EditableAt(t, p, k - 1);
          }
          assert !EditableAt(t, n, 0);
        }
      } else {
        forall k | 0 <= k <= fuel
          ensures !EditableAt(t, n, k)
        {
          if k > 0 {
            assert Anc(t, n, k) == None;
          }
        }
      }
  }

  /** Climbing one level and then j more is climbing j + 1 levels. */
  lemma AncShift(t: Tree, n: Node, p: Node, k: nat)
    requires GetParent(t, n) == Some(p)
    ensures forall j :: 0 <= j <= k ==> Anc(t, n, j + 1) == Anc(t, p, j)
  {
  }

  /** `isInput`: a form control, or an element inside contentEditable content. */
  function IsInput(t: Tree, n: Node): bool {
    var tag := if n in t.tag then t.tag[n] else "";
    tag == "INPUT" || tag == "TEXTAREA" || tag == "SELECT" || IsEditable(t, Some(n), Depth(t))
  }

  /** An input is a form control by tag, or lies under a "true" ancestor with only inheriting elements between. */
  lemma IsInputSpec(t: Tree, n: Node)
    ensures IsInput(t, n) <==>
      || (n in t.tag && t.tag[n] in {"INPUT", "TEXTAREA", "SELECT"})
      || exists k :: 0 <= k <= Depth(t) && EditableAt(t, n, k)
  {
    IsEditableSpec(t, n, Depth(t));
  }
}

=== FILE: emitter.dfy ===
/**
 * The event emitter the drag controller is built on: a registry from event
 * type to the ordered list of its listeners. Listeners are opaque ids; the
 * `_once` mark lives on the listener itself, so it is a set of ids shared by
 * every type. Listeners are taken not to call back into the emitter while
 * they run.
 */
module Emitter {
  import opened Wrappers
  import opened Seqs

  type Listener = nat

  datatype Registry = Registry(
    evt: map<string, seq<Listener>>,
    once: set<Listener>,   // listeners carrying the `_once` mark
    throws: bool)          // the `throws` option (`false` turns off the error rule)

  /** A fresh emitter: no listeners; `throws` is on unless the option says `false`. */
  function NewRegistry(throwsOption: bool): (r: Registry)
    ensures forall ty :: ListenersOf(r, ty) == []
    ensures r.throws == throwsOption
  {
    Registry(map[], {}, throwsOption)
  }

  function ListenersOf(r: Registry, ty: string): seq<Listener> {
    if ty in r.evt then r.evt[ty] else []
  }

  /** `on(type, fn)`: append `fn` to the end of the type's list. */
  function On(r: Registry, ty: string, fn: Listener): (r': Registry)
    ensures ListenersOf(r', ty) == ListenersOf(r, ty) + [fn]
    ensures forall other :: other != ty ==> ListenersOf(r', other) == ListenersOf(r, other)
    ensures r'.once == r.once && r'.throws == r.throws
  {
    if ty !in r.evt then r.(evt := r.evt[ty := [fn]])
    else r.(evt := r.evt[ty := r.evt[ty] + [fn]])
  }

  /** `once(type, fn)`: mark `fn`, then register it as `on` does. */
  function Once(r: Registry, ty: string, fn: Listener): (r': Registry)
    ensures ListenersOf(r', ty) == ListenersOf(r, ty) + [fn]
    ensures forall other :: other != ty ==> ListenersOf(r', other) == ListenersOf(r, other)
    ensures r'.once == r.once + {fn}
  {
    On(r.(once := r.once + {fn}), ty, fn)
  }

  /** `off(type)`: forget every listener of that type. */
  function OffType(r: Registry, ty: string): (r': Registry)
    ensures ListenersOf(r', ty) == [] && ty !in r'.evt
    ensures forall other :: other != ty ==> ListenersOf(r', other) == ListenersOf(r, other)
  {
    r.(evt := r.evt - {ty})
  }

  /** `off()`: forget every listener of every type. */
  function OffAll(r: Registry): (r': Registry)
    ensures forall ty :: ListenersOf(r', ty) == []
    ensures r'.once == r.once
  {
    r.(evt := map[])
  }

  /** `splice(indexOf(fn), 1)`: an index of -1 makes splice start at the last element. */
  function SpliceOut(s: seq<Listener>, fn: Listener): seq<Listener> {
    match IndexOf(s, fn)
    case Some(i) => RemoveAt(s, i)
    case None => if |s| == 0 then s else s[..|s| - 1]
  }

  /** `after` is `before` with its first `fn` taken out. */
  ghost predicate FirstRemoved(before: seq<Listener>, fn: Listener, after: seq<Listener>) {
    exists i :: 0 <= i < |before| && before[i] == fn && fn !in before[..i] &&
      after == before[..i] + before[i + 1..]
  }

  /**
   * `off(type, fn)`: nothing for an unknown type; otherwise the first `fn`
   * leaves the list, and when `fn` is not in it the last listener does.
   */
  function Off(r: Registry, ty: string, fn: Listener): (r': Registry)
    ensures ty !in r.evt ==> r' == r
    ensures ty in r.evt && r.evt[ty] == [] ==> r' == r
    ensures fn in ListenersOf(r, ty) ==> FirstRemoved(ListenersOf(r, ty), fn, ListenersOf(r', ty))
    ensures fn !in ListenersOf(r, ty) && |ListenersOf(r, ty)| > 0 ==>
      ListenersOf(r', ty) == ListenersOf(r, ty)[..|ListenersOf(r, ty)| - 1]
    ensures forall other :: other != ty ==> ListenersOf(r', other) == ListenersOf(r, other)
    ensures r'.once == r.once && r'.throws == r.throws
  {
    if ty !in r.evt then r
    else
      var et := r.evt[ty];
      assert fn in et ==> IndexOf(et, fn).Some? && fn !in et[..IndexOf(et, fn).value] by {
        if fn in et {
          var i := IndexOf(et, fn).value;
          assert forall j :: 0 <= j < i ==> et[..i][j] == et[j];
        }
      }
      r.(evt := r.evt[ty := SpliceOut(et, fn)])
  }

  /** What `emit` throws when an `error` event has no listener: the single argument, or the argument list. */
  datatype Thrown<A> = Single(arg: A) | Many(args: seq<A>)

  datatype Call<A> = Call(listener: Listener, args: seq<A>)

  datatype Emission<A> = Threw(thrown: Thrown<A>) | Delivered(after: Registry, calls: seq<Call<A>>)

  function CallsOf<A>(snapshot: seq<Listener>, args: seq<A>): (cs: seq<Call<A>>)
    ensures |cs| == |snapshot|
    ensures forall i :: 0 <= i < |cs| ==> cs[i] == Call(snapshot[i], args)
  {
    if |snapshot| == 0 then [] else [Call(snapshot[0], args)] + CallsOf(snapshot[1..], args)
  }

  /**
   * The type's list after the snapshotted listeners `todo` have run: each
   * `_once` one is taken off with `off(type, fn)`, that is, spliced out.
   */
  function Deliver(list: seq<Listener>, once: set<Listener>, todo: seq<Listener>): seq<Listener>
    decreases |todo|
  {
    if |todo| == 0 then list
    else Deliver(if todo[0] in once then SpliceOut(list, todo[0]) else list, once, todo[1..])
  }

  function AfterEmit(r: Registry, ty: string): Registry {
    if ty in r.evt then r.(evt := r.evt[ty := Deliver(r.evt[ty], r.once, r.evt[ty])]) else r
  }

  /**
   * `emit(type, ...args)` through `emitterSnapshot`: the list is copied
   * first, then each copied listener is called in order with `args`.
   */
  function Emit<A>(r: Registry, ty: string, args: seq<A>): (e: Emission<A>)
    ensures e.Threw? <==> ty == "error" && r.throws && ListenersOf(r, ty) == []
    ensures e.Threw? && |args| == 1 ==> e.thrown == Single(args[0])
    ensures e.Threw? && |args| != 1 ==> e.thrown == Many(args)
    ensures e.Delivered? ==> |e.calls| == |ListenersOf(r, ty)|
    ensures e.Delivered? ==> forall i :: 0 <= i < |e.calls| ==> e.calls[i] == Call(ListenersOf(r, ty)[i], args)
  {
    var snapshot := ListenersOf(r, ty);
    if ty == "error" && r.throws && |snapshot| == 0 then
      Threw(if |args| == 1 then Single(args[0]) else Many(args))
    else
      Delivered(AfterEmit(r, ty), CallsOf(snapshot, args))
  }

  /** The listeners of `s` that are not marked `_once`, in order. */
  function Keep(s: seq<Listener>, once: set<Listener>): seq<Listener> {
    if |s| == 0 then [] else (if s[0] in once then [] else [s[0]]) + Keep(s[1..], once)
  }

  /** Delivering to a one-shot listener splices it out of the live list. */
  lemma DeliverOnceStep(kept: seq<Listener>, once: set<Listener>, todo: seq<Listener>)
    requires |todo| > 0 && todo[0] in once && todo[0] !in kept
    ensures Deliver(kept + todo, once, todo) == Deliver(kept + todo[1..], once, todo[1..])
  {
    assert kept + todo == kept + [todo[0]] + todo[1..];
    SpliceOutFirst(kept, todo[0], todo[1..]);
  }

  /** Delivering to any other listener leaves the live list alone. */
  lemma DeliverPlainStep(kept: seq<Listener>, once: set<Listener>, todo: seq<Listener>)
    requires |todo| > 0 && todo[0] !in once
    ensures Deliver(kept + todo, once, todo) == Deliver((kept + [todo[0]]) + todo[1..], once, todo[1..])
  {
    assert kept + todo == (kept + [todo[0]]) + todo[1..];
  }

  /**
   * Delivering over `todo` while the live list is `kept + todo`, where
   * nothing already kept is one-shot, leaves `kept` followed by the
   * listeners of `todo` that are not one-shot.
   */
  lemma {:induction false} DeliverKeeps(kept: seq<Listener>, once: set<Listener>, todo: seq<Listener>)
    requires forall y :: y in kept ==> y !in once
    ensures Deliver(kept + todo, once, todo) == kept + Keep(todo, once)
    decreases |todo|, 1
  {
    if |todo| == 0 {
      assert kept + todo == kept;
    } else if todo[0] in once {
      DeliverKeepsOnce(kept, once, todo);
    } else {
      DeliverKeepsPlain(kept, once, todo);
    }
  }

  lemma {:induction false} DeliverKeepsOnce(kept: seq<Listener>, once: set<Listener>, todo: seq<Listener>)
    requires forall y :: y in kept ==> y !in once
    requires |todo| > 0 && todo[0] in once
    ensures Deliver(kept + todo, once, todo) == kept + Keep(todo, once)
    decreases |todo|, 0
  {
    DeliverOnceStep(kept, once, todo);
    DeliverKeeps(kept, once, todo[1..]);
    KeepDropsOnce(todo, once);
  }

  lemma KeepDropsOnce(todo: seq<Listener>, once: set<Listener>)
    requires |todo| > 0 && todo[0] in once
    ensures Keep(todo, once) == Keep(todo[1..], once)
  {
    assert Keep(todo, once) == [] + Keep(todo[1..], once);
  }

  lemma {:induction false} DeliverKeepsPlain(kept: seq<Listener>, once: set<Listener>, todo: seq<Listener>)
    requires forall y :: y in kept ==> y !in once
    requires |todo| > 0 && todo[0] !in once
    ensures Deliver(kept + todo, once, todo) == kept + Keep(todo, once)
    decreases |todo|, 0
  {
    var x := todo[0];
    var kept' := kept + [x];
    assert forall y :: y in kept' ==> y in kept || y == x;
    DeliverPlainStep(kept, once, todo);
    DeliverKeeps(kept', once, todo[1..]);
    assert Keep(todo, once) == [x] + Keep(todo[1..], once);
    assert kept' + Keep(todo[1..], once) == kept + ([x] + Keep(todo[1..], once));
  }

  lemma SpliceOutFirst(front: seq<Listener>, x: Listener, rest: seq<Listener>)
    requires x !in front
    ensures SpliceOut(front + [x] + rest, x) == front + rest
  {
    var L := front + [x] + rest;
    IndexOfAfter(front, x, rest);
    assert L[..|front|] == front && L[|front| + 1..] == rest;
  }

  lemma {:induction false} IndexOfAfter(front: seq<Listener>, x: Listener, rest: seq<Listener>)
    requires x !in front
    ensures IndexOf(front + [x] + rest, x) == Some(|front|)
  {
    if |front| > 0 {
      assert (front + [x] + rest)[1..] == front[1..] + [x] + rest;
      IndexOfAfter(front[1..], x, rest);
    }
  }

  /** After an emit, the type keeps exactly its unmarked listeners, in order; other types are untouched. */
  lemma EmitDropsOnceListeners<A>(r: Registry, ty: string, args: seq<A>)
    requires Emit(r, ty, args).Delivered?
    ensures ListenersOf(Emit(r, ty, args).after, ty) == Keep(ListenersOf(r, ty), r.once)
    ensures forall other :: other != ty ==> ListenersOf(Emit(r, ty, args).after, other) == ListenersOf(r, other)
    ensures Emit(r, ty, args).after.once == r.once
  {
    var L := ListenersOf(r, ty);
    assert [] + L == L;
    DeliverKeeps([], r.once, L);
  }
}

=== FILE: geometry.dfy ===
/**
 * Where a dragged item would land: the child of the drop target under the
 * cursor, and the sibling to insert before. Boxes are integers and every
 * midpoint comparison is done on doubled values, so `y > top + height / 2`
 * reads `2 * y > 2 * top + height`.
 */
module Geometry {
  import opened Wrappers
  import opened Dom
  import opened Policy

  /** A bounding client rectangle; `right` and `bottom` follow from the width and height. */
  datatype Box = Box(left: int, top: int, width: int, height: int) {
    function Right(): int { left + width }
    function Bottom(): int { top + height }
  }

  /** `getBoundingClientRect` for every element, at the time of the event. */
  type Layout = Node -> Box

  /**
   * `getImmediateChild(dropTarget, target)`: climb from `target` until the
   * element is the drop target or a child of it; the document element
   * yields None. The source raises when the climb runs off the top while a
   * drop target is set; its callers only pass an ancestor, and the model
   * answers None there.
   */
  function ImmediateChild(t: Tree, dropTarget: Option<Node>, target: Option<Node>, fuel: nat): (r: Option<Node>)
    ensures r.Some? ==> r.value != t.root
    ensures r.Some? ==> Some(r.value) == dropTarget || GetParent(t, r.value) == dropTarget
    ensures r.Some? ==> target.Some? && exists k :: 0 <= k <= fuel && Anc(t, target.value, k) == r
    decreases fuel
  {
    match target
    case None => None
    case Some(n) =>
      if Some(n) == dropTarget || GetParent(t, n) == dropTarget then
        assert Anc(t, n, 0) == Some(n);
        (if n == t.root then None else Some(n))
      else
        match GetParent(t, n)
        case None => None
        case Some(p) =>
          if fuel == 0 then None
          else
            var r := ImmediateChild(t, dropTarget, Some(p), fuel - 1);
            assert r.Some? ==> exists k :: 0 <= k <= fuel && Anc(t, n, k) == r by {
              if r.Some? {
                var k :| 0 <= k <= fuel - 1 && Anc(t, p, k) == r;
                assert Anc(t, n, k + 1) == r;
              }
            }
            r
  }

  /**
   * When the drop target is the k-th ancestor of the hit element (and no
   * nearer one), the immediate child is the ancestor one level below it, or
   * the drop target itself when the hit element is the drop target.
   */
  lemma {:induction false} ImmediateChildBelow(t: Tree, dt: Node, n: Node, k: nat, fuel: nat)
    requires Anc(t, n, k) == Some(dt)
    requires forall j :: 0 <= j < k ==> Anc(t, n, j) != Some(dt)
    requires k <= fuel + 1
    ensures var c := if k == 0 then dt else Anc(t, n, k - 1).value;
      ImmediateChild(t, Some(dt), Some(n), fuel) == if c == t.root then None else Some(c)
    decreases k
  {
    assert Anc(t, n, 0) == Some(n);
    if k > 0 {
      var p := t.parent[n];
      AncShift(t, n, p, k);
      if k == 1 {
        assert GetParent(t, n) == Some(dt);
      } else {
        assert Anc(t, n, 1) == Some(p);
        assert GetParent(t, n) != Some(dt);
        forall j | 0 <= j < k - 1
          ensures Anc(t, p, j) != Some(dt)
        {
          assert Anc(t, n, j + 1) == Anc(t, p, j);
        }
        ImmediateChildBelow(t, dt, p, k - 1, fuel - 1);
      }
    }
  }

  /** Whether a child's box lies past the pointer on the direction's axis (the test of `outside`). */
  predicate PastPointer(dir: Direction, b: Box, x: int, y: int) {
    match dir
    case Horizontal => 2 * b.left + b.width > 2 * x
    case Vertical => 2 * b.top + b.height > 2 * y
    case Mixed => b.Right() > x && b.Bottom() > y
  }

  /** `kids[i]` is the first element of `kids` whose box lies past the pointer. */
  ghost predicate FirstPast(dir: Direction, layout: Layout, kids: seq<Node>, x: int, y: int, i: int) {
    && 0 <= i < |kids|
    && PastPointer(dir, layout(kids[i]), x, y)
    && forall j :: 0 <= j < i ==> !PastPointer(dir, layout(kids[j]), x, y)
  }

  /** `outside()`: scan the drop target's children in order for the first one past the pointer. */
  function Outside(dir: Direction, layout: Layout, kids: seq<Node>, x: int, y: int): (r: Option<Node>)
    ensures r.Some? ==> exists i :: FirstPast(dir, layout, kids, x, y, i) && kids[i] == r.value
    ensures r.None? <==> forall i :: 0 <= i < |kids| ==> !PastPointer(dir, layout(kids[i]), x, y)
  {
    if |kids| == 0 then None
    else if PastPointer(dir, layout(kids[0]), x, y) then
      assert FirstPast(dir, layout, kids, x, y, 0);
      Some(kids[0])
    else
      var r := Outside(dir, layout, kids[1..], x, y);
      assert r.Some? ==> exists i :: FirstPast(dir, layout, kids, x, y, i) && kids[i] == r.value by {
        if r.Some? {
          var i :| FirstPast(dir, layout, kids[1..], x, y, i) && kids[1..][i] == r.value;
          assert forall j :: 1 <= j <= i ==> kids[j] == kids[1..][j - 1];
          assert FirstPast(dir, layout, kids, x, y, i + 1);
        }
      }
      assert r.None? ==> forall i :: 0 <= i < |kids| ==> !PastPointer(dir, layout(kids[i]), x, y) by {
        if r.None? {
          forall i | 1 <= i < |kids|
            ensures !PastPointer(dir, layout(kids[i]), x, y)
          {
            assert kids[i] == kids[1..][i - 1];
          }
        }
      }
      assert r.None? <== forall i :: 0 <= i < |kids| ==> !PastPointer(dir, layout(kids[i]), x, y) by {
        forall i | 0 <= i < |kids| - 1
          ensures kids[1..][i] == kids[i + 1]
        {
        }
      }
      r
  }

  function Min4(a: int, b: int, c: int, d: int): (m: int)
    ensures m <= a && m <= b && m <= c && m <= d
    ensures m == a || m == b || m == c || m == d
  {
    var ab := if a <= b then a else b;
    var cd := if c <= d then c else d;
    if ab <= cd then ab else cd
  }

  /**
   * The test of `inside()`: true means "after the child". In mixed mode it
   * is true when the nearest edge of the child's box is its left or top one.
   */
  predicate AfterChild(dir: Direction, b: Box, x: int, y: int) {
    match dir
    case Mixed =>
      var toLeft := x - b.left;
      var toTop := y - b.top;
      var m := Min4(toLeft, b.Right() - x, toTop, b.Bottom() - y);
      toLeft == m || toTop == m
    case Horizontal => 2 * x > 2 * b.left + b.width
    case Vertical => 2 * y > 2 * b.top + b.height
  }

  /**
   * `getReference(dropTarget, target, x, y)`: the sibling to insert before.
   * Over a child (`target` is not the drop target) it is that child or the
   * one after it; over the drop target itself it is the first child past the
   * pointer, or None to append.
   */
  function GetReference(dir: Direction, t: Tree, layout: Layout, dropTarget: Node, target: Node, x: int, y: int): (r: Option<Node>)
    ensures target != dropTarget && !AfterChild(dir, layout(target), x, y) ==> r == Some(target)
    ensures target != dropTarget && AfterChild(dir, layout(target), x, y) ==> r == NextEl(t, target)
    ensures target == dropTarget && r.Some? ==>
      exists i :: FirstPast(dir, layout, Children(t, dropTarget), x, y, i) && Children(t, dropTarget)[i] == r.value
    ensures target == dropTarget && r.None? ==>
      forall i :: 0 <= i < |Children(t, dropTarget)| ==> !PastPointer(dir, layout(Children(t, dropTarget)[i]), x, y)
  {
    if target != dropTarget then
      if AfterChild(dir, layout(target), x, y) then NextEl(t, target) else Some(target)
    else Outside(dir, layout, Children(t, dropTarget), x, y)
  }

  /**
   * When every listed child points back at its parent and no child is listed
   * twice, and `target` is the drop target or one of its children, the
   * reference is None or a child of the drop target.
   */
  lemma ReferenceIsChild(dir: Direction, t: Tree, layout: Layout, dropTarget: Node, target: Node, x: int, y: int)
    requires KidsHaveParent(t) && KidsDistinct(t)
    requires target == dropTarget || GetParent(t, target) == Some(dropTarget)
    ensures var r := GetReference(dir, t, layout, dropTarget, target, x, y);
      r.None? || GetParent(t, r.value) == Some(dropTarget)
  {
    var r := GetReference(dir, t, layout, dropTarget, target, x, y);
    if r.Some? {
      if target != dropTarget {
        if r != Some(target) {
          NextElIsSibling(t, target);
        }
      } else {
        var kids := Children(t, dropTarget);
        var i :| FirstPast(dir, layout, kids, x, y, i) && kids[i] == r.value;
        assert dropTarget in t.kids;
        assert t.kids[dropTarget][i] in t.parent && t.parent[t.kids[dropTarget][i]] == dropTarget;
      }
    }
  }

  /** In vertical mode over a child: the child itself when the pointer is in its upper half, else its next sibling. */
  lemma VerticalInside(t: Tree, layout: Layout, dropTarget: Node, target: Node, x: int, y: int)
    requires target != dropTarget
    ensures var b := layout(target);
      GetReference(Vertical, t, layout, dropTarget, target, x, y) ==
        if 2 * y <= 2 * b.top + b.height then Some(target) else NextEl(t, target)
  {
  }
}

=== FILE: gesture.dfy ===
/**
 * Gesture disambiguation and the drake's entry points. A press arms a
 * grab; a mouse grab becomes a drag once the pointer slides far enough, a
 * touch grab once its timeout fires without the finger moving. Every input
 * the drake reacts to is one `Input`, and `Step` runs it.
 */
module Gesture {
  import opened Wrappers
  import opened Seqs
  import opened Dom
  import opened Classes
  import opened Policy
  import opened Geometry
  import opened Lifecycle

  /** The button-related properties of a browser event; None where a property is undefined. */
  datatype Buttons = Buttons(touches: Option<nat>, which: Option<int>, buttons: Option<int>, button: Option<int>)

  function Pow2(k: nat): (r: nat)
    ensures r >= 1
  {
    if k == 0 then 1 else 2 * Pow2(k - 1)
  }

  /** Bit `k` of `n` in two's complement, which is what `n & 2^k` tests for 32-bit values. */
  predicate Bit(n: int, k: nat) {
    (n / Pow2(k)) % 2 == 1
  }

  /**
   * `whichMouseButton(e)`: the touch count, else a non-zero `which`, else
   * `buttons`, else the legacy `button` bit field mapped as left 1, right 3,
   * middle 2; None when none of them is defined.
   */
  function WhichMouseButton(b: Buttons): (r: Option<int>)
    ensures b.touches.Some? ==> r == Some(b.touches.value)
    ensures b.touches.None? && b.which.Some? && b.which.value != 0 ==> r == b.which
    ensures b.touches.None? && (b.which.None? || b.which == Some(0)) && b.buttons.Some? ==> r == b.buttons
    ensures r.None? <==> b.touches.None? && (b.which.None? || b.which == Some(0)) && b.buttons.None? && b.button.None?
  {
    if b.touches.Some? then Some(b.touches.value)
    else if b.which.Some? && b.which.value != 0 then b.which
    else if b.buttons.Some? then b.buttons
    else if b.button.Some? then
      var n := b.button.value;
      Some(if Bit(n, 0) then 1 else if Bit(n, 1) then 3 else if Bit(n, 2) then 2 else 0)
    else None
  }

  /** An event carrying only the legacy `button` field maps into 0..3, and to 1 exactly for an odd field. */
  lemma LegacyButtonMapping(n: int)
    ensures var r := WhichMouseButton(Buttons(None, None, None, Some(n)));
      r.Some? && 0 <= r.value <= 3 && (r.value == 1 <==> n % 2 == 1)
    ensures WhichMouseButton(Buttons(None, None, None, Some(0))) == Some(0)
    ensures WhichMouseButton(Buttons(None, None, None, Some(1))) == Some(1)
    ensures WhichMouseButton(Buttons(None, None, None, Some(2))) == Some(3)
    ensures WhichMouseButton(Buttons(None, None, None, Some(4))) == Some(2)
  {
    assert Pow2(0) == 1 && Pow2(1) == 2 && Pow2(2) == 4;
  }

  /** A press: whether its type is `mousedown` (touch and pointer presses are not), where, which buttons, and on what. */
  datatype Press = Press(mouse: bool, at: Point, buttons: Buttons, meta: bool, ctrl: bool, target: Node)

  /** A move: where (through the touch list for touch events), whether `clientX`/`clientY` are on the event itself, and its buttons. */
  datatype Move = Move(at: Point, own: bool, buttons: Buttons)

  /** `drake.dragging && _mirror`: the state in which `canStart` refuses. */
  predicate Busy(w: World) {
    Dragging(w) && w.s.active.value.mirror.Some?
  }

  /** `setupEventualMovements`: a mouse press waits for a slide, any other press for the timeout. */
  function SetupEventualMovements(s: Session, e: Press): (r: Session)
    ensures e.mouse ==> StartIfMouseMovedListener in r.handlers && r.timer == s.timer
    ensures !e.mouse ==> AbortIfFingerMovedListener in r.handlers && r.timer == Some(e.at)
    ensures r.active == s.active && r.grabbed == s.grabbed && r.grabbedAt == s.grabbedAt
  {
    if e.mouse then s.(handlers := Listen(s.handlers, StartIfMouseMovedListener))
    else s.(timer := Some(e.at), handlers := Listen(s.handlers, AbortIfFingerMovedListener))
  }

  /** The press passes the button test of `grab`: button 1 with neither meta nor ctrl. */
  predicate HonestPress(e: Press) {
    WhichMouseButton(e.buttons) == Some(1) && !e.meta && !e.ctrl
  }

  /**
   * `grab(e)`: record where the press happened; arm a grab only for an
   * honest press on something `canStart` accepts. The tree, the class names
   * and any live drag are untouched.
   */
  function Grab(o: Options, w: World, e: Press): (r: World)
    ensures r.tree == w.tree && r.cls == w.cls && r.s.active == w.s.active
    ensures r.s.grabbedAt == e.at
    ensures !HonestPress(e) || CanStart(o, w.tree, Busy(w), e.target).None? ==>
      r == w.(s := w.s.(grabbedAt := e.at))
    ensures HonestPress(e) && CanStart(o, w.tree, Busy(w), e.target).Some? ==>
      && r.s.grabbed == CanStart(o, w.tree, Busy(w), e.target)
      && (e.mouse ==> StartIfMouseMovedListener in r.s.handlers)
      && (!e.mouse ==> r.s.timer == Some(e.at) && AbortIfFingerMovedListener in r.s.handlers)
  {
    var s := w.s.(grabbedAt := e.at);
    if !HonestPress(e) then w.(s := s)
    else match CanStart(o, w.tree, Busy(w), e.target)
      case None => w.(s := s)
      case Some(ctx) => w.(s := SetupEventualMovements(s.(grabbed := Some(ctx)), e))
  }

  /**
   * `startDraggingGrabbed(e, grabbed)`: stop waiting, end any live drag,
   * then start and show the grabbed one. When ending the previous drag
   * raises, nothing after it runs.
   */
  function StartDraggingGrabbed(o: Options, w: World, env: Env, p: Point, ctx: Context): (r: Out)
    ensures r.w.s.timer.None? && Dragging(r.w)
    ensures !Dragging(w) ==>
      var b := r.w.s.active.value;
      b.item == ctx.item && b.source == ctx.source && b.mirror.Some?
    ensures !Dragging(w) && !o.copy(ctx.item, ctx.source) ==> |r.events| >= 1 && r.events[0] == DragEv(ctx.item, ctx.source)
    ensures Dragging(w) ==>
      var b := r.w.s.active.value;
      r.w.s.active == w.s.active || (b.item == ctx.item && b.source == ctx.source && b.mirror.Some?)
  {
    var w1 := w.(s := CleanupEventualMovements(w.s));
    var ended := End(o, w1);
    assert ended.w.s.timer.None? && (Dragging(ended.w) ==> ended.w == w1);
    if Dragging(ended.w) then Out(ended.w, ended.events)
    else
      var shown := ShowGrabbed(o, ended.w, env, p, ctx);
      Out(shown.w, ended.events + shown.events)
  }

  /**
   * The rest of `startDraggingGrabbed` once no drag is live: start the
   * grabbed item, take the pointer offset against its box, mark the moving
   * element `gu-transit`, show the mirror and run one drag step.
   */
  function ShowGrabbed(o: Options, w: World, env: Env, p: Point, ctx: Context): (r: Out)
    ensures Dragging(r.w) && r.w.s.timer == w.s.timer
    ensures var b := r.w.s.active.value;
      b.item == ctx.item && b.source == ctx.source && b.mirror.Some?
    ensures !o.copy(ctx.item, ctx.source) ==> |r.events| >= 1 && r.events[0] == DragEv(ctx.item, ctx.source)
  {
    var started := Start(o, w, ctx);
    var mirrored := RenderMirror(o, MarkTransit(started.w, env.layout, p), env.layout);
    var dragged := Drag(o, mirrored.w, env, p);
    Out(dragged.w, started.events + mirrored.events + dragged.events)
  }

  /** Take the pointer offset against the item's box and mark the moving element `gu-transit`; only those change. */
  function MarkTransit(w: World, layout: Layout, p: Point): (r: World)
    requires Dragging(w)
    ensures r.tree == w.tree && r.s.(active := w.s.active) == w.s && Dragging(r)
    ensures var a := r.s.active.value;
      w.s.active == Some(a.(offset := w.s.active.value.offset, anchor := w.s.active.value.anchor))
    ensures var n := w.s.active.value.Moving();
      n in r.cls && HasToken(r.cls[n], "gu-transit") && forall m :: m in w.cls && m != n ==> m in r.cls && r.cls[m] == w.cls[m]
  {
    var a := w.s.active.value;
    var b := layout(a.item);
    var a1 := a.(offset := Point(p.x - b.left, p.y - b.top), anchor := Some(Point(b.left, b.top)));
    Markers();
    var cls := w.cls[a1.Moving() := AddClass(ClassOf(w, a1.Moving()), "gu-transit")];
    World(w.tree, cls, w.s.(active := Some(a1)))
  }

  function Abs(n: int): nat {
    if n < 0 then -n else n
  }

  /** The pointer stayed within the slide factors of the press (only for coordinates on the event itself). */
  predicate WithinSlide(o: Options, w: World, m: Move) {
    m.own && Abs(m.at.x - w.s.grabbedAt.x) <= o.slideFactorX && Abs(m.at.y - w.s.grabbedAt.y) <= o.slideFactorY
  }

  /** A move that starts the drag: a grab is armed, a button is down, and none of the reasons to wait holds. */
  predicate MovedPast(o: Options, w: World, env: Env, m: Move) {
    && w.s.grabbed.Some? && WhichMouseButton(m.buttons) != Some(0)
    && !WithinSlide(o, w, m) && !(m.own && m.at == w.s.grabbedAt)
    && !(o.ignoreInputTextSelection && (env.hit.None? || IsInput(w.tree, env.hit.value)))
  }

  /**
   * `startIfMouseMoved(e)`: with a grab armed, no button pressed means the
   * mouseup was missed, so `release({})`. That ungrabs, and a live drag stays
   * in place: the empty event has no coordinates, so `elementFromPoint`
   * raises before any drop, remove or cancel. A slide within the factors, a
   * move to the very press point, or a pointer over an input (with
   * `ignoreInputTextSelection`) waits; anything else starts the drag. With
   * no element under the pointer the input test raises, which also waits.
   */
  function StartIfMouseMoved(o: Options, w: World, env: Env, m: Move): (r: Out)
    ensures w.s.grabbed.None? ==> r == Out(w, [])
    ensures w.s.grabbed.Some? && WhichMouseButton(m.buttons) == Some(0) ==> r == Out(w.(s := Ungrab(w.s)), [])
    ensures w.s.grabbed.Some? && WhichMouseButton(m.buttons) != Some(0) && WithinSlide(o, w, m) ==> r == Out(w, [])
    ensures w.s.grabbed.Some? && WhichMouseButton(m.buttons) != Some(0) && m.own && m.at == w.s.grabbedAt ==> r == Out(w, [])
    ensures (&& w.s.grabbed.Some? && WhichMouseButton(m.buttons) != Some(0)
             && o.ignoreInputTextSelection && (env.hit.None? || IsInput(w.tree, env.hit.value))) ==> r == Out(w, [])
    ensures MovedPast(o, w, env, m) ==>
      && Dragging(r.w) && r.w.s.timer.None?
      && (!Dragging(w) ==> r.w.s.active.value.item == w.s.grabbed.value.item && r.w.s.active.value.mirror.Some?)
    ensures r == Out(w, []) || r == Out(w.(s := Ungrab(w.s)), []) ||
      (MovedPast(o, w, env, m) && r == StartDraggingGrabbed(o, w, env, m.at, w.s.grabbed.value))
  {
    match w.s.grabbed
    case None => Out(w, [])
    case Some(ctx) =>
      if WhichMouseButton(m.buttons) == Some(0) then Out(w.(s := Ungrab(w.s)), [])
      else if WithinSlide(o, w, m) then Out(w, [])
      else if m.own && m.at == w.s.grabbedAt then Out(w, [])
      else if o.ignoreInputTextSelection && (env.hit.None? || IsInput(w.tree, env.hit.value)) then Out(w, [])
      else StartDraggingGrabbed(o, w, env, m.at, ctx)
  }

  /** `abortIfFingerMoved(e)`: a finger that moved past the threshold on either axis gives up the pending touch start. */
  function AbortIfFingerMoved(o: Options, w: World, m: Move): (r: World)
    ensures Abs(w.s.grabbedAt.x - m.at.x) > o.scrollThreshold || Abs(w.s.grabbedAt.y - m.at.y) > o.scrollThreshold ==>
      r.s.timer.None? && AbortIfFingerMovedListener !in r.s.handlers && StartIfMouseMovedListener !in r.s.handlers
    ensures Abs(w.s.grabbedAt.x - m.at.x) <= o.scrollThreshold && Abs(w.s.grabbedAt.y - m.at.y) <= o.scrollThreshold ==>
      r == w
    ensures r.tree == w.tree && r.cls == w.cls && r.s.active == w.s.active && r.s.grabbed == w.s.grabbed
  {
    if Abs(w.s.grabbedAt.x - m.at.x) > o.scrollThreshold || Abs(w.s.grabbedAt.y - m.at.y) > o.scrollThreshold then
      w.(s := CleanupEventualMovements(w.s))
    else w
  }

  /** The touch timeout: start dragging what is grabbed, at the position of the press that armed it. */
  function TimerFired(o: Options, w: World, env: Env): (r: Out)
    ensures w.s.timer.None? || w.s.grabbed.None? ==> r == Out(w, [])
    ensures w.s.timer.Some? && w.s.grabbed.Some? ==>
      && Dragging(r.w) && r.w.s.timer.None?
      && (!Dragging(w) ==> r.w.s.active.value.item == w.s.grabbed.value.item && r.w.s.active.value.mirror.Some?)
  {
    match w.s.timer
    case None => Out(w, [])
    case Some(p) =>
      match w.s.grabbed
      case None => Out(w, [])
      case Some(ctx) => StartDraggingGrabbed(o, w, env, p, ctx)
  }

  function RunListener(o: Options, w: World, env: Env, m: Move, h: Handler): Out {
    match h
    case StartIfMouseMovedListener => StartIfMouseMoved(o, w, env, m)
    case AbortIfFingerMovedListener => Out(AbortIfFingerMoved(o, w, m), [])
    case DragListener => Drag(o, w, env, m.at)
  }

  /**
   * Dispatch of a move to the listeners registered when it began, in order;
   * one removed by an earlier listener is skipped, and one added meanwhile
   * waits for the next move (the DOM's rules for listener lists).
   */
  function RunListeners(o: Options, w: World, env: Env, m: Move, todo: seq<Handler>): (r: Out)
    decreases |todo|
  {
    if |todo| == 0 then Out(w, [])
    else
      var first := if todo[0] in w.s.handlers then RunListener(o, w, env, m, todo[0]) else Out(w, []);
      var rest := RunListeners(o, first.w, env, m, todo[1..]);
      Out(rest.w, first.events + rest.events)
  }

  /** Everything the drake reacts to: pointer events, the touch timeout, and the drake's API. */
  datatype Input =
    | PressIn(press: Press)
    | MoveIn(move: Move)
    | ReleaseIn(at: Point)
    | TimerIn
    | StartCall(el: Node)            // `drake.start(item)`
    | EndCall                        // `drake.end()`
    | CancelCall(revert: Option<bool>)  // `drake.cancel(revert)`, None when called without an argument
    | RemoveCall                     // `drake.remove()`

  /** `drake.start(item)`: start without a gesture when `canStart` allows. */
  function ManualStart(o: Options, w: World, el: Node): (r: Out)
    ensures CanStart(o, w.tree, Busy(w), el).None? ==> r == Out(w, [])
    ensures CanStart(o, w.tree, Busy(w), el).Some? ==> Dragging(r.w) && r.w.s.active.value.item == CanStart(o, w.tree, Busy(w), el).value.item
  {
    match CanStart(o, w.tree, Busy(w), el)
    case None => Out(w, [])
    case Some(ctx) => Start(o, w, ctx)
  }

  function Step(o: Options, w: World, env: Env, i: Input): Out {
    match i
    case PressIn(e) => Out(Grab(o, w, e), [])
    case MoveIn(m) => RunListeners(o, w, env, m, w.s.handlers)
    case ReleaseIn(p) => Release(o, w, env, p)
    case TimerIn => TimerFired(o, w, env)
    case StartCall(el) => ManualStart(o, w, el)
    case EndCall => End(o, w)
    case CancelCall(revert) => Cancel(o, w, revert)
    case RemoveCall => Remove(o, w)
  }
}

=== FILE: gesture_facts.dfy ===
/** Properties of whole input steps: the touch timeout is only ever pending for an armed grab. */
module GestureFacts {
  import opened Wrappers
  import opened Dom
  import opened Policy
  import opened Lifecycle
  import opened LifecycleFacts
  import opened SessionInvariant
  import opened Classes
  import opened Gesture

  /** A pending touch timeout always belongs to an armed grab. */
  predicate TimerWithGrab(w: World) {
    w.s.timer.Some? ==> w.s.grabbed.Some?
  }

  /** A release always leaves no timeout pending, whatever the drag did. */
  lemma ReleaseClearsTimer(o: Options, w: World, env: Env, p: Point)
    ensures Release(o, w, env, p).w.s.timer.None?
  {
  }

  /** `cancel` and `remove` never leave a timeout pending that had no grab. */
  lemma TerminalsKeepTimerWithGrab(o: Options, w: World, revert: Option<bool>)
    requires TimerWithGrab(w)
    ensures TimerWithGrab(Cancel(o, w, revert).w) && TimerWithGrab(Remove(o, w).w) && TimerWithGrab(End(o, w).w)
  {
  }

  lemma ListenerKeepsTimerWithGrab(o: Options, w: World, env: Env, m: Move, h: Handler)
    requires TimerWithGrab(w)
    ensures TimerWithGrab(RunListener(o, w, env, m, h).w)
  {
  }

  lemma {:induction false} ListenersKeepTimerWithGrab(o: Options, w: World, env: Env, m: Move, todo: seq<Handler>)
    requires TimerWithGrab(w)
    ensures TimerWithGrab(RunListeners(o, w, env, m, todo).w)
    decreases |todo|
  {
    if |todo| > 0 {
      var first := if todo[0] in w.s.handlers then RunListener(o, w, env, m, todo[0]) else Out(w, []);
      if todo[0] in w.s.handlers {
        ListenerKeepsTimerWithGrab(o, w, env, m, todo[0]);
      }
      ListenersKeepTimerWithGrab(o, first.w, env, m, todo[1..]);
    }
  }

  /** Every input keeps the touch timeout tied to an armed grab. */
  lemma StepKeepsTimerWithGrab(o: Options, w: World, env: Env, i: Input)
    requires TimerWithGrab(w)
    ensures TimerWithGrab(Step(o, w, env, i).w)
  {
    match i
    case MoveIn(m) => ListenersKeepTimerWithGrab(o, w, env, m, w.s.handlers);
    case ReleaseIn(p) => ReleaseClearsTimer(o, w, env, p);
    case EndCall => TerminalsKeepTimerWithGrab(o, w, None);
    case CancelCall(revert) => TerminalsKeepTimerWithGrab(o, w, revert);
    case RemoveCall => TerminalsKeepTimerWithGrab(o, w, None);
    case _ =>
  }

  /**
   * A mouse grab does not start while the pointer stays within the slide
   * factors: with no drag live and no touch gesture pending, a move leaves
   * the world as it was, whatever listeners are registered.
   */
  lemma MouseGrabWaitsWithinSlide(o: Options, w: World, env: Env, m: Move)
    requires AbortIfFingerMovedListener !in w.s.handlers && !Dragging(w)
    requires WhichMouseButton(m.buttons) != Some(0) && WithinSlide(o, w, m)
    ensures Step(o, w, env, MoveIn(m)) == Out(w, [])
  {
    ListenersWaitWithinSlide(o, w, env, m, w.s.handlers);
  }

  lemma {:induction false} ListenersWaitWithinSlide(o: Options, w: World, env: Env, m: Move, todo: seq<Handler>)
    requires AbortIfFingerMovedListener !in w.s.handlers && !Dragging(w)
    requires WhichMouseButton(m.buttons) != Some(0) && WithinSlide(o, w, m)
    ensures RunListeners(o, w, env, m, todo) == Out(w, [])
    decreases |todo|
  {
    if |todo| > 0 {
      ListenersWaitWithinSlide(o, w, env, m, todo[1..]);
    }
  }

  /** The finger moved past the scroll threshold on either axis since the press. */
  predicate FingerMoved(o: Options, w: World, m: Move) {
    Abs(w.s.grabbedAt.x - m.at.x) > o.scrollThreshold || Abs(w.s.grabbedAt.y - m.at.y) > o.scrollThreshold
  }

  /** A listener either clears the timeout or leaves the timeout, the listeners and the press point alone. */
  lemma ListenerClearsOrKeepsTimer(o: Options, w: World, env: Env, m: Move, h: Handler)
    ensures var r := RunListener(o, w, env, m, h).w;
      r.s.timer.None? || (r.s.timer == w.s.timer && r.s.handlers == w.s.handlers && r.s.grabbedAt == w.s.grabbedAt)
    ensures h == AbortIfFingerMovedListener && FingerMoved(o, w, m) ==> RunListener(o, w, env, m, h).w.s.timer.None?
  {
  }

  lemma {:induction false} FingerListenersClearTimer(o: Options, w: World, env: Env, m: Move, todo: seq<Handler>)
    requires w.s.timer.None? ||
      (FingerMoved(o, w, m) && AbortIfFingerMovedListener in w.s.handlers && AbortIfFingerMovedListener in todo)
    ensures RunListeners(o, w, env, m, todo).w.s.timer.None?
    decreases |todo|
  {
    if |todo| > 0 {
      var first := if todo[0] in w.s.handlers then RunListener(o, w, env, m, todo[0]) else Out(w, []);
      if todo[0] in w.s.handlers {
        ListenerClearsOrKeepsTimer(o, w, env, m, todo[0]);
      }
      assert todo == [todo[0]] + todo[1..];
      FingerListenersClearTimer(o, first.w, env, m, todo[1..]);
    }
  }

  /**
   * A touch grab whose finger moved past the threshold never fires its
   * timeout, whatever other listeners run on the same move.
   */
  lemma FingerMoveCancelsTouchStart(o: Options, w: World, env: Env, m: Move)
    requires AbortIfFingerMovedListener in w.s.handlers && FingerMoved(o, w, m)
    ensures var moved := Step(o, w, env, MoveIn(m)).w;
      moved.s.timer.None? && Step(o, moved, env, TimerIn) == Out(moved, [])
  {
    var moved := RunListeners(o, w, env, m, w.s.handlers).w;
    assert Step(o, w, env, MoveIn(m)).w == moved;
    FingerListenersClearTimer(o, w, env, m, w.s.handlers);
    TimerQuietWithoutTimeout(o, moved, env);
  }

  /** With no timeout pending, the timer input does nothing. */
  lemma TimerQuietWithoutTimeout(o: Options, w: World, env: Env)
    requires w.s.timer.None?
    ensures Step(o, w, env, TimerIn) == Out(w, [])
  {
    assert Step(o, w, env, TimerIn) == TimerFired(o, w, env);
  }

  /** What `canStart` hands out is a child of its source, so it names ids in use. */
  lemma CanStartCtxOk(o: Options, t: Tree, busy: bool, handle: Node)
    requires WellFormed(t)
    ensures CanStart(o, t, busy, handle).Some? ==> CtxOk(t, CanStart(o, t, busy, handle).value)
  {
  }

  lemma GrabKeepsInv(o: Options, w: World, e: Press)
    requires Inv(o, w)
    ensures Inv(o, Grab(o, w, e))
  {
    CanStartCtxOk(o, w.tree, Busy(w), e.target);
  }

  /** Starting the grabbed item, showing its mirror and one drag step keep the invariant. */
  lemma ShowGrabbedKeepsInv(o: Options, w: World, env: Env, p: Point, ctx: Context)
    requires Inv(o, w) && !Dragging(w) && CtxOk(w.tree, ctx) && EnvOk(w.tree, env)
    ensures Inv(o, ShowGrabbed(o, w, env, p, ctx).w)
    ensures Grows(w.tree, ShowGrabbed(o, w, env, p, ctx).w.tree)
  {
    StartKeepsInv(o, w, ctx);
    var started := Start(o, w, ctx);
    var w2 := MarkTransit(started.w, env.layout, p);
    RenderMirrorKeepsInv(o, w2, env.layout);
    DragKeepsInv(o, RenderMirror(o, w2, env.layout).w, env, p);
  }

  /** Ending the old drag and then starting and showing the grabbed one keep the invariant. */
  lemma StartDraggingGrabbedKeepsInv(o: Options, w: World, env: Env, p: Point, ctx: Context)
    requires Inv(o, w) && CtxOk(w.tree, ctx) && EnvOk(w.tree, env)
    ensures Inv(o, StartDraggingGrabbed(o, w, env, p, ctx).w)
    ensures Grows(w.tree, StartDraggingGrabbed(o, w, env, p, ctx).w.tree)
  {
    var w1 := w.(s := CleanupEventualMovements(w.s));
    EndKeepsInv(o, w1);
    var ended := End(o, w1);
    if !Dragging(ended.w) {
      ShowGrabbedKeepsInv(o, ended.w, env, p, ctx);
    }
  }

  lemma StartIfMouseMovedKeepsInv(o: Options, w: World, env: Env, m: Move)
    requires Inv(o, w) && EnvOk(w.tree, env)
    ensures Inv(o, StartIfMouseMoved(o, w, env, m).w)
    ensures Grows(w.tree, StartIfMouseMoved(o, w, env, m).w.tree)
  {
    if MovedPast(o, w, env, m) {
      StartDraggingGrabbedKeepsInv(o, w, env, m.at, w.s.grabbed.value);
    }
  }

  lemma TimerFiredKeepsInv(o: Options, w: World, env: Env)
    requires Inv(o, w) && EnvOk(w.tree, env)
    ensures Inv(o, TimerFired(o, w, env).w) && Grows(w.tree, TimerFired(o, w, env).w.tree)
  {
    if w.s.timer.Some? && w.s.grabbed.Some? {
      StartDraggingGrabbedKeepsInv(o, w, env, w.s.timer.value, w.s.grabbed.value);
    }
  }

  lemma ManualStartKeepsInv(o: Options, w: World, el: Node)
    requires Inv(o, w)
    ensures Inv(o, ManualStart(o, w, el).w) && Grows(w.tree, ManualStart(o, w, el).w.tree)
  {
    CanStartCtxOk(o, w.tree, Busy(w), el);
    if CanStart(o, w.tree, Busy(w), el).Some? {
      StartKeepsInv(o, w, CanStart(o, w.tree, Busy(w), el).value);
    }
  }

  lemma RunListenerKeepsInv(o: Options, w: World, env: Env, m: Move, h: Handler)
    requires Inv(o, w) && EnvOk(w.tree, env)
    ensures Inv(o, RunListener(o, w, env, m, h).w) && Grows(w.tree, RunListener(o, w, env, m, h).w.tree)
  {
    match h
    case StartIfMouseMovedListener => StartIfMouseMovedKeepsInv(o, w, env, m);
    case AbortIfFingerMovedListener =>
    case DragListener => DragKeepsInv(o, w, env, m.at);
  }

  lemma {:induction false} RunListenersKeepInv(o: Options, w: World, env: Env, m: Move, todo: seq<Handler>)
    requires Inv(o, w) && EnvOk(w.tree, env)
    ensures Inv(o, RunListeners(o, w, env, m, todo).w)
    decreases |todo|
  {
    if |todo| > 0 {
      var first := if todo[0] in w.s.handlers then RunListener(o, w, env, m, todo[0]) else Out(w, []);
      if todo[0] in w.s.handlers {
        RunListenerKeepsInv(o, w, env, m, todo[0]);
      }
      RunListenersKeepInv(o, first.w, env, m, todo[1..]);
    }
  }

  /**
   * Every input keeps the session invariant: the tree stays well formed and,
   * without `copySortSource`, a live copy is never a child of its source.
   */
  lemma StepKeepsInv(o: Options, w: World, env: Env, i: Input)
    requires Inv(o, w) && EnvOk(w.tree, env)
    ensures var r := Step(o, w, env, i).w;
      Inv(o, r) && WellFormed(r.tree) && CopyOutOfSource(o, r)
  {
    match i
    case PressIn(e) => GrabKeepsInv(o, w, e);
    case MoveIn(m) => RunListenersKeepInv(o, w, env, m, w.s.handlers);
    case ReleaseIn(p) => ReleaseKeepsInv(o, w, env, p);
    case TimerIn => TimerFiredKeepsInv(o, w, env);
    case StartCall(el) => ManualStartKeepsInv(o, w, el);
    case EndCall => EndKeepsInv(o, w);
    case CancelCall(revert) => CancelKeepsInv(o, w, revert);
    case RemoveCall => RemoveKeepsInv(o, w);
  }
}

=== FILE: invariant.dfy ===
/**
 * The invariant the drake keeps across its lifecycle operations: the tree
 * stays well formed, the session only holds ids of the tree, the mirror is
 * younger than the item and its initial sibling, and a copy never sits in
 * its own source unless `copySortSource` allows it.
 */
module SessionInvariant {
  import opened Wrappers
  import opened Dom
  import opened Policy
  import opened Geometry
  import opened Lifecycle
  import opened LifecycleFacts

  /** A grabbed pair names ids in use, and the item is not the document element. */
  ghost predicate CtxOk(t: Tree, ctx: Context) {
    ctx.item < t.next && ctx.item != t.root && ctx.source < t.next
  }

  /** The fields of a live drag name ids in use; the sibling is not the item; the mirror came after both. */
  ghost predicate ActiveOk(t: Tree, a: Active) {
    && CtxOk(t, Context(a.item, a.source))
    && (a.copy.Some? ==> a.copy.value < t.next && a.copy.value != t.root)
    && a.initialSibling != Some(a.item)
    && (a.initialSibling.Some? ==> a.initialSibling.value < t.next)
    && (a.mirror.Some? ==>
          a.mirror.value < t.next && a.item < a.mirror.value &&
          (a.initialSibling.Some? ==> a.initialSibling.value < a.mirror.value))
  }

  /** Until the mirror is up no drag step has run, so a copy is still detached. */
  ghost predicate CopyDetachedUntilMirror(w: World) {
    Dragging(w) && w.s.active.value.mirror.None? && w.s.active.value.copy.Some? ==>
      w.s.active.value.copy.value !in w.tree.parent
  }

  ghost predicate Inv(o: Options, w: World) {
    && WellFormed(w.tree)
    && o.mirrorContainer < w.tree.next
    && (w.s.grabbed.Some? ==> CtxOk(w.tree, w.s.grabbed.value))
    && (Dragging(w) ==> ActiveOk(w.tree, w.s.active.value))
    && CopyOutOfSource(o, w)
    && CopyDetachedUntilMirror(w)
  }

  /** The element under the pointer is an element of the document. */
  ghost predicate EnvOk(t: Tree, env: Env) {
    env.hit.Some? ==> env.hit.value < t.next
  }

  /** The id counter never goes back and the document element stays. */
  ghost predicate Grows(t: Tree, t': Tree) {
    t'.next >= t.next && t'.root == t.root
  }

  /** Cleanup ends every drag, so only the tree matters: taking the mirror out keeps it well formed. */
  lemma CleanupKeepsInv(o: Options, w: World)
    requires WellFormed(w.tree) && o.mirrorContainer < w.tree.next
    ensures Inv(o, Cleanup(o, w).w) && Grows(w.tree, Cleanup(o, w).w.tree)
  {
    if Dragging(w) && w.s.active.value.mirror.Some? {
      DetachPreservesWellFormed(w.tree, w.s.active.value.mirror.value);
    }
  }

  lemma DropKeepsInv(o: Options, w: World, target: Option<Node>)
    requires Inv(o, w) && Dragging(w)
    ensures Inv(o, Drop(o, w, target).w) && Grows(w.tree, Drop(o, w, target).w.tree)
  {
    var a := w.s.active.value;
    if !DropRaises(o, w.tree, a, target) {
      var t1 := if SortsSource(o, a, target) then RemoveChild(w.tree, GetParent(w.tree, a.Moving()).value, a.item) else w.tree;
      if SortsSource(o, a, target) {
        DetachPreservesWellFormed(w.tree, a.item);
      }
      CleanupKeepsInv(o, w.(tree := t1));
    }
  }

  lemma EndKeepsInv(o: Options, w: World)
    requires Inv(o, w)
    ensures Inv(o, End(o, w).w) && Grows(w.tree, End(o, w).w.tree)
  {
    if Dragging(w) {
      DropKeepsInv(o, w, GetParent(w.tree, w.s.active.value.Moving()));
    }
  }

  lemma RemoveKeepsInv(o: Options, w: World)
    requires Inv(o, w)
    ensures Inv(o, Remove(o, w).w) && Grows(w.tree, Remove(o, w).w.tree)
  {
    if Dragging(w) {
      var item := w.s.active.value.Moving();
      var parent := GetParent(w.tree, item);
      var t1 := if parent.Some? then RemoveChild(w.tree, parent.value, item) else w.tree;
      if parent.Some? {
        DetachPreservesWellFormed(w.tree, item);
      }
      CleanupKeepsInv(o, w.(tree := t1));
    }
  }

  lemma CancelKeepsInv(o: Options, w: World, revert: Option<bool>)
    requires Inv(o, w)
    ensures Inv(o, Cancel(o, w, revert).w) && Grows(w.tree, Cancel(o, w, revert).w.tree)
  {
    if !Dragging(w) {
      CleanupKeepsInv(o, w);
    } else {
      var a := w.s.active.value;
      var item := a.Moving();
      var parent := GetParent(w.tree, item);
      if !CancelRaises(o, w.tree, a, revert) {
        var t1 :=
          if !Reverts(o, w.tree, a, revert) then w.tree
          else if a.copy.Some? then (if parent.Some? then RemoveChild(w.tree, parent.value, item) else w.tree)
          else InsertBefore(w.tree, a.source, item, a.initialSibling);
        if Reverts(o, w.tree, a, revert) {
          if a.copy.Some? {
            DetachPreservesWellFormed(w.tree, item);
          } else {
            InsertBeforePreservesWellFormed(w.tree, a.source, item, a.initialSibling);
          }
        }
        CleanupKeepsInv(o, w.(tree := t1));
      }
    }
  }

  /** `release` ungrabs and then drops, removes or cancels. */
  lemma ReleaseKeepsInv(o: Options, w: World, env: Env, p: Point)
    requires Inv(o, w)
    ensures Inv(o, Release(o, w, env, p).w) && Grows(w.tree, Release(o, w, env, p).w.tree)
  {
    var w1 := w.(s := Ungrab(w.s));
    assert Inv(o, w1);
    if Dragging(w1) {
      ReleaseRoutes(o, w, env, p);
      match FindDropTarget(o, w1.tree, w1.s.active.value, env, p)
      case Raised =>
      case Found(dt) =>
        DropKeepsInv(o, w1, dt);
        RemoveKeepsInv(o, w1);
        CancelKeepsInv(o, w1, None);
    }
  }

  /**
   * `start` from a state without a mirror: the sibling it records is an id
   * other than the item, and a copy is a fresh detached clone.
   */
  lemma StartKeepsInv(o: Options, w: World, ctx: Context)
    requires Inv(o, w) && CtxOk(w.tree, ctx)
    requires !Dragging(w) || w.s.active.value.mirror.None?
    ensures Inv(o, Start(o, w, ctx).w) && Grows(w.tree, Start(o, w, ctx).w.tree)
  {
    NextElBounded(w.tree, ctx.item);
    if o.copy(ctx.item, ctx.source) {
      CloneIsFresh(w.tree, ctx.item);
    }
  }

  /** The mirror is a clone with the next id, appended to the mirror container. */
  lemma RenderMirrorKeepsInv(o: Options, w: World, layout: Layout)
    requires Inv(o, w) && Dragging(w)
    ensures Inv(o, RenderMirror(o, w, layout).w) && Grows(w.tree, RenderMirror(o, w, layout).w.tree)
  {
    var a := w.s.active.value;
    if a.mirror.None? {
      CloneIsFresh(w.tree, a.item);
      var (t1, m) := Clone(w.tree, a.item);
      InsertBeforePreservesWellFormed(t1, o.mirrorContainer, m, None);
      var r := RenderMirror(o, w, layout).w;
      assert r.tree == t1 || r.tree == InsertBefore(t1, o.mirrorContainer, m, None);
      if a.copy.Some? {
        assert GetParent(r.tree, a.copy.value) == GetParent(w.tree, a.copy.value);
      }
    }
  }

  /** A drop target the search finds is an ancestor-or-self of the element under the pointer. */
  lemma FoundTargetBounded(o: Options, t: Tree, a: Active, env: Env, p: Point)
    requires Bounded(t) && EnvOk(t, env)
    ensures var f := FindDropTarget(o, t, a, env, p);
      f.Found? && f.target.Some? ==> f.target.value < t.next
  {
    var f := FindDropTarget(o, t, a, env, p);
    if f.Found? && f.target.Some? {
      var h := env.hit.value;
      var k :| 0 <= k <= Depth(t) && NearestAccepted(o, t, a, env.layout, h, p, h, k) && Anc(t, h, k) == f.target;
      AncBounded(t, h, k);
    }
  }

  /** A drag step only detaches the moving element or inserts it into a container of the tree. */
  lemma DragOverKeepsWellFormed(o: Options, w: World, a: Active, env: Env, p: Point, dt: Option<Node>)
    requires WellFormed(w.tree) && ActiveOk(w.tree, a)
    requires dt.Some? ==> dt.value < w.tree.next
    ensures WellFormed(DragOver(o, w, a, env, p, dt).w.tree)
    ensures Grows(w.tree, DragOver(o, w, a, env, p, dt).w.tree)
  {
    var item := a.Moving();
    if CopyOverSource(o, a, dt) {
      DetachPreservesWellFormed(w.tree, item);
      assert DragOver(o, w, a, env, p, dt).w.tree == Detach(w.tree, item);
    } else {
      var changed := dt.Some? && dt != a.lastDropTarget;
      var parent := GetParent(w.tree, item);
      var moved := a.currentParent.Some? && a.currentParent != parent;
      var a1 := a.(lastDropTarget := if changed || dt.None? then dt else a.lastDropTarget, currentParent := parent);
      var w1 := w.(s := w.s.(active := Some(a1)));
      assert DragOver(o, w, a, env, p, dt) == DragInto(o, w1, a1, env, p, dt, Hover(a, dt), changed, moved);
      DragIntoKeepsWellFormed(o, w1, a1, env, p, dt, Hover(a, dt), changed, moved);
    }
  }

  lemma DragIntoKeepsWellFormed(o: Options, w: World, a: Active, env: Env, p: Point, dt: Option<Node>,
                                evs: seq<Event>, changed: bool, moved: bool)
    requires WellFormed(w.tree) && ActiveOk(w.tree, a)
    requires dt.Some? ==> dt.value < w.tree.next
    ensures WellFormed(DragInto(o, w, a, env, p, dt, evs, changed, moved).w.tree)
    ensures Grows(w.tree, DragInto(o, w, a, env, p, dt, evs, changed, moved).w.tree)
  {
    var item := a.Moving();
    match ImmediateChild(w.tree, dt, env.hit, Depth(w.tree))
    case Some(immediate) =>
      if dt.Some? {
        var ref := GetReference(o.direction, w.tree, env.layout, dt.value, immediate, p.x, p.y);
        InsertBeforePreservesWellFormed(w.tree, dt.value, item, ref);
        PlaceTree(o, w, a, evs, changed, moved, dt.value, ref, env.layout, p);
      }
    case None =>
      if o.revertOnSpill && a.copy.None? {
        InsertBeforePreservesWellFormed(w.tree, a.source, item, a.initialSibling);
        PlaceTree(o, w, a, evs, changed, moved, a.source, a.initialSibling, env.layout, p);
      } else {
        DetachPreservesWellFormed(w.tree, item);
      }
  }

  lemma PlaceTree(o: Options, w: World, a: Active, evs: seq<Event>, changed: bool, moved: bool,
                  target: Node, ref: Option<Node>, layout: Layout, p: Point)
    requires WellFormed(InsertBefore(w.tree, target, a.Moving(), ref))
    requires WellFormed(w.tree)
    ensures WellFormed(Place(o, w, a, evs, changed, moved, target, ref, layout, p).w.tree)
    ensures Grows(w.tree, Place(o, w, a, evs, changed, moved, target, ref, layout, p).w.tree)
  {
  }

  lemma DragKeepsInv(o: Options, w: World, env: Env, p: Point)
    requires Inv(o, w) && EnvOk(w.tree, env)
    ensures Inv(o, Drag(o, w, env, p).w) && Grows(w.tree, Drag(o, w, env, p).w.tree)
  {
    DragKeepsCopyOutOfSource(o, w, env, p);
    if Dragging(w) && w.s.active.value.mirror.Some? {
      var a := w.s.active.value;
      FoundTargetBounded(o, w.tree, a, env, p);
      match FindDropTarget(o, w.tree, a, env, p)
      case Raised =>
      case Found(dt) =>
        DragOverKeepsWellFormed(o, w, a, env, p, dt);
    }
  }

  /**
   * A cancel that reverts takes a copy out of the tree, and puts the item
   * back into its source right before the sibling it had when the drag
   * started, whenever the DOM accepts that insertion.
   */
  lemma CancelRevertRestores(o: Options, w: World, revert: Option<bool>)
    requires Inv(o, w) && Dragging(w) && Reverts(o, w.tree, w.s.active.value, revert)
    ensures var a := w.s.active.value;
      var r := Cancel(o, w, revert);
      a.copy.Some? ==> !Dragging(r.w) && a.copy.value !in r.w.tree.parent
    ensures var a := w.s.active.value;
      var r := Cancel(o, w, revert);
      a.copy.None? && CanInsert(w.tree, a.source, a.item, a.initialSibling) ==>
        && !Dragging(r.w)
        && GetParent(r.w.tree, a.item) == Some(a.source)
        && NextEl(r.w.tree, a.item) == a.initialSibling
  {
    var a := w.s.active.value;
    if a.copy.None? && CanInsert(w.tree, a.source, a.item, a.initialSibling) {
      var t1 := InsertBefore(w.tree, a.source, a.item, a.initialSibling);
      InsertBeforePlaces(w.tree, a.source, a.item, a.initialSibling);
      InsertBeforePreservesWellFormed(w.tree, a.source, a.item, a.initialSibling);
      if a.mirror.Some? {
        DetachKeepsNextEl(t1, a.mirror.value, a.item);
      }
    }
  }
}

=== FILE: lifecycle.dfy ===
/**
 * The drag session: the drake's private fields, the lifecycle operations
 * (`start`, `end`, `release`, `drop`, `remove`, `cancel`, `cleanup`), the
 * drop-target search and the per-move `drag` step. Every operation is a
 * pure step from a world (tree, class names, session) to a new world and
 * the lifecycle events it emits, in order.
 *
 * A DOM call that raises (an `insertBefore` the DOM refuses, a
 * `removeChild` of a non-child, a method called on null) ends the handler:
 * the step returns the world as it stood at that point and the events
 * emitted so far.
 */
module Lifecycle {
  import opened Wrappers
  import opened Seqs
  import opened Dom
  import opened Classes
  import opened Policy
  import opened Geometry

  /** Client coordinates; page coordinates equal them (scroll offsets are taken as zero). */
  datatype Point = Point(x: int, y: int)

  datatype CloneKind = CopyClone | MirrorClone

  /** The lifecycle notifications, with the arguments the drake passes. */
  datatype Event =
    | ClonedEv(clone: Node, original: Node, kind: CloneKind)
    | DragEv(item: Node, source: Node)
    | OverEv(item: Node, container: Node, source: Node)
    | OutEv(item: Node, container: Node, source: Node)
    | ShadowEv(item: Node, container: Node, source: Node)
    | DropEv(item: Node, target: Option<Node>, source: Node, sibling: Option<Node>)
    | CancelEv(item: Node, target: Option<Node>, source: Node)
    | RemoveEv(item: Node, parent: Option<Node>, source: Node)
    | DragendEv(item: Node)

  /**
   * The fields `start` sets and `cleanup` nulls; present exactly while
   * `drake.dragging` is true.
   */
  datatype Active = Active(
    source: Node,
    item: Node,
    copy: Option<Node>,
    initialSibling: Option<Node>,
    currentSibling: Option<Node>,
    currentParent: Option<Node>,
    lastDropTarget: Option<Node>,
    mirror: Option<Node>,
    mirrorAt: Point,             // the mirror's style left/top
    offset: Point,               // `_offsetX`, `_offsetY`
    anchor: Option<Point>)       // `_positionForRestrictedAxis`
  {
    /** `_copy || _item`: the element that moves through the containers. */
    function Moving(): Node {
      if copy.Some? then copy.value else item
    }
  }

  /** The three `mousemove` listeners the drake puts on the document element. */
  datatype Handler = StartIfMouseMovedListener | AbortIfFingerMovedListener | DragListener

  datatype Session = Session(
    active: Option<Active>,
    grabbed: Option<Context>,     // `_grabbed`
    grabbedAt: Point,             // `_grabbedAtClientX`, `_grabbedAtClientY`
    handlers: seq<Handler>,       // registered `mousemove` listeners, in registration order
    timer: Option<Point>)         // the pending touch timeout, holding the start event's position

  datatype World = World(tree: Tree, cls: map<Node, string>, s: Session)

  /** The world after a step and the events the step emitted, in order. */
  datatype Out = Out(w: World, events: seq<Event>)

  /** What the pointer event supplies: every element's box, and the element behind the cursor (mirror hidden). */
  datatype Env = Env(layout: Layout, hit: Option<Node>)

  predicate Dragging(w: World) {
    w.s.active.Some?
  }

  function ClassOf(w: World, n: Node): string {
    if n in w.cls then w.cls[n] else ""
  }

  /** The marker classes the drake sets are plain class names. */
  lemma Markers()
    ensures ClassName("gu-transit") && ClassName("gu-mirror") && ClassName("gu-unselectable")
  {
    var names := ["gu-transit", "gu-mirror", "gu-unselectable"];
    forall k | 0 <= k < 3
      ensures ClassName(names[k])
    {
      var name := names[k];
      forall i | 0 <= i < |name|
        ensures IsNameChar(name[i])
      {
      }
    }
    assert ClassName(names[0]) && ClassName(names[1]) && ClassName(names[2]);
  }

  /** `addEventListener`: a listener already registered is not added twice. */
  function Listen(hs: seq<Handler>, h: Handler): (r: seq<Handler>)
    ensures forall g :: g in r <==> g in hs || g == h
    ensures h in hs ==> r == hs
  {
    if h in hs then hs else hs + [h]
  }

  /** `cleanupEventualMovements`: drop both pending-gesture listeners and clear the touch timeout. */
  function CleanupEventualMovements(s: Session): (r: Session)
    ensures r.timer.None?
    ensures forall h :: h in r.handlers <==> h in s.handlers && h != StartIfMouseMovedListener && h != AbortIfFingerMovedListener
    ensures r.active == s.active && r.grabbed == s.grabbed && r.grabbedAt == s.grabbedAt
  {
    s.(handlers := Without(Without(s.handlers, StartIfMouseMovedListener), AbortIfFingerMovedListener), timer := None)
  }

  /** `ungrab`: forget the grab and its pending gesture. */
  function Ungrab(s: Session): (r: Session)
    ensures r.grabbed.None? && r.timer.None?
    ensures forall h :: h in r.handlers <==> h in s.handlers && h != StartIfMouseMovedListener && h != AbortIfFingerMovedListener
    ensures r.active == s.active && r.grabbedAt == s.grabbedAt
  {
    CleanupEventualMovements(s).(grabbed := None)
  }

  /**
   * `start(context)`: clone the item when `copy` says so, record source,
   * item and the initial sibling, and become dragging. Fields `start` does
   * not set keep their values, which are empty unless a drag is live.
   */
  function Start(o: Options, w: World, ctx: Context): (r: Out)
    ensures r.w.s.active.Some?
    ensures var a := r.w.s.active.value;
      && a.source == ctx.source && a.item == ctx.item
      && a.initialSibling == NextEl(w.tree, ctx.item) && a.currentSibling == a.initialSibling
    ensures var a := r.w.s.active.value;
      o.copy(ctx.item, ctx.source) ==>
        (a.copy == Some(w.tree.next) &&
         r.events == [ClonedEv(w.tree.next, ctx.item, CopyClone), DragEv(ctx.item, ctx.source)])
    ensures !o.copy(ctx.item, ctx.source) ==> r.events == [DragEv(ctx.item, ctx.source)] && r.w.tree == w.tree
    ensures r.w.tree.parent == w.tree.parent && r.w.tree.kids == w.tree.kids
    ensures r.w.s.grabbed == w.s.grabbed && r.w.s.handlers == w.s.handlers && r.w.s.timer == w.s.timer
  {
    var base := if w.s.active.Some? then w.s.active.value
      else Active(ctx.source, ctx.item, None, None, None, None, None, None, Point(0, 0), Point(0, 0), None);
    var sibling := NextEl(w.tree, ctx.item);
    if o.copy(ctx.item, ctx.source) then
      var (t1, c) := Clone(w.tree, ctx.item);
      var a := base.(source := ctx.source, item := ctx.item, copy := Some(c),
        initialSibling := sibling, currentSibling := sibling);
      Out(World(t1, w.cls[c := ClassOf(w, ctx.item)], w.s.(active := Some(a))),
        [ClonedEv(c, ctx.item, CopyClone), DragEv(ctx.item, ctx.source)])
    else
      var a := base.(source := ctx.source, item := ctx.item,
        initialSibling := sibling, currentSibling := sibling);
      Out(w.(s := w.s.(active := Some(a))), [DragEv(ctx.item, ctx.source)])
  }

  /**
   * `renderMirrorImage`: clone the item into the mirror, mark it, append it
   * to the mirror container, listen for moves with `drag` and make the
   * container unselectable.
   */
  function RenderMirror(o: Options, w: World, layout: Layout): (r: Out)
    requires Dragging(w)
    ensures r.w.s.active.Some?
    ensures w.s.active.value.mirror.None? ==> r.w.s.active.value.mirror == Some(w.tree.next)
    ensures w.s.active.value.mirror.Some? ==> r == Out(w, [])
    ensures r.w.s.grabbed == w.s.grabbed && r.w.s.timer == w.s.timer
    ensures var a := w.s.active.value; var b := r.w.s.active.value;
      b.item == a.item && b.source == a.source && b.copy == a.copy
  {
    var a := w.s.active.value;
    if a.mirror.Some? then Out(w, [])
    else
      var (t1, m) := Clone(w.tree, a.item);
      var b := layout(a.item);
      var a1 := a.(mirror := Some(m), mirrorAt := Point(b.left, b.top));
      Markers();
      var cls1 := w.cls[m := AddClass(RmClass(ClassOf(w, a.item), "gu-transit"), "gu-mirror")];
      if !CanInsert(t1, o.mirrorContainer, m, None) then
        Out(World(t1, cls1, w.s.(active := Some(a1))), [])
      else
        var w1 := World(InsertBefore(t1, o.mirrorContainer, m, None), cls1, w.s.(active := Some(a1)));
        var cls2 := w1.cls[o.mirrorContainer := AddClass(ClassOf(w1, o.mirrorContainer), "gu-unselectable")];
        Out(w1.(cls := cls2, s := w1.s.(handlers := Listen(w1.s.handlers, DragListener))),
          [ClonedEv(m, a.item, MirrorClone)])
  }

  /**
   * `removeMirrorImage`: make the container selectable again, stop the
   * `drag` listener and take the mirror out of the tree. (The source
   * raises if the mirror were detached; the model's mirror never is.)
   */
  function RemoveMirror(o: Options, w: World, a: Active): (r: World)
    ensures a.mirror.None? ==> r == w
    ensures r.tree == Unmirrored(w.tree, a)
    ensures a.mirror.Some? ==> r.s.active == Some(a.(mirror := None)) && a.mirror.value !in r.tree.parent
    ensures a.mirror.Some? ==> forall h :: h in r.s.handlers <==> h in w.s.handlers && h != DragListener
    ensures r.s.grabbed == w.s.grabbed && r.s.timer == w.s.timer
    ensures forall c: Node :: GetParent(r.tree, c) == GetParent(w.tree, c) || (a.mirror == Some(c) && c !in r.tree.parent)
  {
    match a.mirror
    case None => w
    case Some(m) =>
      Markers();
      var cls := w.cls[o.mirrorContainer := RmClass(ClassOf(w, o.mirrorContainer), "gu-unselectable")];
      World(Detach(w.tree, m), cls, w.s.(handlers := Without(w.s.handlers, DragListener), active := Some(a.(mirror := None))))
  }

  /** The tree once the mirror of `a`, if there is one, has been taken out. */
  function Unmirrored(t: Tree, a: Active): Tree {
    if a.mirror.Some? then Detach(t, a.mirror.value) else t
  }

  /** The `out` (when hovering) and `dragend` events `cleanup` emits for a live drag. */
  function FinalEvents(a: Active): (evs: seq<Event>)
    ensures |evs| >= 1 && evs[|evs| - 1] == DragendEv(a.Moving())
    ensures a.lastDropTarget.Some? <==> |evs| == 2
    ensures |evs| == 2 ==> evs[0] == OutEv(a.Moving(), a.lastDropTarget.value, a.source)
    ensures forall e :: e in evs ==> e.OutEv? || e.DragendEv?
  {
    (if a.lastDropTarget.Some? then [OutEv(a.Moving(), a.lastDropTarget.value, a.source)] else [])
      + [DragendEv(a.Moving())]
  }

  /**
   * `cleanup`: ungrab, remove the mirror, strip `gu-transit` from the
   * moving element, and, only when dragging, emit `out` (if a target was
   * hovered) and `dragend`; then every session field is empty.
   */
  function Cleanup(o: Options, w: World): (r: Out)
    ensures r.w.s.active.None? && r.w.s.grabbed.None? && r.w.s.timer.None?
    ensures forall h :: h in r.w.s.handlers ==> h in w.s.handlers && h == DragListener
    ensures Dragging(w) && w.s.active.value.mirror.Some? ==> forall h :: h !in r.w.s.handlers
    ensures !Dragging(w) ==> r.events == [] && r.w.tree == w.tree && r.w.cls == w.cls
    ensures Dragging(w) ==> r.events == FinalEvents(w.s.active.value)
    ensures Dragging(w) ==> r.w.tree == Unmirrored(w.tree, w.s.active.value)
    ensures r.w.s.grabbedAt == w.s.grabbedAt
    ensures forall c: Node :: (GetParent(r.w.tree, c) == GetParent(w.tree, c) ||
      (Dragging(w) && w.s.active.value.mirror == Some(c) && c !in r.w.tree.parent))
  {
    var s := Ungrab(w.s);
    match s.active
    case None => Out(w.(s := s), [])
    case Some(a) =>
      var w1 := RemoveMirror(o, w.(s := s), a);
      var item := a.Moving();
      Markers();
      var cls := w1.cls[item := RmClass(ClassOf(w1, item), "gu-transit")];
      Out(World(w1.tree, cls, w1.s.(active := None)), FinalEvents(a))
  }

  /** The sibling `isInitialPlacement` compares when none is given: the tracked one while a mirror is up, else the live one. */
  function PlacedSibling(t: Tree, a: Active): Option<Node> {
    if a.mirror.Some? then a.currentSibling else NextEl(t, a.Moving())
  }

  /** `isInitialPlacement(target, sibling)`: back in the source, before the sibling it had when grabbed. */
  predicate IsInitialPlacementWith(a: Active, target: Option<Node>, sibling: Option<Node>) {
    target == Some(a.source) && sibling == a.initialSibling
  }

  /** `isInitialPlacement(target)`. */
  predicate IsInitialPlacement(t: Tree, a: Active, target: Option<Node>) {
    IsInitialPlacementWith(a, target, PlacedSibling(t, a))
  }

  /** A lookup that may raise: the source calls `getBoundingClientRect` on null when the immediate child is the document element. */
  datatype Found = Raised | Found(target: Option<Node>)

  /**
   * `accepted()` for the candidate `n` under the pointer at `p`, the hit
   * element being `hit`: a container whose computed reference either gives
   * the initial placement or satisfies `accepts`. None means it raises.
   */
  function Accepted(o: Options, t: Tree, a: Active, layout: Layout, hit: Node, p: Point, n: Node): (r: Option<bool>)
    ensures r == Some(true) ==> IsContainer(o, n)
    ensures !IsContainer(o, n) ==> r == Some(false)
    ensures r.None? <==> IsContainer(o, n) && ImmediateChild(t, Some(n), Some(hit), Depth(t)).None?
    ensures r == Some(true) <==>
      && IsContainer(o, n)
      && ImmediateChild(t, Some(n), Some(hit), Depth(t)).Some?
      && var ref := GetReference(o.direction, t, layout, n, ImmediateChild(t, Some(n), Some(hit), Depth(t)).value, p.x, p.y);
         IsInitialPlacementWith(a, Some(n), ref) || o.accepts(a.item, n, a.source, ref)
  {
    if !IsContainer(o, n) then Some(false)
    else match ImmediateChild(t, Some(n), Some(hit), Depth(t))
      case None => None
      case Some(immediate) =>
        var ref := GetReference(o.direction, t, layout, n, immediate, p.x, p.y);
        Some(IsInitialPlacementWith(a, Some(n), ref) || o.accepts(a.item, n, a.source, ref))
  }

  /** The k-th ancestor of `n` is accepted and every nearer one is rejected without raising. */
  ghost predicate NearestAccepted(o: Options, t: Tree, a: Active, layout: Layout, hit: Node, p: Point, n: Node, k: nat) {
    && Anc(t, n, k).Some? && Accepted(o, t, a, layout, hit, p, Anc(t, n, k).value) == Some(true)
    && forall j :: 0 <= j < k ==> Anc(t, n, j).Some? && Accepted(o, t, a, layout, hit, p, Anc(t, n, j).value) == Some(false)
  }

  /** The loop of `findDropTarget` from the candidate `n` upwards. */
  function FindFrom(o: Options, t: Tree, a: Active, layout: Layout, hit: Node, p: Point, n: Node, fuel: nat): (r: Found)
    ensures r.Found? && r.target.Some? ==>
      exists k :: 0 <= k <= fuel && NearestAccepted(o, t, a, layout, hit, p, n, k) && Anc(t, n, k) == r.target
    ensures r == Found(None) ==>
      forall j :: 0 <= j <= fuel && Anc(t, n, j).Some? ==> Accepted(o, t, a, layout, hit, p, Anc(t, n, j).value) == Some(false)
    decreases fuel
  {
    match Accepted(o, t, a, layout, hit, p, n)
    case None => Raised
    case Some(true) =>
      assert NearestAccepted(o, t, a, layout, hit, p, n, 0);
      Found(Some(n))
    case Some(false) =>
      match GetParent(t, n)
      case None =>
        assert forall j :: 0 < j ==> Anc(t, n, j).None?;
        Found(None)
      case Some(q) =>
        if fuel == 0 then Found(None)
        else
          var r := FindFrom(o, t, a, layout, hit, p, q, fuel - 1);
          AncShift(t, n, q, fuel);
          assert r.Found? && r.target.Some? ==>
            exists k :: 0 <= k <= fuel && NearestAccepted(o, t, a, layout, hit, p, n, k) && Anc(t, n, k) == r.target by {
            if r.Found? && r.target.Some? {
              var k :| 0 <= k <= fuel - 1 && NearestAccepted(o, t, a, layout, hit, p, q, k) && Anc(t, q, k) == r.target;
              assert NearestAccepted(o, t, a, layout, hit, p, n, k + 1) by {
                forall j | 0 <= j < k + 1
                  ensures Anc(t, n, j).Some? && Accepted(o, t, a, layout, hit, p, Anc(t, n, j).value) == Some(false)
                {
                  if j > 0 {
                    assert Anc(t, n, j) == Anc(t, q, j - 1);
                  }
                }
              }
            }
          }
          assert r == Found(None) ==>
            forall j :: 0 <= j <= fuel && Anc(t, n, j).Some? ==> Accepted(o, t, a, layout, hit, p, Anc(t, n, j).value) == Some(false) by {
            if r == Found(None) {
              forall j | 0 <= j <= fuel && Anc(t, n, j).Some?
                ensures Accepted(o, t, a, layout, hit, p, Anc(t, n, j).value) == Some(false)
              {
                if j > 0 {
                  assert Anc(t, n, j) == Anc(t, q, j - 1);
                }
              }
            }
          }
          r
  }

  /** `findDropTarget(elementBehindCursor, x, y)`: the nearest accepted ancestor-or-self of the hit element. */
  function FindDropTarget(o: Options, t: Tree, a: Active, env: Env, p: Point): (r: Found)
    ensures env.hit.None? ==> r == Found(None)
    ensures r.Found? && r.target.Some? ==> IsContainer(o, r.target.value)
    ensures r.Found? && r.target.Some? ==>
      && env.hit.Some?
      && exists k :: 0 <= k <= Depth(t) && NearestAccepted(o, t, a, env.layout, env.hit.value, p, env.hit.value, k) &&
           Anc(t, env.hit.value, k) == r.target
    ensures r == Found(None) && env.hit.Some? ==>
      forall j :: 0 <= j <= Depth(t) && Anc(t, env.hit.value, j).Some? ==>
        Accepted(o, t, a, env.layout, env.hit.value, p, Anc(t, env.hit.value, j).value) == Some(false)
  {
    match env.hit
    case None => Found(None)
    case Some(h) =>
      var r := FindFrom(o, t, a, env.layout, h, p, h, Depth(t));
      assert r.Found? && r.target.Some? ==> IsContainer(o, r.target.value) by {
        if r.Found? && r.target.Some? {
          var k :| 0 <= k <= Depth(t) && NearestAccepted(o, t, a, env.layout, h, p, h, k) && Anc(t, h, k) == r.target;
        }
      }
      r
  }

  /** Whether `drop` takes the original item out first: a copy dropped back into its source under `copySortSource`. */
  predicate SortsSource(o: Options, a: Active, target: Option<Node>) {
    a.copy.Some? && o.copySortSource && target == Some(a.source)
  }

  /** The tree `drop` decides the initial placement in: the original item detached when the source is sorted. */
  function DropTree(o: Options, t: Tree, a: Active, target: Option<Node>): Tree {
    if SortsSource(o, a, target) then Detach(t, a.item) else t
  }

  /** `parent.removeChild(_item)` in `drop` raises: the copy has no parent, or the item is not beside it. */
  predicate DropRaises(o: Options, t: Tree, a: Active, target: Option<Node>) {
    SortsSource(o, a, target) && (GetParent(t, a.Moving()).None? || GetParent(t, a.item) != GetParent(t, a.Moving()))
  }

  /**
   * `drop(item, target)`: with a copy, `copySortSource` and the source as
   * target, the original item leaves its parent first (the source raises if
   * the copy has no parent or the item is not beside it). Then `cancel` for
   * the initial placement, else `drop`; then cleanup.
   */
  function Drop(o: Options, w: World, target: Option<Node>): (r: Out)
    requires Dragging(w)
    ensures r.w.s.active.Some? ==> r == Out(w, [])
    ensures r.w.s.active.None? <==> !DropRaises(o, w.tree, w.s.active.value, target)
    ensures r.w.s.active.None? ==> |r.events| >= 2 && r.w.s.grabbed.None? && r.w.s.timer.None?
    ensures r.w.s.active.None? ==>
      var a := w.s.active.value;
      r.events[0] == if IsInitialPlacement(DropTree(o, w.tree, a, target), a, target) then CancelEv(a.Moving(), Some(a.source), a.source)
        else DropEv(a.Moving(), target, a.source, a.currentSibling)
    ensures r.w.s.active.None? ==> r.events == [r.events[0]] + FinalEvents(w.s.active.value)
    ensures r.w.s.active.None? ==>
      r.w.tree == Unmirrored(DropTree(o, w.tree, w.s.active.value, target), w.s.active.value)
  {
    var a := w.s.active.value;
    var item := a.Moving();
    var parent := GetParent(w.tree, item);
    if DropRaises(o, w.tree, a, target) then
      Out(w, [])
    else
      var t1 := if SortsSource(o, a, target) then RemoveChild(w.tree, parent.value, a.item) else w.tree;
      var ev := if IsInitialPlacement(t1, a, target) then CancelEv(item, Some(a.source), a.source)
        else DropEv(item, target, a.source, a.currentSibling);
      var c := Cleanup(o, w.(tree := t1));
      Out(c.w, [ev] + c.events)
  }

  /** `end()`: nothing unless dragging; otherwise drop the moving element where it stands. */
  function End(o: Options, w: World): (r: Out)
    ensures !Dragging(w) ==> r == Out(w, [])
    ensures Dragging(r.w) ==> r == Out(w, [])
    ensures Dragging(w) && !Dragging(r.w) ==> r.w.s.grabbed.None? && r.w.s.timer.None?
    ensures Dragging(w) ==>
      var a := w.s.active.value;
      !Dragging(r.w) <==> !DropRaises(o, w.tree, a, GetParent(w.tree, a.Moving()))
    ensures Dragging(w) && !Dragging(r.w) ==>
      var a := w.s.active.value;
      r.w.tree == Unmirrored(DropTree(o, w.tree, a, GetParent(w.tree, a.Moving())), a)
  {
    if !Dragging(w) then Out(w, [])
    else Drop(o, w, GetParent(w.tree, w.s.active.value.Moving()))
  }

  /**
   * `remove()`: nothing unless dragging; otherwise take the moving element
   * out of its parent, emit `cancel` for a copy and `remove` for the item,
   * then clean up.
   */
  function Remove(o: Options, w: World): (r: Out)
    ensures !Dragging(w) ==> r == Out(w, [])
    ensures Dragging(w) ==> r.w.s.active.None? && |r.events| >= 2
    ensures Dragging(w) ==>
      var a := w.s.active.value;
      var parent := GetParent(w.tree, a.Moving());
      && a.Moving() !in r.w.tree.parent
      && r.events[0] == if a.copy.Some? then CancelEv(a.Moving(), parent, a.source) else RemoveEv(a.Moving(), parent, a.source)
    ensures Dragging(w) ==> r.events == [r.events[0]] + FinalEvents(w.s.active.value)
    ensures Dragging(w) ==>
      r.w.tree == Unmirrored(Detach(w.tree, w.s.active.value.Moving()), w.s.active.value)
  {
    if !Dragging(w) then Out(w, [])
    else
      var a := w.s.active.value;
      var item := a.Moving();
      var parent := GetParent(w.tree, item);
      var t1 := if parent.Some? then RemoveChild(w.tree, parent.value, item) else w.tree;
      var ev := if a.copy.Some? then CancelEv(item, parent, a.source) else RemoveEv(item, parent, a.source);
      var c := Cleanup(o, w.(tree := t1));
      Out(c.w, [ev] + c.events)
  }

  /** `cancel` reverts: the element is away from its initial placement and the drag reverts. */
  predicate Reverts(o: Options, t: Tree, a: Active, revert: Option<bool>) {
    !IsInitialPlacement(t, a, GetParent(t, a.Moving())) && revert.GetOr(o.revertOnSpill)
  }

  /** `_source.insertBefore(item, _initialSibling)` in `cancel` raises. */
  predicate CancelRaises(o: Options, t: Tree, a: Active, revert: Option<bool>) {
    Reverts(o, t, a, revert) && a.copy.None? && !CanInsert(t, a.source, a.item, a.initialSibling)
  }

  /**
   * `cancel(revert)`: when idle, only cleanup. Otherwise, when the element
   * is not at its initial placement and the drag reverts (the argument,
   * or `revertOnSpill` when none is given), a copy leaves its parent and
   * the item goes back into the source before its initial sibling (where
   * the DOM may raise). Emit `cancel` if the placement was initial or the
   * drag reverted, `drop` otherwise; then clean up.
   */
  function Cancel(o: Options, w: World, revert: Option<bool>): (r: Out)
    ensures !Dragging(w) ==> r == Cleanup(o, w) && r.events == []
    ensures Dragging(w) && r.w.s.active.Some? ==> r == Out(w, [])
    ensures Dragging(w) ==> (r.w.s.active.None? <==> !CancelRaises(o, w.tree, w.s.active.value, revert))
    ensures Dragging(w) && r.w.s.active.None? ==>
      var a := w.s.active.value;
      var parent := GetParent(w.tree, a.Moving());
      var reverts := revert.GetOr(o.revertOnSpill);
      && |r.events| >= 2
      && r.events[0] == if IsInitialPlacement(w.tree, a, parent) || reverts then CancelEv(a.Moving(), Some(a.source), a.source)
        else DropEv(a.Moving(), parent, a.source, a.currentSibling)
    ensures Dragging(w) && r.w.s.active.None? ==> r.events == [r.events[0]] + FinalEvents(w.s.active.value)
    ensures Dragging(w) && !Reverts(o, w.tree, w.s.active.value, revert) ==>
      r.w.tree == Unmirrored(w.tree, w.s.active.value)
    ensures Dragging(w) && Reverts(o, w.tree, w.s.active.value, revert) && w.s.active.value.copy.Some? ==>
      && w.s.active.value.copy.value !in r.w.tree.parent
      && r.w.tree == Unmirrored(Detach(w.tree, w.s.active.value.copy.value), w.s.active.value)
    ensures (Dragging(w) && Reverts(o, w.tree, w.s.active.value, revert) && w.s.active.value.copy.None? &&
             !CancelRaises(o, w.tree, w.s.active.value, revert)) ==>
      var a := w.s.active.value;
      var t1 := InsertBefore(w.tree, a.source, a.item, a.initialSibling);
      GetParent(t1, a.item) == Some(a.source) && r.w.tree == Unmirrored(t1, a)
  {
    if !Dragging(w) then Cleanup(o, w)
    else
      var a := w.s.active.value;
      var reverts := revert.GetOr(o.revertOnSpill);
      var item := a.Moving();
      var parent := GetParent(w.tree, item);
      var initial := IsInitialPlacement(w.tree, a, parent);
      if CancelRaises(o, w.tree, a, revert) then
        Out(w, [])
      else
        var t1 :=
          if initial || !reverts then w.tree
          else if a.copy.Some? then (if parent.Some? then RemoveChild(w.tree, parent.value, item) else w.tree)
          else InsertBefore(w.tree, a.source, item, a.initialSibling);
        var ev := if initial || reverts then CancelEv(item, Some(a.source), a.source)
          else DropEv(item, parent, a.source, a.currentSibling);
        var c := Cleanup(o, w.(tree := t1));
        Out(c.w, [ev] + c.events)
  }

  /**
   * `release(e)`: ungrab; when dragging, find the drop target under the
   * pointer and drop there, unless there is none or it is the source of a
   * copy without `copySortSource`: then remove (with `removeOnSpill`) or
   * cancel.
   */
  function Release(o: Options, w: World, env: Env, p: Point): (r: Out)
  {
    var w1 := w.(s := Ungrab(w.s));
    if !Dragging(w1) then Out(w1, [])
    else
      var a := w1.s.active.value;
      match FindDropTarget(o, w1.tree, a, env, p)
      case Raised => Out(w1, [])
      case Found(dt) =>
        if dt.Some? && ((a.copy.Some? && o.copySortSource) || (a.copy.None? || dt != Some(a.source))) then
          Drop(o, w1, dt)
        else if o.removeOnSpill then Remove(o, w1)
        else Cancel(o, w1, None)
  }

  /** A copy dropped where no target accepts it, or over its own source without `copySortSource`, is spilled. */
  predicate Spilled(o: Options, a: Active, dt: Option<Node>) {
    dt.None? || (a.copy.Some? && !o.copySortSource && dt == Some(a.source))
  }

  /** Release drops into the target found, except on a spill, which goes to remove or cancel. */
  lemma ReleaseRoutes(o: Options, w: World, env: Env, p: Point)
    requires Dragging(w)
    ensures var w1 := w.(s := Ungrab(w.s));
      var a := w1.s.active.value;
      var f := FindDropTarget(o, w1.tree, a, env, p);
      && (f.Raised? ==> Release(o, w, env, p) == Out(w1, []))
      && (f.Found? && !Spilled(o, a, f.target) ==> Release(o, w, env, p) == Drop(o, w1, f.target))
      && (f.Found? && Spilled(o, a, f.target) && o.removeOnSpill ==> Release(o, w, env, p) == Remove(o, w1))
      && (f.Found? && Spilled(o, a, f.target) && !o.removeOnSpill ==> Release(o, w, env, p) == Cancel(o, w1, None))
  {
  }

  /** The mirror position `drag` sets: an axis lock pins one coordinate to the anchor. */
  function MirrorAt(axis: Axis, anchor: Option<Point>, x: int, y: int): (r: Point)
    ensures axis == AxisY && anchor.Some? ==> r == Point(anchor.value.x, y)
    ensures axis == AxisX && anchor.Some? ==> r == Point(x, anchor.value.y)
    ensures axis == AxisNone || anchor.None? ==> r == Point(x, y)
  {
    if axis == AxisY && anchor.Some? then Point(anchor.value.x, y)
    else if axis == AxisX && anchor.Some? then Point(x, anchor.value.y)
    else Point(x, y)
  }

  /** Whether `drag` moves the element: the reference is null on a target change, or neither the element nor its next sibling. */
  predicate ShouldShadow(t: Tree, item: Node, ref: Option<Node>, changed: bool) {
    (ref.None? && changed) || (ref != Some(item) && ref != NextEl(t, item))
  }

  /**
   * The end of `drag` once the target container and reference are known:
   * move the element before the reference and emit `shadow` when it should
   * move; then re-anchor a locked axis after a change of container and
   * place the mirror.
   */
  function Place(o: Options, w: World, a: Active, evs: seq<Event>, changed: bool, moved: bool,
                 target: Node, ref: Option<Node>, layout: Layout, p: Point): (r: Out)
    ensures var item := a.Moving();
      !ShouldShadow(w.tree, item, ref, changed) ==> r.w.tree == w.tree && r.events == evs
    ensures var item := a.Moving();
      ShouldShadow(w.tree, item, ref, changed) ==>
        r.w.s.active.Some? && r.w.s.active.value.currentSibling == ref
    ensures var item := a.Moving();
      ShouldShadow(w.tree, item, ref, changed) && CanInsert(w.tree, target, item, ref) ==>
        && r.events == evs + [ShadowEv(item, target, a.source)]
        && GetParent(r.w.tree, item) == Some(target)
    ensures var item := a.Moving();
      ShouldShadow(w.tree, item, ref, changed) && !CanInsert(w.tree, target, item, ref) ==>
        r.events == evs && r.w.tree == w.tree
    ensures r.w.s.active.Some? && r.w.cls == w.cls
    ensures r.w.tree == w.tree || r.w.tree == InsertBefore(w.tree, target, a.Moving(), ref)
    ensures forall c :: c != a.Moving() ==> GetParent(r.w.tree, c) == GetParent(w.tree, c)
    ensures r.w.s.grabbed == w.s.grabbed && r.w.s.handlers == w.s.handlers && r.w.s.timer == w.s.timer
    ensures var b := r.w.s.active.value;
      b.source == a.source && b.item == a.item && b.copy == a.copy && b.mirror == a.mirror &&
      b.initialSibling == a.initialSibling && b.lastDropTarget == a.lastDropTarget
    ensures HoverThenShadow(r.events, evs, r.w.tree, a.Moving())
    ensures PlacedBefore(w.tree, r, a, evs, changed, target, ref)
  {
    var item := a.Moving();
    var shadow := ShouldShadow(w.tree, item, ref, changed);
    if shadow && !CanInsert(w.tree, target, item, ref) then
      Out(w.(s := w.s.(active := Some(a.(currentSibling := ref)))), evs)
    else
      var a1 := if shadow then a.(currentSibling := ref) else a;
      var t1 := if shadow then InsertBefore(w.tree, target, item, ref) else w.tree;
      var evs1 := if shadow then evs + [ShadowEv(item, target, a.source)] else evs;
      var anchor := if moved && o.axis != AxisNone then Some(Point(layout(target).left, layout(target).top)) else a1.anchor;
      var a2 := a1.(anchor := anchor, mirrorAt := MirrorAt(o.axis, anchor, p.x - a.offset.x, p.y - a.offset.y));
      Out(World(t1, w.cls, w.s.(active := Some(a2))), evs1)
  }

  /**
   * The effect of placing the moving element of `a` before `ref` in
   * `target`: when it should move, the tree is that of `insertBefore`
   * (unchanged where the DOM raises), `currentSibling` becomes `ref` and a
   * `shadow` follows `evs` if the insertion took place; otherwise the tree,
   * the events and `currentSibling` stay as they were.
   */
  ghost predicate PlacedBefore(t: Tree, r: Out, a: Active, evs: seq<Event>, changed: bool, target: Node, ref: Option<Node>) {
    var item := a.Moving();
    && r.w.s.active.Some?
    && if ShouldShadow(t, item, ref, changed) then
         && r.w.tree == InsertBefore(t, target, item, ref)
         && r.w.s.active.value.currentSibling == ref
         && r.events == (if CanInsert(t, target, item, ref) then evs + [ShadowEv(item, target, a.source)] else evs)
       else
         r.w.tree == t && r.events == evs && r.w.s.active.value.currentSibling == a.currentSibling
  }

  /** The `out`/`over` bookkeeping of `drag`: `out` for a previous target when the target changes or vanishes, `over` for a new one. */
  function Hover(a: Active, dt: Option<Node>): (evs: seq<Event>)
    ensures forall e :: e in evs && e.OutEv? ==> a.lastDropTarget.Some? && e == OutEv(a.Moving(), a.lastDropTarget.value, a.source)
    ensures forall e :: e in evs && e.OverEv? ==> dt.Some? && dt != a.lastDropTarget && e == OverEv(a.Moving(), dt.value, a.source)
    ensures forall e :: e in evs ==> e.OutEv? || e.OverEv?
    ensures |evs| <= 2 && forall i, j :: 0 <= i < j < |evs| ==> evs[i].OutEv? && evs[j].OverEv?
    ensures (dt.Some? && dt != a.lastDropTarget) ==> OverEv(a.Moving(), dt.value, a.source) in evs
    ensures (dt != a.lastDropTarget || dt.None?) && a.lastDropTarget.Some? ==>
      OutEv(a.Moving(), a.lastDropTarget.value, a.source) in evs
  {
    var changed := dt.Some? && dt != a.lastDropTarget;
    var outs := if (changed || dt.None?) && a.lastDropTarget.Some? then [OutEv(a.Moving(), a.lastDropTarget.value, a.source)] else [];
    var overs := if changed then [OverEv(a.Moving(), dt.value, a.source)] else [];
    outs + overs
  }

  /** `evs` is `h`, or `h` followed by one `shadow` of `item` into the container it now sits in. */
  ghost predicate HoverThenShadow(evs: seq<Event>, h: seq<Event>, t: Tree, item: Node) {
    || evs == h
    || (&& |evs| == |h| + 1 && evs[..|h|] == h
        && evs[|h|].ShadowEv? && evs[|h|].item == item
        && GetParent(t, item) == Some(evs[|h|].container))
  }

  /**
   * `drag(e)` once the drop target `dt` is known: out/over bookkeeping,
   * then a copy over its own source without `copySortSource` just leaves
   * its parent; anything else goes on in `DragInto`.
   */
  function DragOver(o: Options, w: World, a: Active, env: Env, p: Point, dt: Option<Node>): (r: Out)
    ensures r.w.s.grabbed == w.s.grabbed && r.w.s.handlers == w.s.handlers && r.w.s.timer == w.s.timer
    ensures r.w.s.grabbedAt == w.s.grabbedAt && r.w.s.active.Some? && r.w.cls == w.cls
    ensures var b := r.w.s.active.value;
      b.item == a.item && b.source == a.source && b.copy == a.copy && b.mirror == a.mirror &&
      b.initialSibling == a.initialSibling
    ensures r.w.s.active.value.lastDropTarget == if dt != a.lastDropTarget || dt.None? then dt else a.lastDropTarget
    ensures HoverThenShadow(r.events, Hover(a, dt), r.w.tree, a.Moving())
    ensures DragOutcome(o, w, a, env, p, dt, r)
  {
    var item := a.Moving();
    var changed := dt.Some? && dt != a.lastDropTarget;
    var evs := Hover(a, dt);
    var parent := GetParent(w.tree, item);
    var moved := a.currentParent.Some? && a.currentParent != parent;
    var a1 := a.(lastDropTarget := if changed || dt.None? then dt else a.lastDropTarget, currentParent := parent);
    var w1 := w.(s := w.s.(active := Some(a1)));
    if CopyOverSource(o, a, dt) then
      Out(w1.(tree := Detach(w.tree, item)), evs)
    else
      var r := DragInto(o, w1, a1, env, p, dt, evs, changed, moved);
      IntoOutcomeOfSameDrag(o, w1, a1, w, a, env, p, dt, evs, changed, r);
      r
  }

  /** `IntoOutcome` reads only the tree and the moving element, its source and its siblings. */
  lemma IntoOutcomeOfSameDrag(o: Options, w1: World, a1: Active, w: World, a: Active, env: Env, p: Point,
                              dt: Option<Node>, evs: seq<Event>, changed: bool, r: Out)
    requires w1.tree == w.tree && a1.Moving() == a.Moving() && a1.source == a.source && a1.copy == a.copy
    requires a1.initialSibling == a.initialSibling && a1.currentSibling == a.currentSibling
    requires IntoOutcome(o, w1, a1, env, p, dt, evs, changed, r)
    ensures IntoOutcome(o, w, a, env, p, dt, evs, changed, r)
  {
  }

  /** A copy over its own source without `copySortSource`, where `drag` only takes it out of the tree. */
  predicate CopyOverSource(o: Options, a: Active, dt: Option<Node>) {
    dt == Some(a.source) && a.copy.Some? && !o.copySortSource
  }

  /**
   * The tree and events of a drag step over the target `dt`: a copy over
   * its own source leaves its parent; otherwise the placement of
   * `IntoOutcome` follows the hover events.
   */
  ghost predicate DragOutcome(o: Options, w: World, a: Active, env: Env, p: Point, dt: Option<Node>, r: Out) {
    if CopyOverSource(o, a, dt) then r.w.tree == Detach(w.tree, a.Moving()) && r.events == Hover(a, dt)
    else IntoOutcome(o, w, a, env, p, dt, Hover(a, dt), dt.Some? && dt != a.lastDropTarget, r)
  }

  /**
   * The tree and events of the rest of a drag step, `evs` being the hover
   * events: over a child of the target, placement before the reference
   * `getReference` gives; off any container, under `revertOnSpill`, the
   * item's placement before its initial sibling in the source; otherwise a
   * copy leaves its parent and an item stays. An element outside the
   * document (an immediate child but no target) changes nothing.
   */
  ghost predicate IntoOutcome(o: Options, w: World, a: Active, env: Env, p: Point, dt: Option<Node>,
                              evs: seq<Event>, changed: bool, r: Out) {
    match ImmediateChild(w.tree, dt, env.hit, Depth(w.tree))
    case Some(immediate) =>
      if dt.Some? then
        PlacedBefore(w.tree, r, a, evs, changed, dt.value,
          GetReference(o.direction, w.tree, env.layout, dt.value, immediate, p.x, p.y))
      else r.w.tree == w.tree && r.events == evs
    case None =>
      if o.revertOnSpill && a.copy.None? then PlacedBefore(w.tree, r, a, evs, changed, a.source, a.initialSibling)
      else r.w.tree == (if a.copy.Some? then Detach(w.tree, a.Moving()) else w.tree) && r.events == evs
  }

  /**
   * The rest of `drag(e)`: over a container's child, place before the
   * reference; off any container, snap back to the initial spot under
   * `revertOnSpill` (items only), else a copy leaves its parent and the
   * mirror follows the pointer on its free axes.
   */
  function DragInto(o: Options, w: World, a: Active, env: Env, p: Point, dt: Option<Node>,
                    evs: seq<Event>, changed: bool, moved: bool): (r: Out)
    ensures r.w.s.grabbed == w.s.grabbed && r.w.s.handlers == w.s.handlers && r.w.s.timer == w.s.timer
    ensures r.w.s.grabbedAt == w.s.grabbedAt && r.w.s.active.Some? && r.w.cls == w.cls
    ensures var b := r.w.s.active.value;
      b.item == a.item && b.source == a.source && b.copy == a.copy && b.mirror == a.mirror &&
      b.lastDropTarget == a.lastDropTarget && b.initialSibling == a.initialSibling
    ensures HoverThenShadow(r.events, evs, r.w.tree, a.Moving())
    ensures IntoOutcome(o, w, a, env, p, dt, evs, changed, r)
  {
    match ImmediateChild(w.tree, dt, env.hit, Depth(w.tree))
    case Some(immediate) =>
      if dt.None? then
        // Only an element outside the document gets here. The reference is taken
        // `inside` the immediate child; a move then raises at `null.insertBefore`
        // after recording the sibling, and a re-anchor raises at the null target.
        var ref := if AfterChild(o.direction, env.layout(immediate), p.x, p.y) then NextEl(w.tree, immediate) else Some(immediate);
        if ShouldShadow(w.tree, a.Moving(), ref, changed) then Out(w.(s := w.s.(active := Some(a.(currentSibling := ref)))), evs)
        else if moved && o.axis != AxisNone then Out(w.(s := w.s.(active := Some(a))), evs)
        else Out(w.(s := w.s.(active := Some(a.(mirrorAt := MirrorAt(o.axis, a.anchor, p.x - a.offset.x, p.y - a.offset.y))))), evs)
      else Place(o, w, a, evs, changed, moved, dt.value,
        GetReference(o.direction, w.tree, env.layout, dt.value, immediate, p.x, p.y), env.layout, p)
    case None =>
      if o.revertOnSpill && a.copy.None? then
        Place(o, w, a, evs, changed, moved, a.source, a.initialSibling, env.layout, p)
      else
        var t1 := if a.copy.Some? then Detach(w.tree, a.Moving()) else w.tree;
        var x := p.x - a.offset.x;
        var y := p.y - a.offset.y;
        var at := Point(if o.axis != AxisY then x else a.mirrorAt.x, if o.axis != AxisX then y else a.mirrorAt.y);
        Out(World(t1, w.cls, w.s.(active := Some(a.(mirrorAt := at)))), evs)
  }

  /** `drag(e)`: nothing without a mirror (nor when the target search raises). */
  function Drag(o: Options, w: World, env: Env, p: Point): (r: Out)
    ensures !Dragging(w) || w.s.active.value.mirror.None? ==> r == Out(w, [])
    ensures r.w.s.grabbed == w.s.grabbed && r.w.s.handlers == w.s.handlers && r.w.s.timer == w.s.timer
    ensures r.w.s.grabbedAt == w.s.grabbedAt && Dragging(r.w) == Dragging(w) && r.w.cls == w.cls
    ensures Dragging(w) ==>
      var a := w.s.active.value; var b := r.w.s.active.value;
      b.item == a.item && b.source == a.source && b.copy == a.copy && b.mirror == a.mirror &&
      b.initialSibling == a.initialSibling
    ensures Dragging(w) && FindDropTarget(o, w.tree, w.s.active.value, env, p).Raised? ==> r == Out(w, [])
  {
    match w.s.active
    case None => Out(w, [])
    case Some(a) =>
      if a.mirror.None? then Out(w, [])
      else match FindDropTarget(o, w.tree, a, env, p)
        case Raised => Out(w, [])
        case Found(dt) => DragOver(o, w, a, env, p, dt)
  }
}

=== FILE: lifecycle_facts.dfy ===
/** Properties of the drag session that relate several operations or hold across a whole step. */
module LifecycleFacts {
  import opened Wrappers
  import opened Dom
  import opened Policy
  import opened Geometry
  import opened Lifecycle

  /** With nothing being dragged, `end` and `remove` do nothing and `cancel` only tears down the pending gesture. */
  lemma IdleTerminalsAreQuiet(o: Options, w: World, revert: Option<bool>)
    requires !Dragging(w)
    ensures End(o, w) == Out(w, []) && Remove(o, w) == Out(w, [])
    ensures var c := Cancel(o, w, revert);
      c.events == [] && c.w.tree == w.tree && c.w.cls == w.cls && c.w.s.grabbed.None? && c.w.s.timer.None?
  {
  }

  /** Cleaning up twice is cleaning up once: the second run changes nothing and emits nothing. */
  lemma CleanupIdempotent(o: Options, w: World)
    ensures var c := Cleanup(o, w).w;
      Cleanup(o, c) == Out(c, [])
  {
    var c := Cleanup(o, w).w;
    assert Ungrab(c.s) == c.s by {
      assert StartIfMouseMovedListener !in c.s.handlers && AbortIfFingerMovedListener !in c.s.handlers;
    }
  }

  /**
   * A drop that does not raise finishes the drag, and its first event is
   * `cancel` rather than `drop` exactly when the element is back at its
   * initial placement (judged after a sorted source lost the original item).
   */
  lemma DropAtInitialPlacementCancels(o: Options, w: World, target: Option<Node>)
    requires Dragging(w) && !DropRaises(o, w.tree, w.s.active.value, target)
    ensures var a := w.s.active.value;
      var r := Drop(o, w, target);
      && !Dragging(r.w)
      && (r.events[0].CancelEv? <==> IsInitialPlacement(DropTree(o, w.tree, a, target), a, target))
  {
  }

  /**
   * A drag that has just started is at its initial placement over its
   * source: the item still sits before the sibling recorded for it. A fresh
   * copy is outside the tree, so it is there only when that sibling is null.
   */
  lemma StartAtInitialPlacement(o: Options, w: World, ctx: Context)
    requires Bounded(w.tree) && w.s.active.None?
    ensures var r := Start(o, w, ctx);
      && r.w.s.active.value.mirror.None?
      && (IsInitialPlacement(r.w.tree, r.w.s.active.value, Some(ctx.source)) <==>
          !o.copy(ctx.item, ctx.source) || NextEl(w.tree, ctx.item).None?)
  {
  }

  /** The drop target the current drag step works with. */
  predicate StepTarget(o: Options, w: World, env: Env, p: Point, dt: Option<Node>) {
    && Dragging(w) && w.s.active.value.mirror.Some?
    && FindDropTarget(o, w.tree, w.s.active.value, env, p) == Found(dt)
  }

  /**
   * On a drag step, `out` names the previous target and fires only when
   * there was one; `over` names a new, non-null target; `shadow` comes last
   * and fires only with the element moved into the named container; and
   * `lastDropTarget` follows a change of target or the loss of one.
   */
  lemma DragEvents(o: Options, w: World, env: Env, p: Point, dt: Option<Node>)
    requires StepTarget(o, w, env, p, dt)
    ensures var a := w.s.active.value;
      var r := Drag(o, w, env, p);
      && (forall e :: e in r.events && e.OutEv? ==> a.lastDropTarget.Some? && e.container == a.lastDropTarget.value)
      && (forall e :: e in r.events && e.OverEv? ==> dt.Some? && dt != a.lastDropTarget && e.container == dt.value)
      && (r.events == Hover(a, dt) ||
          (|r.events| > 0 && r.events[..|r.events| - 1] == Hover(a, dt) &&
           r.events[|r.events| - 1].ShadowEv? &&
           GetParent(r.w.tree, a.Moving()) == Some(r.events[|r.events| - 1].container)))
      && r.w.s.active.value.lastDropTarget == if dt != a.lastDropTarget || dt.None? then dt else a.lastDropTarget
  {
    var a := w.s.active.value;
    assert Drag(o, w, env, p) == DragOver(o, w, a, env, p, dt);
    HoverEventsNameTargets(a, dt, DragOver(o, w, a, env, p, dt));
  }

  /**
   * What a drag step does to the tree. Over a child `i` of the target `t`,
   * the element moves before the reference `getReference` gives, exactly
   * when it should, and is then a child of `t` with `shadow` after the hover
   * events and `currentSibling` set to the reference; when it should not
   * move, the tree and events stay. Off any container under
   * `revertOnSpill`, an item is placed the same way before its initial
   * sibling in the source. Otherwise off any container, and for a copy over
   * its own source without `copySortSource`, a copy leaves the tree and an
   * item stays where it is.
   */
  lemma DragPlacement(o: Options, w: World, env: Env, p: Point, dt: Option<Node>)
    requires StepTarget(o, w, env, p, dt)
    ensures var a := w.s.active.value;
      var r := Drag(o, w, env, p);
      var item := a.Moving();
      var changed := dt.Some? && dt != a.lastDropTarget;
      var ic := ImmediateChild(w.tree, dt, env.hit, Depth(w.tree));
      && (CopyOverSource(o, a, dt) ==> r.w.tree == Detach(w.tree, item) && r.events == Hover(a, dt))
      && (!CopyOverSource(o, a, dt) && dt.Some? && ic.Some? ==>
           var t := dt.value;
           var ref := GetReference(o.direction, w.tree, env.layout, t, ic.value, p.x, p.y);
           && (ShouldShadow(w.tree, item, ref, changed) ==> r.w.s.active.value.currentSibling == ref)
           && (ShouldShadow(w.tree, item, ref, changed) && CanInsert(w.tree, t, item, ref) ==>
                GetParent(r.w.tree, item) == Some(t) && r.events == Hover(a, dt) + [ShadowEv(item, t, a.source)])
           && (!ShouldShadow(w.tree, item, ref, changed) ==> r.w.tree == w.tree && r.events == Hover(a, dt)))
      && (ic.None? && o.revertOnSpill && a.copy.None? && !CopyOverSource(o, a, dt) ==>
           var ref := a.initialSibling;
           && (ShouldShadow(w.tree, item, ref, changed) ==> r.w.s.active.value.currentSibling == ref)
           && (ShouldShadow(w.tree, item, ref, changed) && CanInsert(w.tree, a.source, item, ref) ==>
                GetParent(r.w.tree, item) == Some(a.source) && r.events == Hover(a, dt) + [ShadowEv(item, a.source, a.source)])
           && (!ShouldShadow(w.tree, item, ref, changed) ==> r.w.tree == w.tree && r.events == Hover(a, dt)))
      && (ic.None? && !(o.revertOnSpill && a.copy.None?) && !CopyOverSource(o, a, dt) ==>
           r.w.tree == (if a.copy.Some? then Detach(w.tree, item) else w.tree) && r.events == Hover(a, dt))
  {
    var a := w.s.active.value;
    assert Drag(o, w, env, p) == DragOver(o, w, a, env, p, dt);
  }

  /** Every `out` and `over` of a drag step comes from the hover bookkeeping, never from the shadow. */
  lemma HoverEventsNameTargets(a: Active, dt: Option<Node>, r: Out)
    requires HoverThenShadow(r.events, Hover(a, dt), r.w.tree, a.Moving())
    ensures forall e :: e in r.events && e.OutEv? ==> a.lastDropTarget.Some? && e.container == a.lastDropTarget.value
    ensures forall e :: e in r.events && e.OverEv? ==> dt.Some? && dt != a.lastDropTarget && e.container == dt.value
    ensures r.events == Hover(a, dt) ||
      (|r.events| > 0 && r.events[..|r.events| - 1] == Hover(a, dt) &&
       r.events[|r.events| - 1].ShadowEv? &&
       GetParent(r.w.tree, a.Moving()) == Some(r.events[|r.events| - 1].container))
  {
    var h := Hover(a, dt);
    if r.events != h {
      assert r.events == h + [r.events[|h|]];
      forall e | e in r.events
        ensures e in h || e.ShadowEv?
      {
      }
    }
  }

  /** Over its own source, without `copySortSource`, a copy is only taken out of the tree: nothing is inserted and no `shadow` fires. */
  lemma CopyOverSourceDetaches(o: Options, w: World, a: Active, env: Env, p: Point)
    requires a.copy.Some? && !o.copySortSource
    ensures var r := DragOver(o, w, a, env, p, Some(a.source));
      a.Moving() !in r.w.tree.parent && r.events == Hover(a, Some(a.source))
  {
  }

  /** A live copy (without `copySortSource`) is not a child of its source. */
  ghost predicate CopyOutOfSource(o: Options, w: World) {
    Dragging(w) && w.s.active.value.copy.Some? && !o.copySortSource ==>
      GetParent(w.tree, w.s.active.value.copy.value) != Some(w.s.active.value.source)
  }

  /** A copy starts detached, so the invariant holds from `start` on. */
  lemma StartPutsCopyOutOfSource(o: Options, w: World, ctx: Context)
    requires WellFormed(w.tree)
    requires !Dragging(w)
    ensures CopyOutOfSource(o, Start(o, w, ctx).w)
  {
    CloneIsFresh(w.tree, ctx.item);
  }

  /** No drag step puts a copy into its own source unless `copySortSource` is set. */
  lemma DragKeepsCopyOutOfSource(o: Options, w: World, env: Env, p: Point)
    requires CopyOutOfSource(o, w)
    ensures CopyOutOfSource(o, Drag(o, w, env, p).w)
  {
    if Dragging(w) && w.s.active.value.mirror.Some? {
      var a := w.s.active.value;
      match FindDropTarget(o, w.tree, a, env, p)
      case Raised =>
      case Found(dt) =>
        DragOverKeepsCopyOutOfSource(o, w, a, env, p, dt);
    }
  }

  lemma DragOverKeepsCopyOutOfSource(o: Options, w: World, a: Active, env: Env, p: Point, dt: Option<Node>)
    requires w.s.active == Some(a) && CopyOutOfSource(o, w)
    ensures CopyOutOfSource(o, DragOver(o, w, a, env, p, dt).w)
  {
    var r := DragOver(o, w, a, env, p, dt);
    var b := r.w.s.active.value;
    assert b.copy == a.copy && b.source == a.source && b.item == a.item;
    if a.copy.Some? && !o.copySortSource && !(dt == Some(a.source)) {
      var c := a.copy.value;
      match ImmediateChild(w.tree, dt, env.hit, Depth(w.tree))
      case Some(immediate) =>
        if dt.Some? {
          assert GetParent(r.w.tree, c) == GetParent(w.tree, c) || GetParent(r.w.tree, c) == dt;
        }
      case None =>
    }
  }

  /**
   * Releasing a copy that is out of its source, without `copySortSource`,
   * never emits a `drop` into that source: over the source it spills, and
   * a spill that cancels names the copy's own parent.
   */
  lemma ReleaseNeverDropsCopyIntoSource(o: Options, w: World, env: Env, p: Point)
    requires CopyOutOfSource(o, w)
    requires Dragging(w) && w.s.active.value.copy.Some? && !o.copySortSource
    ensures var a := w.s.active.value;
      forall e :: e in Release(o, w, env, p).events && e.DropEv? ==> e.target != Some(a.source)
  {
    var a := w.s.active.value;
    var w1 := w.(s := Ungrab(w.s));
    ReleaseRoutes(o, w, env, p);
    var r := Release(o, w, env, p);
    match FindDropTarget(o, w1.tree, a, env, p)
    case Raised =>
    case Found(dt) =>
      if !Spilled(o, a, dt) {
        var d := Drop(o, w1, dt);
        forall e | e in d.events && e.DropEv?
          ensures e.target != Some(a.source)
        {
          DropEventFirst(o, w1, dt, e);
        }
      } else if o.removeOnSpill {
        var d := Remove(o, w1);
        forall e | e in d.events
          ensures !e.DropEv?
        {
          RemoveEventsNoDrop(o, w1, e);
        }
      } else {
        var d := Cancel(o, w1, None);
        forall e | e in d.events && e.DropEv?
          ensures e.target != Some(a.source)
        {
          CancelEventFirst(o, w1, None, e);
        }
      }
  }

  /** After the first event of a completed drop, only cleanup's `out` and `dragend` follow. */
  lemma DropEventFirst(o: Options, w: World, target: Option<Node>, e: Event)
    requires Dragging(w)
    requires e in Drop(o, w, target).events && e.DropEv?
    ensures e == Drop(o, w, target).events[0] && e.target == target
  {
    var r := Drop(o, w, target);
    assert !Dragging(r.w);
    assert r.events == [r.events[0]] + FinalEvents(w.s.active.value);
    forall f | f in FinalEvents(w.s.active.value)
      ensures !f.DropEv?
    {
    }
  }

  lemma RemoveEventsNoDrop(o: Options, w: World, e: Event)
    requires Dragging(w) && e in Remove(o, w).events
    ensures !e.DropEv?
  {
    var r := Remove(o, w);
    if e != r.events[0] {
      assert e in FinalEvents(w.s.active.value);
    }
  }

  /** A `drop` from a completed cancel is its first event, naming the moving element's parent. */
  lemma CancelEventFirst(o: Options, w: World, revert: Option<bool>, e: Event)
    requires Dragging(w)
    requires e in Cancel(o, w, revert).events && e.DropEv?
    ensures e.target == GetParent(w.tree, w.s.active.value.Moving())
  {
    var r := Cancel(o, w, revert);
    assert !Dragging(r.w);
    assert r.events == [r.events[0]] + FinalEvents(w.s.active.value);
    forall f | f in FinalEvents(w.s.active.value)
      ensures !f.DropEv?
    {
    }
  }
}

=== FILE: notify.dfy ===
/**
 * How the lifecycle events reach the drake's listeners: each one is an
 * `emit` on the drake's emitter, under the event's type name, with the
 * event's arguments.
 */
module Notify {
  import opened Wrappers
  import opened Emitter
  import opened Lifecycle

  /** The type name `drake.emit` is called with. */
  function TypeOf(e: Event): (ty: string)
    ensures ty != "error"
  {
    match e
    case ClonedEv(_, _, _) => "cloned"
    case DragEv(_, _) => "drag"
    case OverEv(_, _, _) => "over"
    case OutEv(_, _, _) => "out"
    case ShadowEv(_, _, _) => "shadow"
    case DropEv(_, _, _, _) => "drop"
    case CancelEv(_, _, _) => "cancel"
    case RemoveEv(_, _, _) => "remove"
    case DragendEv(_) => "dragend"
  }

  /**
   * Emitting the events in order. No lifecycle type is "error", so no emit
   * throws; each delivers the event to the listeners its type had when it
   * was emitted.
   */
  function Publish(r: Registry, evs: seq<Event>): (res: (Registry, seq<Call<Event>>))
    ensures res.0.once == r.once && res.0.throws == r.throws
    ensures |evs| == 1 ==> res.1 == CallsOf(ListenersOf(r, TypeOf(evs[0])), [evs[0]])
    decreases |evs|
  {
    if |evs| == 0 then (r, [])
    else
      var e := Emit(r, TypeOf(evs[0]), [evs[0]]);
      assert e.Delivered?;
      EmitDropsOnceListeners(r, TypeOf(evs[0]), [evs[0]]);
      var rest := Publish(e.after, evs[1..]);
      (rest.0, e.calls + rest.1)
  }

  /** Publishing to listeners none of which is `once` leaves the registry as it was. */
  lemma {:induction false} PublishKeepsPlainListeners(r: Registry, evs: seq<Event>)
    requires r.once == {}
    ensures Publish(r, evs).0 == r
    decreases |evs|
  {
    if |evs| > 0 {
      var ty := TypeOf(evs[0]);
      var e := Emit(r, ty, [evs[0]]);
      EmitDropsOnceListeners(r, ty, [evs[0]]);
      KeepAllUnmarked(ListenersOf(r, ty), r.once);
      assert e.after == r by {
        if ty in r.evt {
          assert e.after.evt == r.evt[ty := r.evt[ty]];
        }
      }
      PublishKeepsPlainListeners(e.after, evs[1..]);
    }
  }

  /** Some event before position `j` has type `ty`. */
  predicate Seen(evs: seq<Event>, j: nat, ty: string)
    requires j <= |evs|
  {
    exists i :: 0 <= i < j && TypeOf(evs[i]) == ty
  }

  /**
   * The listeners of `ty` when the `j`-th event is emitted: the original
   * list, without its one-shot listeners once an earlier event of that type
   * has fired them.
   */
  function ListenersAt(r: Registry, evs: seq<Event>, j: nat, ty: string): seq<Listener>
    requires j <= |evs|
  {
    if Seen(evs, j, ty) then Keep(ListenersOf(r, ty), r.once) else ListenersOf(r, ty)
  }

  /** The calls the events from position `j` on make, each to the listeners its type has at that point. */
  function CallsFrom(r: Registry, evs: seq<Event>, j: nat): seq<Call<Event>>
    requires j <= |evs|
    decreases |evs| - j
  {
    if j == |evs| then []
    else CallsOf(ListenersAt(r, evs, j, TypeOf(evs[j])), [evs[j]]) + CallsFrom(r, evs, j + 1)
  }

  /**
   * Publishing a sequence of events calls, event after event and in order,
   * each listener of the event's type with that event; a one-shot listener
   * fired by an earlier event of the same type is not called again.
   */
  lemma PublishCalls(r: Registry, evs: seq<Event>)
    ensures Publish(r, evs).1 == CallsFrom(r, evs, 0)
  {
    assert evs[0..] == evs;
    forall ty
      ensures ListenersOf(r, ty) == ListenersAt(r, evs, 0, ty)
    {
      assert !Seen(evs, 0, ty);
    }
    PublishFrom(r, r, evs, 0);
  }

  /** The induction behind PublishCalls: `cur` is the registry once the first `j` events are out. */
  lemma {:induction false} PublishFrom(r: Registry, cur: Registry, evs: seq<Event>, j: nat)
    requires j <= |evs| && cur.once == r.once
    requires forall ty :: ListenersOf(cur, ty) == ListenersAt(r, evs, j, ty)
    ensures Publish(cur, evs[j..]).1 == CallsFrom(r, evs, j)
    decreases |evs| - j
  {
    if j < |evs| {
      var ev := evs[j];
      var ty := TypeOf(ev);
      assert evs[j..][0] == ev && evs[j..][1..] == evs[j + 1..];
      var e := Emit(cur, ty, [ev]);
      assert e.calls == CallsOf(ListenersOf(cur, ty), [ev]);
      EmitDropsOnceListeners(cur, ty, [ev]);
      assert Seen(evs, j + 1, ty);
      if Seen(evs, j, ty) {
        KeepIdempotent(ListenersOf(r, ty), r.once);
      }
      forall other
        ensures ListenersOf(e.after, other) == ListenersAt(r, evs, j + 1, other)
      {
        if other != ty {
          assert Seen(evs, j + 1, other) ==> Seen(evs, j, other);
        }
      }
      PublishFrom(r, e.after, evs, j + 1);
    }
  }

  /** Dropping the one-shot listeners twice is dropping them once. */
  lemma {:induction false} KeepIdempotent(s: seq<Listener>, once: set<Listener>)
    ensures Keep(Keep(s, once), once) == Keep(s, once)
    decreases |s|
  {
    if |s| > 0 {
      var rest := Keep(s[1..], once);
      KeepIdempotent(s[1..], once);
      if s[0] in once {
        assert Keep(s, once) == [] + rest == rest;
      } else {
        var k := [s[0]] + rest;
        assert Keep(s, once) == k;
        assert k[0] == s[0] && k[1..] == rest;
        assert Keep(k, once) == [s[0]] + Keep(rest, once);
      }
    }
  }

  lemma {:induction false} KeepAllUnmarked(s: seq<Listener>, once: set<Listener>)
    requires once == {}
    ensures Keep(s, once) == s
  {
    if |s| > 0 {
      KeepAllUnmarked(s[1..], once);
    }
  }
}

=== FILE: policy.dfy ===
/**
 * The drake's options and the grab test built on them. The five caller
 * hooks are uninterpreted total functions; a boolean `copy` option is the
 * constant function. Hooks answer synchronously and have no effect.
 */
module Policy {
  import opened Wrappers
  import opened Dom

  /** `direction`: "horizontal", "mixed", anything else is vertical. */
  datatype Direction = Vertical | Horizontal | Mixed

  /** `axis`: "x", "y", anything else leaves both axes free. */
  datatype Axis = AxisNone | AxisX | AxisY

  datatype Options = Options(
    containers: seq<Node>,                          // `drake.containers`
    isContainer: Node -> bool,
    moves: (Node, Node, Node, Option<Node>) -> bool,   // (item, source, handle, sibling)
    accepts: (Node, Node, Node, Option<Node>) -> bool, // (item, target, source, sibling)
    invalid: (Node, Node) -> bool,                     // (el, handle)
    copy: (Node, Node) -> bool,                        // (item, source)
    copySortSource: bool,
    revertOnSpill: bool,
    removeOnSpill: bool,
    direction: Direction,
    axis: Axis,
    ignoreInputTextSelection: bool,
    mirrorContainer: Node,
    scrollThreshold: int,    // `scrollThesholdOnTouchDevices`
    slideFactorX: int,
    slideFactorY: int)

  /** The options filled in with their defaults, given the containers and the document body. */
  function DefaultOptions(containers: seq<Node>, body: Node): (o: Options)
    ensures forall n :: !o.isContainer(n)
    ensures forall a, b :: !o.invalid(a, b)
    ensures forall a, b, c, d :: o.moves(a, b, c, d) && o.accepts(a, b, c, d)
    ensures forall a, b :: !o.copy(a, b)
    ensures o.direction == Vertical && o.axis == AxisNone && o.ignoreInputTextSelection
    ensures !o.copySortSource && !o.revertOnSpill && !o.removeOnSpill
    ensures o.scrollThreshold == 5 && o.slideFactorX == 5 && o.slideFactorY == 5
    ensures o.mirrorContainer == body && o.containers == containers
  {
    Options(containers, n => false, (a, b, c, d) => true, (a, b, c, d) => true,
      (a, b) => false, (a, b) => false, false, false, false, Vertical, AxisNone,
      true, body, 5, 5, 5)
  }

  /** `isContainer`: registered in `drake.containers`, or claimed by the hook. */
  predicate IsContainer(o: Options, n: Node) {
    n in o.containers || o.isContainer(n)
  }

  datatype Context = Context(item: Node, source: Node)

  /**
   * The climb in `canStart`: from `item` go up while the parent exists and is
   * not a container, refusing as soon as `invalid(item, handle)` holds.
   * Yields the element whose parent is a container or missing.
   */
  function Climb(o: Options, t: Tree, item: Node, handle: Node, fuel: nat): (r: Option<Node>)
    ensures r.Some? ==> GetParent(t, r.value).None? || IsContainer(o, GetParent(t, r.value).value)
    decreases fuel
  {
    match GetParent(t, item)
    case None => Some(item)
    case Some(p) =>
      if IsContainer(o, p) then Some(item)
      else if o.invalid(item, handle) then None
      else if fuel == 0 then None
      else Climb(o, t, p, handle, fuel - 1)
  }

  /** Step `j` of the climb from `n` goes through: a non-container parent exists and the element is not invalid. */
  ghost predicate Passes(o: Options, t: Tree, n: Node, handle: Node, j: nat) {
    && Anc(t, n, j).Some? && Anc(t, n, j + 1).Some?
    && !IsContainer(o, Anc(t, n, j + 1).value)
    && !o.invalid(Anc(t, n, j).value, handle)
  }

  /** The climb from `n` passes its first `k` steps and stops at the k-th ancestor. */
  ghost predicate StopsAt(o: Options, t: Tree, n: Node, handle: Node, k: nat) {
    && Anc(t, n, k).Some?
    && (forall j :: 0 <= j < k ==> Passes(o, t, n, handle, j))
    && (GetParent(t, Anc(t, n, k).value).None? || IsContainer(o, GetParent(t, Anc(t, n, k).value).value))
  }

  /** The climb yields `top` exactly when it stops, within its fuel, at an ancestor that is `top`. */
  lemma {:induction false} ClimbSpec(o: Options, t: Tree, n: Node, handle: Node, fuel: nat, top: Node)
    ensures Climb(o, t, n, handle, fuel) == Some(top) <==>
      exists k :: 0 <= k <= fuel && StopsAt(o, t, n, handle, k) && Anc(t, n, k) == Some(top)
    decreases fuel
  {
    assert Anc(t, n, 0) == Some(n);
    match GetParent(t, n)
    case None =>
      forall k | 1 <= k <= fuel
        ensures !StopsAt(o, t, n, handle, k)
      {
        assert !Passes(o, t, n, handle, 0);
      }
      assert StopsAt(o, t, n, handle, 0);
    case Some(p) =>
      AncShift(t, n, p, fuel);
      if IsContainer(o, p) || o.invalid(n, handle) {
        forall k | 1 <= k <= fuel
          ensures !StopsAt(o, t, n, handle, k)
        {
          assert !Passes(o, t, n, handle, 0);
        }
        if IsContainer(o, p) {
          assert StopsAt(o, t, n, handle, 0);
        }
      } else if fuel == 0 {
        assert !StopsAt(o, t, n, handle, 0);
      } else {
        ClimbSpec(o, t, p, handle, fuel - 1, top);
        assert !StopsAt(o, t, n, handle, 0);
        assert Passes(o, t, n, handle, 0);
        forall k | 1 <= k <= fuel
          ensures StopsAt(o, t, n, handle, k) <==> StopsAt(o, t, p, handle, k - 1)
        {
          forall j | 0 <= j < k - 1
            ensures Passes(o, t, n, handle, j + 1) <==> Passes(o, t, p, handle, j)
          {
          }
          if StopsAt(o, t, p, handle, k - 1) {
            forall j | 0 <= j < k
              ensures Passes(o, t, n, handle, j)
            {
              if j > 0 {
                assert Passes(o, t, p, handle, j - 1);
              }
            }
          }
        }
        if Climb(o, t, n, handle, fuel) == Some(top) {
          var k :| 0 <= k <= fuel - 1 && StopsAt(o, t, p, handle, k) && Anc(t, p, k) == Some(top);
          assert StopsAt(o, t, n, handle, k + 1) && Anc(t, n, k + 1) == Some(top);
        }
      }
  }

  /**
   * `canStart(handle)`: refuse while a drag with a mirror is live or when the
   * pressed element is a container; climb to the child of a container;
   * refuse when that element is invalid, has no parent, or `moves` says no.
   */
  function CanStart(o: Options, t: Tree, busy: bool, handle: Node): (r: Option<Context>)
    ensures r.Some? ==> !busy && !IsContainer(o, handle)
    ensures r.Some? ==> GetParent(t, r.value.item) == Some(r.value.source) && IsContainer(o, r.value.source)
    ensures r.Some? ==> !o.invalid(r.value.item, handle)
    ensures r.Some? ==> o.moves(r.value.item, r.value.source, handle, NextEl(t, r.value.item))
  {
    if busy || IsContainer(o, handle) then None
    else match Climb(o, t, handle, handle, Depth(t))
      case None => None
      case Some(item) =>
        match GetParent(t, item)
        case None => None
        case Some(source) =>
          if o.invalid(item, handle) || !o.moves(item, source, handle, NextEl(t, item)) then None
          else Some(Context(item, source))
  }

  /**
   * A grab succeeds with `(item, source)` exactly when nothing is live, the
   * handle is no container, the climb from the handle stops at `item` with
   * no invalid element on the way, `item`'s parent is `source`, `item` is
   * not invalid and `moves` agrees.
   */
  lemma CanStartSpec(o: Options, t: Tree, busy: bool, handle: Node, item: Node, source: Node)
    ensures CanStart(o, t, busy, handle) == Some(Context(item, source)) <==>
      && !busy && !IsContainer(o, handle)
      && (exists k :: 0 <= k <= Depth(t) && StopsAt(o, t, handle, handle, k) && Anc(t, handle, k) == Some(item))
      && GetParent(t, item) == Some(source)
      && !o.invalid(item, handle)
      && o.moves(item, source, handle, NextEl(t, item))
  {
    ClimbSpec(o, t, handle, handle, Depth(t), item);
  }

  /** With the default options, pressing a direct child of a registered container grabs that child. */
  lemma DefaultsGrabChildOfContainer(t: Tree, containers: seq<Node>, body: Node, handle: Node)
    requires handle in t.parent && t.parent[handle] in containers && handle !in containers
    ensures CanStart(DefaultOptions(containers, body), t, false, handle) == Some(Context(handle, t.parent[handle]))
  {
  }
}

=== FILE: seqs.dfy ===
/** Array helpers the source leans on (`indexOf`, `splice`, removal of a child). */
module Seqs {
  import opened Wrappers

  predicate Distinct<T(==)>(s: seq<T>) {
    forall i, j :: 0 <= i < j < |s| ==> s[i] != s[j]
  }

  /** `Array.prototype.indexOf`: the first position holding `x`, or None (the source's -1). */
  function IndexOf<T(==)>(s: seq<T>, x: T): (r: Option<nat>)
    ensures r.Some? ==> r.value < |s| && s[r.value] == x
    ensures r.Some? ==> forall j :: 0 <= j < r.value ==> s[j] != x
    ensures r.None? <==> x !in s
  {
    if |s| == 0 then None
    else if s[0] == x then Some(0)
    else match IndexOf(s[1..], x)
      case None => None
      case Some(i) => Some(i + 1)
  }

  /** `s` with every occurrence of `x` dropped, order kept. */
  function Without<T(==,!new)>(s: seq<T>, x: T): (r: seq<T>)
    ensures forall y :: y in r <==> y in s && y != x
    ensures |r| <= |s|
    ensures x !in s ==> r == s
    ensures Distinct(s) ==> Distinct(r)
  {
    if |s| == 0 then []
    else
      var rest := Without(s[1..], x);
      assert Distinct(s) ==> s[0] !in s[1..] by {
        forall k | 0 <= k < |s| - 1
          ensures Distinct(s) ==> s[1..][k] != s[0]
        {
          assert s[1..][k] == s[k + 1];
        }
      }
      if s[0] == x then rest else [s[0]] + rest
  }

  lemma {:induction false} WithoutConcat<T(!new)>(a: seq<T>, b: seq<T>, x: T)
    ensures Without(a + b, x) == Without(a, x) + Without(b, x)
    decreases |a|
  {
    if |a| > 0 {
      assert (a + b)[1..] == a[1..] + b;
      WithoutConcat(a[1..], b, x);
    } else {
      assert a + b == b;
    }
  }

  /** Dropping a value put into a sequence that had none gives the sequence back. */
  lemma WithoutInserted<T(!new)>(c: seq<T>, x: T, i: nat)
    requires x !in c && i <= |c|
    ensures Without(c[..i] + [x] + c[i..], x) == c
  {
    var a, b := c[..i], c[i..];
    assert x !in a && x !in b;
    WithoutConcat(a + [x], b, x);
    WithoutConcat(a, [x], x);
    assert Without([x], x) == Without([x][1..], x);
    assert [x][1..] == [];
    assert Without(a, x) == a && Without(b, x) == b;
    assert a + [] + b == c;
  }

  /** The element after a value put into a sequence that had none is the one it was put before. */
  lemma NextInInserted<T>(c: seq<T>, x: T, i: nat)
    requires x !in c && i <= |c|
    ensures NextIn(c[..i] + [x] + c[i..], x) == if i < |c| then Some(c[i]) else None
  {
    var c' := c[..i] + [x] + c[i..];
    IndexOfInserted(c, x, i);
    if i < |c| {
      assert c'[i + 1] == c[i];
    }
  }

  /** The first `x` in a sequence that had none is where it was put. */
  lemma IndexOfInserted<T>(c: seq<T>, x: T, i: nat)
    requires x !in c && i <= |c|
    ensures IndexOf(c[..i] + [x] + c[i..], x) == Some(i)
  {
    var c' := c[..i] + [x] + c[i..];
    assert c'[i] == x;
  }

  /** The element right after the first `x` in `s`, if any. */
  function NextIn<T(==)>(s: seq<T>, x: T): Option<T> {
    match IndexOf(s, x)
    case None => None
    case Some(i) => if i + 1 < |s| then Some(s[i + 1]) else None
  }

  lemma IndexOfDistinct<T>(s: seq<T>, k: nat)
    requires Distinct(s) && k < |s|
    ensures IndexOf(s, s[k]) == Some(k)
  {
  }

  /** In a sequence without duplicates, dropping a value is removing its one position. */
  lemma {:induction false} WithoutDistinct<T(!new)>(s: seq<T>, j: nat)
    requires Distinct(s) && j < |s|
    ensures Without(s, s[j]) == RemoveAt(s, j)
    decreases j
  {
    var x := s[j];
    if j == 0 {
      assert x !in s[1..] by {
        forall k | 0 <= k < |s| - 1
          ensures s[1..][k] != x
        {
          assert s[1..][k] == s[k + 1];
        }
      }
      assert RemoveAt(s, 0) == s[1..];
    } else {
      var t := s[1..];
      assert Distinct(t) by {
        forall a, b | 0 <= a < b < |t|
          ensures t[a] != t[b]
        {
          assert t[a] == s[a + 1] && t[b] == s[b + 1];
        }
      }
      assert t[j - 1] == x;
      WithoutDistinct(t, j - 1);
      assert RemoveAt(s, j) == [s[0]] + RemoveAt(t, j - 1);
    }
  }

  /** Dropping a value other than `x` and its successor keeps the successor of `x`. */
  lemma NextInWithout<T(!new)>(s: seq<T>, m: T, x: T)
    requires Distinct(s) && m != x && NextIn(s, x) != Some(m)
    ensures NextIn(Without(s, m), x) == NextIn(s, x)
  {
    if m in s && x in s {
      var j := IndexOf(s, m).value;
      var i := IndexOf(s, x).value;
      WithoutDistinct(s, j);
      NextInRemoveAt(s, j, i);
    }
  }

  lemma NextInRemoveAt<T>(s: seq<T>, j: nat, i: nat)
    requires Distinct(s) && j < |s| && i < |s| && i != j && (i + 1 < |s| ==> i + 1 != j)
    ensures NextIn(RemoveAt(s, j), s[i]) == NextIn(s, s[i])
  {
    var s2 := RemoveAt(s, j);
    assert Distinct(s2) by {
      forall a, b | 0 <= a < b < |s2|
        ensures s2[a] != s2[b]
      {
        var a' := if a < j then a else a + 1;
        var b' := if b < j then b else b + 1;
        assert s2[a] == s[a'] && s2[b] == s[b'];
      }
    }
    IndexOfDistinct(s, i);
    var i2 := if j < i then i - 1 else i;
    assert s2[i2] == s[i];
    IndexOfDistinct(s2, i2);
    if i + 1 < |s| {
      assert s2[i2 + 1] == s[i + 1];
    }
  }

  /** `s` with the element at `i` removed. */
  function RemoveAt<T>(s: seq<T>, i: nat): (r: seq<T>)
    requires i < |s|
    ensures |r| == |s| - 1
    ensures forall j :: 0 <= j < i ==> r[j] == s[j]
    ensures forall j :: i <= j < |r| ==> r[j] == s[j + 1]
  {
    s[..i] + s[i + 1..]
  }
}

=== FILE: wrappers.dfy ===
/** The nullable-reference idiom of the source (`null` / an element) as an Option. */
module Wrappers {

  datatype Option<+T> = None | Some(value: T) {

    /** The wrapped value, or `default` when there is none. */
    function GetOr(default: T): T {
      match this
      case Some(v) => v
      case None => default
    }
  }
}
